=== FILE: README.md ===
# Query-parameter compiler of sails-hook-simple-api, in Dafny

This project models the query-parameter compiler of the Sails hook
`sails-hook-simple-api` (`lib/apiUtil.js`). The compiler takes a request and
turns it into a query descriptor:

- a `where` clause, read from the filter parameters through a small modifier
  grammar;
- a page, a limit and a populate limit, each falling back through a fixed
  chain of defaults and then clamped by its maximum;
- a populate setting, and the associations it selects;
- a sort object;
- a field selection.

The compiler also writes each descriptor back as a query fragment, and it
builds the first, previous, next and last pagination links from those
fragments.

Every input is an explicit argument:

- the request: its query map, route parameters and route options;
- the model: its attributes, primary key, association aliases and
  per-model override block;
- the hook's global configuration block.

With those as arguments, every operation is a pure function.

## Files

| file | module | what it holds |
|---|---|---|
| `wrappers.dfy` | `Wrappers` | `Option` and `Result` |
| `strings.dfy` | `Strings` | lodash `_.trim`, `split`/`join` on one character, ASCII lower-casing, character removal |
| `lists.dfy` | `Lists` | `_.uniq`, `indexOf`/`splice` removal, filtering by membership |
| `ordered_map.dfy` | `OrderedMap` | JavaScript objects as insertion-ordered association lists |
| `js_number.dfy` | `JsNumber` | `parseInt`, and the decimal text of an integer |
| `uri_encoding.dfy` | `UriEncoding` | `encodeURIComponent` and its inverse |
| `config.dfy` | `Config` | configuration values, the hook's defaults, the parameter-name resolvers |
| `schema.dfy` | `Schema` | the part of a model the compiler reads |
| `request.dfy` | `Request` | `req.param`, `getFilterParams`, `parsePk`, `parseRequiredPk` |
| `modifiers.dfy` | `Modifiers` | the modifier alternation, its translation table and the reverse table |
| `like_pattern.dfy` | `LikePattern` | the `*`→`%` rewrite under `like` |
| `criteria.dfy` | `Criteria` | compiling one filter value |
| `where_clause.dfy` | `WhereClause` | `parseCriteria`: blacklist, merge, admission, compilation |
| `criteria_text.dfy` | `CriteriaText` | `parseCriteriaToString` and what survives a second compilation |
| `numeric.dfy` | `Numeric` | page, limit, populate limit, their maximums and fragments |
| `populate.dfy` | `Populate` | `parsePopulate`, its fragment, and the association selection in `populate` |
| `sort.dfy` | `Sort` | `parseSort` and `parseSortToString` |
| `fields.dfy` | `Fields` | `parseFields` and `parseFieldsToString` |
| `pagination.dfy` | `Pagination` | `getPaginationUrls` |

Three things are function parameters rather than definitions:

- **Date parsing.** `tryDate: string -> Option<int>` stands for the
  timestamp-then-free-text attempt of `lib/helper.js`.
- **Date rendering.** `dateText: int -> string` stands for a date's string
  form.
- **Out-of-scope fragments.** The pretty, envelope and JSONP fragments and
  the current URL enter the pagination links as opaque strings
  (`Pagination.Outside`).

`sails.config.blueprints.defaultLimit` is the parameter `blueprintsLimit`.

## Model

| member | source | states |
|---|---|---|
| Config.PositiveInt | lib/apiUtil.js:1199-1213 | A value passes the guard `!isNaN(parseInt(v)) && parseInt(v) >= 1` exactly when `parseInt` reads a number of at least 1 from it, and then it gives that number. A number value of at least 1 passes as itself. |
| Config.CapOf | lib/apiUtil.js:1264-1271 | `false`, and only `false`, means no cap. Any other value gives a cap exactly when it passes the positive-number guard, and the cap is the number `parseInt` reads from it. |
| Config.FirstTextOfFour | lib/apiUtil.js:1589-1605 | A four-link `if … else if …` chain, link by link: the first candidate that is a string with something other than white space wins, trimmed. When none is, there is no text. |
| Config.FirstText | lib/apiUtil.js:1589-1605 | The first candidate that is non-blank text wins, trimmed. Blank or non-text candidates are skipped. No candidate gives nothing. A result is always a non-empty trimmed token. |
| Config.ResolveName | lib/apiUtil.js:1169-1181 | A configured string with something other than white space gives its trimmed text. Anything else gives the built-in name. The result is always a non-empty trimmed token. |
| Config.PageName | lib/apiUtil.js:1169-1181 | The page parameter's name is the configured string, trimmed, when that is a string with something other than white space. Otherwise it is `page`. It is always a non-empty trimmed token. |
| Config.LimitName | lib/apiUtil.js:1234-1246 | The limit parameter's name is the configured string, trimmed, when that is a string with something other than white space. Otherwise it is `limit`. It is always a non-empty trimmed token. |
| Config.PopulateName | lib/apiUtil.js:1341-1353 | The populate parameter's name is the configured string, trimmed, when that is a string with something other than white space. Otherwise it is `populate`. It is always a non-empty trimmed token. |
| Config.PopulateLimitName | lib/apiUtil.js:1425-1437 | The populate-limit parameter's name is the configured string, trimmed, when that is a string with something other than white space. Otherwise it is `populateLimit`. It is always a non-empty trimmed token. |
| Config.SortName | lib/apiUtil.js:1559-1571 | The sort parameter's name is the configured string, trimmed, when that is a string with something other than white space. Otherwise it is `sort`. It is always a non-empty trimmed token. |
| Config.FieldsName | lib/apiUtil.js:1667-1679 | The fields parameter's name is the configured string, trimmed, when that is a string with something other than white space. Otherwise it is `fields`. It is always a non-empty trimmed token. |
| Config.PrettyName | lib/apiUtil.js:440-452 | The pretty parameter's name is the configured string, trimmed, when that is a string with something other than white space. Otherwise it is `pretty`. It is always a non-empty trimmed token. |
| Config.EnvelopeName | lib/apiUtil.js:498-510 | The envelope parameter's name is the configured string, trimmed, when that is a string with something other than white space. Otherwise it is `envelope`. It is always a non-empty trimmed token. |
| Config.JsonpName | lib/apiUtil.js:604-616 | The JSONP parameter's name is the configured string, trimmed, when that is a string with something other than white space. Otherwise it is `callback`. It is always a non-empty trimmed token. |
| Config.HookDefaultNames | index.js:17-52 | Under the hook's own defaults every parameter has its built-in name: `page`, `limit`, `populate`, `populateLimit`, `sort`, `fields`, `pretty`, `envelope` and `callback`. |
| Schema.PkKey | lib/apiUtil.js:657-671 | The declared primary key's name when the model declares one as a string. Otherwise `false`, which is used as the key `"false"`. |
| Request.Param | lib/apiUtil.js:686 | `req.param` finds a name exactly when a route parameter or the query has it. A route parameter shadows the query. |
| Request.ParamVal | lib/apiUtil.js:1199 | A parameter's value as JavaScript sees it: `undefined` exactly when the parameter is absent. |
| Request.MixInKeys | lib/apiUtil.js:274-283 | Mixing in route parameters keeps every query key, in place, and adds only route-parameter names. |
| Request.MixInGet | lib/apiUtil.js:277-283 | Each mixing step keeps the reading of every name settled so far, so after the loop every name reads its filter value. |
| Request.FilterParams | lib/apiUtil.js:267-286 | After `getFilterParams`, a name reads as a non-empty query value when there is one. Otherwise it reads as the route parameter when there is one, and otherwise as the query value. Every query key survives, in place. |
| Request.MixInQuery | lib/apiUtil.js:274-286 | Mixing every route parameter into the query gives each name exactly that reading, and keeps the query's keys as a prefix. |
| Request.NonBlank | lib/apiUtil.js:689-690 | Blank text means absent. Other text is kept trimmed. |
| Request.ParsePk | lib/apiUtil.js:681-693 | The primary-key value comes from the first truthy source, stringified, trimmed, with blank meaning absent. The sources are the route option `id`, then the parameter `id`, then the parameter named after the primary key. A value, when there is one, is a usable token. |
| Request.ParseRequiredPk | lib/apiUtil.js:703-723 | Succeeds exactly when `parsePk` gives a value, and returns that value. Otherwise it fails with the missing-`id` error. |
| Modifiers.MatchModifier | lib/apiUtil.js:963-965 | A modifier is matched exactly when the value starts with one of `= ! @ % * < >`. The matched token is a prefix of the value. |
| Modifiers.ModifierIsLongestMatch | lib/apiUtil.js:867 | The alternation takes the longest token, so two-character tokens (`>=`, `><`, `=<`, `!=`, …) beat their one-character prefixes. Nothing is matched exactly when no token is a prefix. |
| Modifiers.Translate | lib/apiUtil.js:868-883 | `=` and `==` mean equality and nothing else does. `><` is the between pair and nothing else is. A token starting with `!` is `not`, and only such a token is. `@` and `=@` are `contains`, `%`, `=%`, `*` and `=*` are `like`, `=<` is `endsWith` and `=>` is `startsWith`, each exactly. The comparison tokens `<`, `<=`, `>`, `>=` are not in the table, so they keep their own text as the operator key. |
| Modifiers.Key | lib/apiUtil.js:1040-1062 | Each operator's key in the filter object is its Waterline name: `not`, `contains`, `like`, `startsWith`, `endsWith`, `<`, `<=`, `>`, `>=`. It starts with `<` or `>` exactly for the four comparisons. |
| Modifiers.KeyInjective | lib/apiUtil.js:1040-1062 | Distinct operators have distinct keys in the filter object. |
| Modifiers.Literal | lib/apiUtil.js:1086-1093 | The serialiser writes `not` as `!`, `contains` as `@`, `like` as `%`, `endsWith` as `=<`, `startsWith` as `=>`, and each comparison as its own key. The first character is a modifier character, so the written text is matched by the modifier alternation. |
| Modifiers.LiteralReadsBack | lib/apiUtil.js:868-883 | The serialiser's reverse table inverts the translation table. Each operator's literal, in front of a payload that starts with no modifier character, is matched as exactly that literal and translated back to the same operator. |
| LikePattern.LikeRewrite | lib/apiUtil.js:970-973 | The `like` rewrite keeps the length. It changes only `*` characters, each into `%`, and only a star that is the last unescaped one of its backslash-free run. |
| LikePattern.LikeRewriteExactly | lib/apiUtil.js:972 | A character changes exactly when it is the last unescaped `*` of a backslash-free run, and then it becomes `%`. |
| LikePattern.LikeRewriteNoStar | lib/apiUtil.js:972 | Without a `*` the payload is left as it is. |
| LikePattern.LikeRewriteLastStar | lib/apiUtil.js:972 | In a payload without backslashes only the last `*` becomes `%`; earlier ones stay. |
| Criteria.UniqValues | lib/apiUtil.js:1012 | `_.uniq` on compiled values leaves no repeated value. It keeps exactly the same values and never grows the list. It keeps every date, because dates are distinct objects. |
| Criteria.UniqValuesFirstOrder | lib/apiUtil.js:1012 | The kept values other than dates stand in the order of their first occurrences in the list. |
| Criteria.UniqValuesIsUniq | lib/apiUtil.js:1012 | The de-duplication is exactly `_.uniq` once each date is told apart by its position, so the result, dates included, is each value at its first occurrence, in list order. |
| Criteria.UniqValuesOfDistinct | lib/apiUtil.js:1012 | `_.uniq` leaves a list without repeats unchanged. |
| Criteria.CoerceElement | lib/apiUtil.js:987-1010 | A list element is coerced case-insensitively: `false`→0, `true`→1, and `null`/`undefined`/empty→null. On a date attribute the element becomes a date when date parsing succeeds. Any other element stays text. |
| Criteria.CoerceScalar | lib/apiUtil.js:1016-1037 | A scalar is coerced the same way, except that an empty word becomes `%` under `like`. On a date attribute any other value raises, because the scalar branch calls the undefined `HelperService`. |
| Criteria.PayloadText | lib/apiUtil.js:963-978 | The payload left after a modifier, or after an escaped modifier, is trimmed. |
| Criteria.PayloadTextIs | lib/apiUtil.js:963-978 | After a matched modifier the payload is the trimmed remainder behind the token. Only under `like` may it differ, and then only by `*` turned into `%`. After an escaped modifier it is the trimmed text behind the backslash. Otherwise it is the value itself. |
| Criteria.BetweenOfList | lib/apiUtil.js:1044-1056 | For a list, the `><` pair takes list element 0 as the `>=` bound and element 1 as the `<=` bound. A missing element drops its bound. |
| Criteria.ListCriterion | lib/apiUtil.js:1040-1062 | A list payload gives the shape its modifier calls for: equality with the whole list, the one operator with the whole list, or the between pair built from elements 0 and 1. Its lists are non-empty and free of repeats. |
| Criteria.ScalarCriterion | lib/apiUtil.js:1040-1062 | A scalar gives the shape its modifier calls for: equality with the value, or the one operator with the value. Under `><`, text fills both bounds with itself and a number or date fills neither. `null` raises, because it cannot be indexed, and raising happens exactly then. |
| Criteria.CompileValue | lib/apiUtil.js:956-1062 | A compiled value always has the shape of its leading modifier and clean lists. It can fail only in two ways: the date service error, which needs a date attribute, or the between-on-null error, which needs `><`. |
| Criteria.PayloadAfterModifier | lib/apiUtil.js:963-973 | After a matched modifier, the translated modifier applies. A trimmed remainder is the payload, unchanged when there is no `*` to rewrite. |
| Criteria.PayloadWithoutModifier | lib/apiUtil.js:963-978 | A value that starts with neither a modifier nor a backslash is equality, with the whole value as its payload. |
| Criteria.CompileScalarAs | lib/apiUtil.js:1014-1062 | A payload that is not read as a list compiles to the criterion of its coerced scalar. |
| Criteria.CompileListAs | lib/apiUtil.js:980-1062 | Under equality, `not` or `><`, a payload with a comma compiles to the de-duplicated list of its coerced pieces. That list is non-empty and free of repeats. |
| WhereClause.Reserved | lib/apiUtil.js:896-923 | The reserved names are the envelope, page, limit, populate, populate-limit, sort and fields parameters, and nothing else except: the primary key when the model has one, the pretty parameter when pretty output is requested, and the JSONP parameter when JSONP is supported. Each of those is reserved in its case. |
| WhereClause.Blacklist | lib/apiUtil.js:886-923 | The blacklist raises exactly when the route's list is truthy but not an array. Otherwise it holds every name of the route's list, or `id` when that list is falsy, plus every reserved name, and no other name. |
| WhereClause.MergeGet | lib/apiUtil.js:941 | After `_.merge`, a key reads as the source's value when the source has it, else as before. |
| WhereClause.PkEntry | lib/apiUtil.js:932-938 | The primary-key criterion exists exactly when the model has a primary key and `parsePk` gives a value. It is that one entry. |
| WhereClause.PkEntryGet | lib/apiUtil.js:932-938 | The primary-key criterion reads the `parsePk` value under the primary key, when the model has one and `parsePk` gives a value, and nothing under any other name. |
| WhereClause.MergeChainGet | lib/apiUtil.js:926-941 | The three merges read each name as: the request's filter value when the name is not blacklisted and has one; else the `parsePk` value when the name is the primary key and there is one; else the route's `where` entry. |
| WhereClause.Merged | lib/apiUtil.js:926-941 | Every name of the merged object reads by that precedence: unblacklisted filter value, then primary-key criterion, then route `where`. |
| WhereClause.BlacklistedNotFromRequest | lib/apiUtil.js:926-941 | A blacklisted name is never taken from the request's filter parameters. |
| WhereClause.PkEntryFromParsePk | lib/apiUtil.js:932-941 | With the primary key blacklisted, its criterion is the `parsePk` value when there is one. Otherwise it is the route's `where` entry. |
| WhereClause.AdmitFromSound | lib/apiUtil.js:943-952 | Each admission step keeps the invariant that every admitted key is the trimmed name of a column named in `where`, read under that key. |
| WhereClause.AdmitFromComplete | lib/apiUtil.js:943-952 | Every column named in `where` is admitted, under its trimmed name. |
| WhereClause.AdmitFromExactly | lib/apiUtil.js:943-952 | The admission loop from the start keeps exactly the model's non-collection attributes named in `where`: every kept key is such a name, trimmed, read under that key, with no repeated key, and every such name is kept. |
| WhereClause.Admit | lib/apiUtil.js:943-952 | The admitted criteria are exactly the trimmed names of the model's non-collection attributes present in `where`, each read under its trimmed name, with no repeated key. |
| WhereClause.CompileAll | lib/apiUtil.js:955-1064 | On success, every admitted key keeps its place and holds its compiled value. A failure is the error of the first admitted value that fails, and every value before it compiles. It can only be the missing helper service or `><` on null. |
| WhereClause.ParseCriteria | lib/apiUtil.js:861-1078 | `parseCriteria` fails with the blacklist error exactly when the blacklist is invalid. It never fails for a missing `id`. |
| WhereClause.ParseCriteriaColumns | lib/apiUtil.js:934-1078 | With a usable blacklist, `parseCriteria` succeeds exactly when the merged value under every column compiles. On success every column appears under its trimmed name. A failure is the error of some column's value. |
| WhereClause.CompileAdmitted | lib/apiUtil.js:955-1064 | Compiling the admitted columns succeeds exactly when the value under every column compiles, keeps every column under its trimmed name, and otherwise raises some column's error. |
| WhereClause.ParseCriteriaAdmission | lib/apiUtil.js:861-1078 | Every key of the parsed criteria is the trimmed name of a model attribute that is an object without `collection`. Its criterion is the merged value for that key, compiled. |
| CriteriaText.CriterionText | lib/apiUtil.js:1100-1140 | A criterion's text: `null` and a date give nothing. A one-operator object starts with the operator's literal. The `>=`/`<=` pair starts with `><`. Any other object gives nothing. |
| CriteriaText.FieldText | lib/apiUtil.js:1143-1158 | A field is written as the bare name when its text trims to nothing. Otherwise it is written as `name=` followed by the trimmed text, encoded unless decoding is asked for. |
| CriteriaText.FieldTextHasNoAmpersand | lib/apiUtil.js:1143-1158 | An encoded fragment holds `&` only when its name does. |
| CriteriaText.CriteriaToString | lib/apiUtil.js:1080-1162 | No criteria give the empty text. With encoding and `&`-free names, splitting the text on `&` gives back exactly the fragments, one per criterion in key order. |
| CriteriaText.EncodedFieldHasNoSeparators | lib/apiUtil.js:1144-1147 | An encoded value never contains `&` or `=`, so the fragments stay separate. |
| CriteriaText.CompileEquals | lib/apiUtil.js:1040-1102 | Plain text, written as it is, compiles back to equality with itself. |
| CriteriaText.CompileEqualsList | lib/apiUtil.js:980-1106 | A list of distinct plain strings, written comma-joined, compiles back to equality with the list. |
| CriteriaText.CompileSingleOp | lib/apiUtil.js:963-1119 | An operator's literal followed by plain text compiles back to that operator on the text. A `like` pattern must be without `*`. |
| CriteriaText.CompileNotList | lib/apiUtil.js:980-1119 | `!` followed by a plain list compiles back to `not` on the list. |
| CriteriaText.CompileDistinctBounds | lib/apiUtil.js:1044-1139 | `><a,b` with different plain bounds compiles back to `>= a` then `<= b`. |
| CriteriaText.EqualsRoundTrip | lib/apiUtil.js:1080-1162 | Equality with plain text is written as non-empty trimmed text that compiles back to it. |
| CriteriaText.EqualsListRoundTrip | lib/apiUtil.js:1080-1162 | Equality with a plain list is written as text that compiles back to it. |
| CriteriaText.SingleOpRoundTrip | lib/apiUtil.js:1080-1162 | One operator on plain text is written as text that compiles back to it. |
| CriteriaText.NotListRoundTrip | lib/apiUtil.js:1080-1162 | `not` on a plain list is written as text that compiles back to it. |
| CriteriaText.BetweenRoundTrip | lib/apiUtil.js:1080-1162 | A between pair with different plain bounds is written as text that compiles back to it. |
| CriteriaText.CriterionTextPlain | lib/apiUtil.js:1080-1162 | Every plain criterion is written as non-empty trimmed text that compiles back, on a non-date attribute, to the same criterion. |
| CriteriaText.CriterionRoundTrip | lib/apiUtil.js:956-1162 | A plain criterion's fragment is `name=` followed by its encoded text. That text decodes back and compiles to the criterion it came from. |
| CriteriaText.EscapedModifierIsLost | lib/apiUtil.js:975-1102 | `\@s` compiles to equality with `@s`. That is written as `@s`, which compiles to `contains s`, so the escape does not survive the round trip. |
| CriteriaText.CompileBetweenScalar | lib/apiUtil.js:1050 | `><a` without a comma fills both bounds with `a`. |
| CriteriaText.CompileRepeatedBound | lib/apiUtil.js:1012-1056 | `><a,a` collapses under `_.uniq` and keeps only the `>=` bound. |
| CriteriaText.EqualBoundsAreLost | lib/apiUtil.js:1012-1134 | `><a` gives both bounds `a`, written as `><a,a`, which reads back with only the `>=` bound. |
| CriteriaText.CompileFalse | lib/apiUtil.js:1016-1018 | `false` in any letter case compiles to the number 0. |
| CriteriaText.CoercedFalseIsLost | lib/apiUtil.js:1016-1102 | `false` compiles to 0, which is written as `0` and reads back as the text `0`. |
| Numeric.OrPositive | lib/apiUtil.js:1199-1216 | One link of a fallback chain: the value's number when it is one of at least 1, else the rest of the chain. The result is always at least 1. |
| Numeric.OrCap | lib/apiUtil.js:1264-1271 | One link of a maximum's chain: the value's cap when it gives one, else the rest of the chain. Caps stay at least 1. |
| Numeric.Clamp | lib/apiUtil.js:1313-1321 | The clamped value is at most the value and at most the cap. It is one of the two. |
| Numeric.ClampIsLargest | lib/apiUtil.js:1313-1321 | Clamping is the minimum: no number below both bounds is greater than the clamped value. |
| Numeric.Page | lib/apiUtil.js:1191-1217 | The page is the first of these that reads as a number of at least 1: the page parameter, the model's default page, the global default page, the route option. Without one it is 1. |
| Numeric.MaxLimit | lib/apiUtil.js:1256-1274 | The maximum limit is the model's when usable, else the global one, else 100. `false` means no cap, and any cap is at least 1. |
| Numeric.RawLimit | lib/apiUtil.js:1284-1311 | The limit before clamping is the first of these that reads as a number of at least 1: the limit parameter, the model's default, the global default, the blueprints' default, the route option. Without one it is 30. |
| Numeric.Limit | lib/apiUtil.js:1284-1324 | The limit is at least 1. Under a maximum limit it is the unclamped limit when that is within the maximum, and the maximum otherwise, so it is their minimum. When the maximum is `false` it is the unclamped limit. |
| Numeric.MaxPopulateLimit | lib/apiUtil.js:1447-1465 | The maximum populate limit is the model's when usable, else the global one, else the maximum limit. |
| Numeric.RawPopulateLimit | lib/apiUtil.js:1475-1499 | The populate limit before clamping is the first of these that reads as a number of at least 1: the parameter, the model's default, the global default. Without one it is the limit. |
| Numeric.PopulateLimit | lib/apiUtil.js:1475-1507 | The populate limit is at least 1. Under a maximum it is the smaller of the unclamped value and the maximum. When the maximum is `false` it is the unclamped value. |
| Numeric.NumberText | lib/apiUtil.js:1326-1334 | A numeric fragment is empty exactly when the request lacks the parameter. Otherwise it is `name=` followed by the number. |
| Numeric.PageText | lib/apiUtil.js:1219-1227 | The page fragment is empty exactly when the request lacks the page parameter. Otherwise it is `name=` followed by the resolved page. |
| Numeric.LimitText | lib/apiUtil.js:1326-1334 | The limit fragment is empty exactly when the request lacks the limit parameter. Otherwise it is `name=` followed by the clamped limit. |
| Numeric.PopulateLimitText | lib/apiUtil.js:1509-1517 | The populate-limit fragment is empty exactly when the request lacks the parameter. Otherwise it is `name=` followed by the clamped populate limit. |
| Numeric.PositiveIntOfText | lib/apiUtil.js:1199-1201 | A written positive number reads back as itself. |
| Numeric.PageReadsBack | lib/apiUtil.js:1191-1227 | A request whose page parameter is the written page resolves to the same page. |
| Numeric.LimitReadsBack | lib/apiUtil.js:1284-1334 | A request whose limit parameter is the written limit resolves to the same limit. |
| Numeric.PopulateLimitReadsBack | lib/apiUtil.js:1475-1517 | A request whose populate-limit parameter is the written populate limit resolves to the same populate limit. |
| Numeric.DefaultMaxLimit | index.js:17-52 | Under the hook's defaults and without a model override, the maximum limit is 100. |
| Numeric.DefaultMaxPopulateLimit | index.js:45-47 | The hook's defaults leave both populate-limit settings commented out, so the maximum populate limit falls back to the maximum limit, 100. |
| Numeric.RawLimitFromSettings | lib/apiUtil.js:1300-1302 | Without a usable parameter or model default, a usable global default limit is the unclamped limit. |
| Numeric.DefaultLimit | index.js:17-52 | Under the hook's defaults, with no limit parameter and no model override, the limit is 30. |
| Populate.DropBlank | lib/apiUtil.js:1407 | Filtering keeps exactly the non-blank entries. |
| Populate.Finish | lib/apiUtil.js:1407 | A finished list holds exactly the non-blank entries of the raw list, with no repeats, in the order of their first occurrences. True and false pass through unchanged. |
| Populate.DropBlankKeepsOrder | lib/apiUtil.js:1407 | Dropping blank entries keeps the relative order of the first occurrences of the remaining entries. |
| Populate.FinishKeeps | lib/apiUtil.js:1407 | A finished list holds exactly the non-blank entries of the raw list. |
| Populate.OfParam | lib/apiUtil.js:1371-1397 | The trimmed parameter `false`/`0` means false. `true`/`1` or the empty value means true. Any other text is a comma list with the brackets removed. |
| Populate.OfDefault | lib/apiUtil.js:1398-1405 | A configured default is used only when it is text, a boolean or an array. Text is split on commas, a boolean is taken as it is, and an array is the list. |
| Populate.ParsePopulate | lib/apiUtil.js:1363-1408 | The request's parameter wins, else the model's usable default, else the global one, else false. A list result has no blanks and no repeats. |
| Populate.PopulateValue | lib/apiUtil.js:1410-1418 | A false setting is written `0`. A list is written as its aliases joined with commas. |
| Populate.PopulateText | lib/apiUtil.js:1410-1418 | The populate fragment is empty exactly when the request lacks the parameter. Otherwise a true setting is written as the bare name, and any other setting as `name=` followed by its value. |
| Populate.SelectedAliases | lib/apiUtil.js:1527-1549 | The kept aliases are exactly the model's associations the setting selects: all for true, the listed ones for a list, none for false. |
| Populate.SelectedAliasesAllOrNone | lib/apiUtil.js:1529-1538 | True keeps every association in order. False keeps none. |
| Populate.Associations | lib/apiUtil.js:1527-1549 | There is one entry per selected association. Each entry's alias is a selected association of the model, tagged with the populate limit. Every selected association appears. |
| Populate.PopulateAssociations | lib/apiUtil.js:1519-1549 | `populate` hands the query one entry per association the request's populate setting selects, and every such association appears. Each entry is tagged with the request's populate limit. False selects nothing. |
| Populate.PlainAliasesText | lib/apiUtil.js:1371-1417 | A plain alias list's text is trimmed, bracket-free, and splits back into the list. |
| Populate.ListReadsBack | lib/apiUtil.js:1363-1418 | A plain alias list, written as the populate value, reads back as itself. |
| Populate.PopulateReadsBack | lib/apiUtil.js:1363-1418 | Each writable setting reads back as itself. False is written as `0`. True is written as the bare name, which reads as the empty value. A plain list is written as its text. |
| Populate.EmptyListIsLost | lib/apiUtil.js:1384-1417 | `[]` reads as the empty list. That list is written as the empty value, which reads back as true. |
| Sort.StripSigns | lib/apiUtil.js:1625-1628 | Stripping leaves no leading `-` or `+` and keeps a trimmed item trimmed. An item without a sign is left as it is. |
| Sort.StripSignsSuffix | lib/apiUtil.js:1625-1628 | On trimmed text the loop's result is a suffix of the text, and everything in front of it is signs and white space. |
| Sort.SortKey | lib/apiUtil.js:1616-1634 | An item names its trimmed text with leading signs stripped. When that is `id`, it names the primary key instead. |
| Sort.SortDir | lib/apiUtil.js:1616-1622 | An item is descending (0) exactly when its trimmed text starts with `-`. Otherwise it is ascending (1). |
| Sort.SortStep | lib/apiUtil.js:1636-1640 | An item naming a key the lookup `Model.attributes[key]` finds assigns it the item's direction. The lookup finds the model's attributes and the properties every object inherits, such as `constructor`. `__proto__` is the exception: assigning it is ignored. Any other item changes nothing. No other key changes. The object keeps unique keys, admitted keys and 0/1 directions. |
| Sort.CollectGet | lib/apiUtil.js:1612-1641 | After the loop, each key holds the direction of the last item naming it, and a key no item names is as before. |
| Sort.SortSource | lib/apiUtil.js:1585-1605 | The sort text comes from the first non-blank string, trimmed, in the order: request parameter, model default, global default, route option. When there is none, it is `id`. |
| Sort.ParseSort | lib/apiUtil.js:1581-1644 | The sort object maps exactly the admitted names that the sort text's comma-separated items give, each to the direction of the last item naming it. Admitted means a model attribute or an inherited property other than `__proto__`. So it has unique keys, only admitted names as keys, and only 0 or 1 as directions. |
| Sort.ParseSortOrder | lib/apiUtil.js:1581-1644 | The keys of the sort object are the admitted names, each once, in the order they are first named, which is the sort priority. Inherited names such as `constructor` are included. |
| Sort.CollectKeys | lib/apiUtil.js:1612-1641 | The loop appends each newly admitted name and leaves a repeated one in its place: its keys are `_.uniq` of the keys before and the names admitted. |
| Sort.CollectOrder | lib/apiUtil.js:1612-1641 | From an empty object the keys are the admitted names, each once and each named, with the first-named first. |
| Sort.InheritedNameSorts | lib/apiUtil.js:1637-1639 | `constructor` names no attribute but is found on every object, so it sorts ascending. `__proto__` is found too, but its assignment is ignored, so it leaves the object empty. |
| Sort.IdSortsByPk | lib/apiUtil.js:1616-1640 | `-id` sorts by the primary key, descending. |
| Sort.SortParts | lib/apiUtil.js:1652-1655 | One written part per entry, in order: the key, after `-` when the direction is 0. |
| Sort.SortText | lib/apiUtil.js:1646-1660 | The sort fragment is empty exactly when the parameter is absent or the sort object is empty. Otherwise it is `name=` followed by the parts joined with commas. |
| Sort.DashedReadsBack | lib/apiUtil.js:1619-1628 | A name written after `-` reads back as the name, descending. |
| Sort.PartReadsBack | lib/apiUtil.js:1612-1656 | A written entry reads back as its name and direction. |
| Sort.CollectReadsBack | lib/apiUtil.js:1612-1641 | Reading the written entries back, left to right, rebuilds the object. |
| Sort.SortPartsText | lib/apiUtil.js:1609-1659 | The written text is a usable token that splits back into the parts. |
| Sort.SortReadsBack | lib/apiUtil.js:1581-1660 | A request whose sort parameter is a plain sort object's written text resolves to that object again. |
| Fields.MasterNames | lib/apiUtil.js:1720-1729 | Every name in a select master is non-empty and trimmed. |
| Fields.MasterNamesAdmitted | lib/apiUtil.js:1720-1729 | A name is in the master list exactly when some attribute declared as an object, with a non-blank name, and not a collection unless collections are asked for, trims to it. |
| Fields.MasterNamesGrow | lib/apiUtil.js:1720-1837 | Every name admitted without collections is admitted with them. |
| Fields.Master | lib/apiUtil.js:1717-1735 | The parsing master, the non-collection attributes, has no repeats. |
| Fields.SerialMaster | lib/apiUtil.js:1826-1843 | The writing master, every attribute including collections, has no repeats. |
| Fields.MasterMembers | lib/apiUtil.js:1717-1843 | The parsing master holds exactly the trimmed names of the non-collection attributes; the writing master holds those of every attribute, collections included. |
| Fields.MasterInSerialMaster | lib/apiUtil.js:1720-1837 | The parsing master is contained in the writing master. |
| Fields.FieldsSource | lib/apiUtil.js:1699-1715 | The fields text comes from the first non-blank string, trimmed, in the order: request parameter, model default, global default, route option. When there is none, there is no fields text. |
| Fields.FieldName | lib/apiUtil.js:1769-1776 | An item names its trimmed text, or the primary key for `id`. With no primary key, `id` names nothing. |
| Fields.FieldNames | lib/apiUtil.js:1769-1776 | At most one name per item, and never `id` unless `id` is the primary key. |
| Fields.FieldNamesNamed | lib/apiUtil.js:1769-1776 | The names are exactly the fields the items name. With a primary key every item names one, so the names are the items' fields position by position. |
| Fields.AskedNames | lib/apiUtil.js:1744-1776 | The names a fields text asks for, after its signs, are never `id` unless `id` is the primary key. |
| Fields.Selection | lib/apiUtil.js:1804-1808 | A selection is kept exactly when it is non-empty and not as long as the master. Otherwise it is `false`. |
| Fields.SelectFrom | lib/apiUtil.js:1738-1808 | An empty master selects nothing. A selection draws only on the master, is non-empty, and is never as long as the master. |
| Fields.ParseFields | lib/apiUtil.js:1689-1811 | No usable fields text means `false`. Otherwise the result is the selection of that text. |
| Fields.RemoveModeKeepsOthers | lib/apiUtil.js:1744-1788 | With a leading `-`, the splicing loop is the filter. The result is the master's other fields, in master order, without repeats. |
| Fields.KeepModeKeepsNamed | lib/apiUtil.js:1789-1799 | Otherwise the result is exactly the named fields found in the master, in the order named. |
| Fields.FieldsValue | lib/apiUtil.js:1845-1857 | A selection longer than half the writing master is written as `-` followed by the master's other fields. Any other selection is written as its names joined with commas. |
| Fields.FieldsText | lib/apiUtil.js:1813-1861 | The fields fragment is empty exactly when there is no selection or no parameter. Otherwise it is `name=` followed by the written form of the selection. |
| Fields.KeepFormReadsBack | lib/apiUtil.js:1738-1856 | The kept-fields form of a plain selection selects it again. |
| Fields.DropFormReadsBack | lib/apiUtil.js:1738-1852 | The dropped-fields form of a plain selection selects it again. |
| Fields.DroppedNotEmpty | lib/apiUtil.js:1845-1852 | The dropped-fields form of a selection always drops something. |
| Fields.FieldsValueIsToken | lib/apiUtil.js:1845-1857 | The written value of a plain selection is a usable fields text. |
| Fields.FieldsReadsBack | lib/apiUtil.js:1689-1861 | A plain selection written as the fields parameter reads back as the same selection. |
| Fields.RepeatedFieldSelectedTwice | lib/apiUtil.js:1792-1798 | Keep mode does not de-duplicate: naming the only field twice selects it twice. |
| Fields.BareDashSelectsNothing | lib/apiUtil.js:1744-1808 | A bare `-` drops nothing, so it selects the whole master, which counts as no selection. |
| Fields.RepeatedFieldIsLost | lib/apiUtil.js:1792-1852 | A selection that names the only field twice is written as a bare `-`, which reads back as no selection. |
| Pagination.CountOf | lib/apiUtil.js:1870-1876 | A count is used exactly when it is truthy and `parseInt` reads a number from it. That number is the count. |
| Pagination.CeilingDivision | lib/apiUtil.js:1880 | Negated Euclidean division of the negated count rounds up: the fewest pages of that size that hold the count. |
| Pagination.LastPage | lib/apiUtil.js:1880 | The last page is `ceil(count / limit)`: one page fewer cannot hold the count, and that many pages can. |
| Pagination.PrevPage | lib/apiUtil.js:1881 | The previous page is one back, but never below 1. |
| Pagination.NextPage | lib/apiUtil.js:1882 | The next page is one on, but never past the last page. |
| Pagination.CriteriaFragment | lib/apiUtil.js:1888 | The criteria fragment fails exactly when `parseCriteria` does, and with the same error. On success it is the string form of the parsed criteria, not decoded. |
| Pagination.Fragments | lib/apiUtil.js:1883-1934 | The fragments after the page come in the source's order: the sort, populate, populate-limit and fields texts, the criteria, then pretty, envelope and JSONP. Each of the compiler's own fragments is empty exactly when its option is not carried over. |
| Pagination.Parameters | lib/apiUtil.js:1894-1934 | The joined parameters are empty exactly when every fragment is empty. When no fragment holds an `&`, splitting them on `&` gives back exactly the non-empty fragments, in order. |
| Pagination.AfterPage | lib/apiUtil.js:1938 | What follows the page is the limit fragment run straight into the parameters: the parameters alone without a limit parameter, else `name=` and the limit followed by them. |
| Pagination.LinksFor | lib/apiUtil.js:1940-1967 | `first` and `prev` exist exactly when the page is not 1. `next` and `last` exist exactly when the page is not the last page. |
| Pagination.PaginationUrls | lib/apiUtil.js:1863-1970 | No usable count means no links. Otherwise the links fail exactly when `parseCriteria` fails. On success, `first`/`prev` exist exactly off page 1 and `next`/`last` exactly off the last page, and each points where `LinkTargets` says, with the limit fragment and the joined fragments after the page. |
| Pagination.LinkTargets | lib/apiUtil.js:1936-1967 | A link to page 1 is the current URL with the other parameters after `?`. Every other link puts its page right after `?page=`, with the other parameters after `&`. |
| Pagination.LinkedPagesInRange | lib/apiUtil.js:1880-1882 | With a positive count and a page inside the listing, every linked page is inside the listing. |
| Pagination.LinkedPageReadsBack | lib/apiUtil.js:1937-1966 | A positive page written into a link is read back by `parsePage`. |
| Pagination.LimitGluedToParameters | lib/apiUtil.js:1938 | The limit fragment runs straight into the next parameter with no `&`. When that parameter starts with a non-digit, `parseInt` still reads the glued value as the limit. |
| Pagination.NegativeCountLinksBelowFirst | lib/apiUtil.js:1870-1967 | A negative count passes the count guard and gives `next` and `last` links to page 0 or below. |
| UriEncoding.Encode | lib/apiUtil.js:1146 | `encodeURIComponent` output holds only unreserved characters and `%`. |
| UriEncoding.EncodeHasNoSeparators | lib/apiUtil.js:1146 | Encoded text never holds `&` or `=`. |
| UriEncoding.DecodeEncode | lib/apiUtil.js:1146 | Decoding an encoded string gives it back. |
| UriEncoding.EncodeUnreserved | lib/apiUtil.js:1146 | Text of unreserved characters is left as it is. |
| JsNumber.ParseIntOfDecimal | lib/apiUtil.js:1199-1201 | `parseInt` reads a positive number's decimal text back as the number, whatever non-digit text follows. |
| JsNumber.ParseIntOfNonDigit | lib/apiUtil.js:1199 | Text starting with anything other than white space, a sign or a digit is not a number. |
| Strings.SplitJoin | lib/apiUtil.js:1609-1659 | Joining comma-free pieces with commas and splitting again gives back the pieces. |
| Strings.JoinSplit | lib/apiUtil.js:1609 | Splitting and joining again on the same character gives back the text. |
| Strings.Trim | lib/apiUtil.js:961 | `_.trim` leaves no white space at either end, never lengthens the text, and leaves text that is already trimmed unchanged. |
| Strings.TrimIsSlice | lib/apiUtil.js:961 | `_.trim` cuts a slice out of the text: everything before it and everything after it is white space. |
| Strings.BlankIsAllSpace | lib/apiUtil.js:1175 | A string fails the `_.trim(v) != ''` test exactly when every character is white space. |
| Strings.LowersToLower | lib/apiUtil.js:989-999 | Comparing character by character agrees with lower-casing the whole text before comparing. |
| Lists.Uniq | lib/apiUtil.js:1733 | `_.uniq` leaves no repeats, keeps exactly the same elements, and never lengthens the list. |
| Lists.UniqKeepsFirstOrder | lib/apiUtil.js:1733 | `_.uniq` keeps the elements in the order of their first occurrences. |
| Lists.RemoveAllIsWithout | lib/apiUtil.js:1781-1850 | On a list without repeats, splicing out each name at its first occurrence is the filter by non-membership. |
| OrderedMap.PutGet | lib/apiUtil.js:1639 | After assigning a key, the key reads the new value and every other key reads as before. |
| OrderedMap.PutGetAll | lib/apiUtil.js:1639 | After assigning a key, every key reads the new value when it is that key, and as before otherwise. |
| OrderedMap.PutWellFormed | lib/apiUtil.js:1639 | Assignment keeps keys unique. |
| OrderedMap.Omit | lib/apiUtil.js:929 | After `_.omit`, a listed key reads as absent and every other key reads as before. |

## Left out

- Request bodies and array-valued query parameters: `req.param` is modelled
  over route parameters and a string-valued query only.
- Pretty, envelope and JSONP parsing and their fragments: the fragments are
  opaque strings in `Pagination.Outside`. Whether pretty output is requested
  and whether JSONP is supported enter only as the blacklist's conditions.
- Host, port, base URL and current path: the current URL without its query
  is an input string.
- Model lookup by name or by request: one model is passed to every
  operation. The source looks up some models by request only (for example
  the limit fragment inside `getPaginationUrls`); the model does not tell
  the two lookups apart.
- `modelPopulateQuery` and every ORM call: `Populate.Associations` stops at
  the list of aliases and limits handed to the query.
- Date parsing and rendering (`lib/helper.js`, `moment`): these are the
  function parameters `tryDate` and `dateText`. The round-trip lemmas cover
  non-date attributes only.
- `toLocaleLowerCase`: modelled as lower-casing of ASCII letters. This is
  exact for comparisons with `false`, `true`, `null` and `undefined`.
- Numbers are integers. JavaScript floating point and values such as `1e3`
  read by `parseInt` are not modelled beyond `parseInt`'s digit run.
- The ordering of JavaScript objects whose keys look like integers: objects
  are modelled in insertion order.
- Sort.ParseSortOrder: a sort key that looks like an integer (an attribute
  named `2`) comes first in a JavaScript object, and the order stated is
  insertion order for every key.
- The in-place growth of the route's blacklist array across calls: the
  blacklist is recomputed as a list on each call.
- lodash's `_.trim` white-space set: modelled as the ECMAScript white space
  and line terminators. The Mongolian vowel separator is not treated
  specially.
- `getPaginationUrls`' branches for a first page other than 1: `firstPage`
  is the constant 1 there, so those branches are dead.
- The method-override parameter and header names, and the name and version
  getters, are not used by the compiler.
- A model without `attributes`: attributes are always a (possibly empty)
  map.
- Pagination.LimitGluedToParameters: it shows what `parseInt` reads from the
  glued value. A full query-string parser that would split the links again
  is not modelled.
- The truthiness test on the page, limit and populate-limit parameters is
  subsumed by the number test, because `parseInt` of the empty text is NaN.
- Route `where` values (`req.options.where`, merged at
  `lib/apiUtil.js:941`): the model takes them as text. Non-string values
  (`true`, numbers, arrays, nested objects) and the way `_.merge` combines
  nested objects are not modelled. The source trims the value it compiles
  (`lib/apiUtil.js:961`), and the model does the same for every value.
- CriteriaText.CriterionText: its contract states the leading literal of an
  operator's text, not the whole text. The whole text is stated through the
  round-trip lemmas (`CriteriaText.CriterionTextPlain` and the lemmas it
  uses), which cover plain criteria only.
- Fields.AskedNames: its contract states only that `id` never survives as a
  name unless it is the primary key. What the names select is stated by
  `Fields.RemoveModeKeepsOthers` and `Fields.KeepModeKeepsNamed`.

=== FILE: config.dfy ===
/**
 * The hook's configuration: the global block `sails.config[configKey]`,
 * the per-model override block `Model[configKey]`, the defaults the hook
 * installs, and the resolvers that turn a configured parameter name into
 * the query key actually read.
 */
module Config {
  import opened Wrappers
  import opened Strings
  import opened JsNumber

  /** A configuration or route-option value as JavaScript holds it. */
  datatype JsVal = Undef | JBool(b: bool) | JNum(n: int) | JStr(s: string) | JArr(items: seq<string>)

  /** JavaScript truthiness. */
  predicate Truthy(v: JsVal) {
    match v
    case Undef => false
    case JBool(b) => b
    case JNum(n) => n != 0
    case JStr(s) => s != ""
    case JArr(_) => true
  }

  /** `String(v)`. */
  function ToStr(v: JsVal): string {
    match v
    case Undef => "undefined"
    case JBool(b) => if b then "true" else "false"
    case JNum(n) => IntToString(n)
    case JStr(s) => s
    case JArr(items) => Join(items, ",")
  }

  /** `parseInt(v)`, with NaN as None. */
  function ParseIntVal(v: JsVal): Option<int> {
    ParseInt(ToStr(v))
  }

  /** The recurring guard `!isNaN(parseInt(v)) && parseInt(v) >= 1`, yielding the number. */
  function PositiveInt(v: JsVal): (r: Option<int>)
    ensures r.Some? <==> ParseIntVal(v).Some? && ParseIntVal(v).value >= 1
    ensures r.Some? ==> r == ParseIntVal(v) && r.value >= 1
    ensures v.JNum? && v.n >= 1 ==> r == Some(v.n)
  {
    if v.JNum? && v.n >= 1 then
      ParseIntOfDecimal(v.n, "");
      assert IntToString(v.n) + "" == IntToString(v.n);
      Some(v.n)
    else
      match ParseIntVal(v)
      case Some(n) => if n >= 1 then Some(n) else None
      case None => None
  }

  /** The recurring test `_.isString(v) && _.trim(v) != ''`: a string with something other than white space. */
  predicate HasText(v: JsVal) {
    v.JStr? && !IsBlank(v.s)
  }

  /** The first candidate that is text with something other than white space, trimmed. */
  function FirstText(vs: seq<JsVal>): (r: Option<string>)
    ensures r.Some? ==> IsToken(r.value)
    ensures |vs| > 0 && HasText(vs[0]) ==> r == Some(Trim(vs[0].s))
    ensures |vs| > 0 && !HasText(vs[0]) ==> r == FirstText(vs[1..])
    ensures |vs| == 0 ==> r.None?
  {
    if |vs| == 0 then None
    else if vs[0].JStr? && !IsBlank(vs[0].s) then Some(Trim(vs[0].s))
    else FirstText(vs[1..])
  }

  /** The four-link chain `if … else if …` that the sort and fields options read their text through. */
  lemma FirstTextOfFour(a: JsVal, b: JsVal, c: JsVal, d: JsVal)
    ensures HasText(a) ==> FirstText([a, b, c, d]) == Some(Trim(a.s))
    ensures !HasText(a) && HasText(b) ==> FirstText([a, b, c, d]) == Some(Trim(b.s))
    ensures !HasText(a) && !HasText(b) && HasText(c) ==> FirstText([a, b, c, d]) == Some(Trim(c.s))
    ensures !HasText(a) && !HasText(b) && !HasText(c) && HasText(d) ==> FirstText([a, b, c, d]) == Some(Trim(d.s))
    ensures !HasText(a) && !HasText(b) && !HasText(c) && !HasText(d) ==> FirstText([a, b, c, d]).None?
  {
    assert [a, b, c, d][1..] == [b, c, d];
    assert [b, c, d][1..] == [c, d];
    assert [c, d][1..] == [d];
    assert [d][1..] == [];
  }

  /** A limit cap: `false` (no cap) or a positive number. */
  datatype Cap = Unbounded | AtMost(n: int)

  /** The guard `v === false || parseInt(v) >= 1` used for maximum limits, yielding the cap. */
  function CapOf(v: JsVal): (r: Option<Cap>)
    ensures r == Some(Unbounded) <==> v == JBool(false)
    ensures r.Some? && r.value.AtMost? ==> r.value.n >= 1
    ensures v != JBool(false) ==> (r.Some? <==> PositiveInt(v).Some?)
    ensures v != JBool(false) && r.Some? ==> r.value == AtMost(PositiveInt(v).value)
  {
    if v == JBool(false) then Some(Unbounded)
    else match PositiveInt(v)
      case Some(n) => Some(AtMost(n))
      case None => None
  }

  /** The global block `sails.config[configKey]`; an absent key is `Undef`. */
  datatype Settings = Settings(
    parameterNamePretty: JsVal,
    parameterNameEnvelope: JsVal,
    parameterNameJsonp: JsVal,
    parameterNamePage: JsVal,
    parameterNameLimit: JsVal,
    parameterNamePopulate: JsVal,
    parameterNamePopulateLimit: JsVal,
    parameterNameSort: JsVal,
    parameterNameFields: JsVal,
    pretty: JsVal,
    jsonp: JsVal,
    defaultPage: JsVal,
    defaultLimit: JsVal,
    maximumLimit: JsVal,
    defaultPopulate: JsVal,
    defaultPopulateLimit: JsVal,
    maximumPopulateLimit: JsVal,
    defaultSort: JsVal,
    defaultFields: JsVal)

  /** The per-model block `Model[configKey]`; an absent block has every key `Undef`. */
  datatype Overrides = Overrides(
    defaultPage: JsVal,
    defaultLimit: JsVal,
    maximumLimit: JsVal,
    defaultPopulate: JsVal,
    defaultPopulateLimit: JsVal,
    maximumPopulateLimit: JsVal,
    defaultSort: JsVal,
    defaultFields: JsVal)

  const NoOverrides := Overrides(Undef, Undef, Undef, Undef, Undef, Undef, Undef, Undef)

  /** The defaults the hook installs under its configuration key (two limits left commented out there). */
  const HookDefaults := Settings(
    parameterNamePretty := JStr("pretty"),
    parameterNameEnvelope := JStr("envelope"),
    parameterNameJsonp := JStr("callback"),
    parameterNamePage := JStr("page"),
    parameterNameLimit := JStr("limit"),
    parameterNamePopulate := JStr("populate"),
    parameterNamePopulateLimit := JStr("populateLimit"),
    parameterNameSort := JStr("sort"),
    parameterNameFields := JStr("fields"),
    pretty := JBool(false),
    jsonp := JBool(false),
    defaultPage := JNum(1),
    defaultLimit := JNum(30),
    maximumLimit := JNum(100),
    defaultPopulate := JBool(false),
    defaultPopulateLimit := Undef,
    maximumPopulateLimit := Undef,
    defaultSort := JStr("id"),
    defaultFields := JBool(false))

  /** A usable parameter name: non-empty with no white space at either end. */
  predicate IsToken(s: string) {
    |s| > 0 && IsTrimmed(s)
  }

  /** The configured string when it is not blank (trimmed), else the built-in name. */
  function ResolveName(v: JsVal, builtin: string): (r: string)
    requires IsToken(builtin)
    ensures IsToken(r)
    ensures HasText(v) ==> r == Trim(v.s)
    ensures !HasText(v) ==> r == builtin
  {
    if v.JStr? && !IsBlank(v.s) then Trim(v.s) else builtin
  }

  /** `getParameterNamePage`. */
  function PageName(cfg: Settings): (r: string)
    ensures IsToken(r)
    ensures HasText(cfg.parameterNamePage) ==> r == Trim(cfg.parameterNamePage.s)
    ensures !HasText(cfg.parameterNamePage) ==> r == "page"
  {
    ResolveName(cfg.parameterNamePage, "page")
  }

  /** `getParameterNameLimit`. */
  function LimitName(cfg: Settings): (r: string)
    ensures IsToken(r)
    ensures HasText(cfg.parameterNameLimit) ==> r == Trim(cfg.parameterNameLimit.s)
    ensures !HasText(cfg.parameterNameLimit) ==> r == "limit"
  {
    ResolveName(cfg.parameterNameLimit, "limit")
  }

  /** `getParameterNamePopulate`. */
  function PopulateName(cfg: Settings): (r: string)
    ensures IsToken(r)
    ensures HasText(cfg.parameterNamePopulate) ==> r == Trim(cfg.parameterNamePopulate.s)
    ensures !HasText(cfg.parameterNamePopulate) ==> r == "populate"
  {
    ResolveName(cfg.parameterNamePopulate, "populate")
  }

  /** `getParameterNamePopulateLimit`. */
  function PopulateLimitName(cfg: Settings): (r: string)
    ensures IsToken(r)
    ensures HasText(cfg.parameterNamePopulateLimit) ==> r == Trim(cfg.parameterNamePopulateLimit.s)
    ensures !HasText(cfg.parameterNamePopulateLimit) ==> r == "populateLimit"
  {
    ResolveName(cfg.parameterNamePopulateLimit, "populateLimit")
  }

  /** `getParameterNameSort`. */
  function SortName(cfg: Settings): (r: string)
    ensures IsToken(r)
    ensures HasText(cfg.parameterNameSort) ==> r == Trim(cfg.parameterNameSort.s)
    ensures !HasText(cfg.parameterNameSort) ==> r == "sort"
  {
    ResolveName(cfg.parameterNameSort, "sort")
  }

  /** `getParameterNameFields`. */
  function FieldsName(cfg: Settings): (r: string)
    ensures IsToken(r)
    ensures HasText(cfg.parameterNameFields) ==> r == Trim(cfg.parameterNameFields.s)
    ensures !HasText(cfg.parameterNameFields) ==> r == "fields"
  {
    ResolveName(cfg.parameterNameFields, "fields")
  }

  /** `getParameterNamePretty`. */
  function PrettyName(cfg: Settings): (r: string)
    ensures IsToken(r)
    ensures HasText(cfg.parameterNamePretty) ==> r == Trim(cfg.parameterNamePretty.s)
    ensures !HasText(cfg.parameterNamePretty) ==> r == "pretty"
  {
    ResolveName(cfg.parameterNamePretty, "pretty")
  }

  /** `getParameterNameEnvelope`. */
  function EnvelopeName(cfg: Settings): (r: string)
    ensures IsToken(r)
    ensures HasText(cfg.parameterNameEnvelope) ==> r == Trim(cfg.parameterNameEnvelope.s)
    ensures !HasText(cfg.parameterNameEnvelope) ==> r == "envelope"
  {
    ResolveName(cfg.parameterNameEnvelope, "envelope")
  }

  /** `getParameterNameJsonp`. */
  function JsonpName(cfg: Settings): (r: string)
    ensures IsToken(r)
    ensures HasText(cfg.parameterNameJsonp) ==> r == Trim(cfg.parameterNameJsonp.s)
    ensures !HasText(cfg.parameterNameJsonp) ==> r == "callback"
  {
    ResolveName(cfg.parameterNameJsonp, "callback")
  }

  /** Under the hook's own defaults every parameter has its built-in name. */
  lemma HookDefaultNames()
    ensures PageName(HookDefaults) == "page" && LimitName(HookDefaults) == "limit"
    ensures PopulateName(HookDefaults) == "populate" && PopulateLimitName(HookDefaults) == "populateLimit"
    ensures SortName(HookDefaults) == "sort" && FieldsName(HookDefaults) == "fields"
    ensures PrettyName(HookDefaults) == "pretty" && EnvelopeName(HookDefaults) == "envelope"
    ensures JsonpName(HookDefaults) == "callback"
  {
    assert IsTrimmed("page");
    assert IsTrimmed("limit");
    assert IsTrimmed("populate");
    assert IsTrimmed("populateLimit");
    assert IsTrimmed("sort");
    assert IsTrimmed("fields");
    assert IsTrimmed("pretty");
    assert IsTrimmed("envelope");
    assert IsTrimmed("callback");
  }
}

=== FILE: criteria.dfy ===
/**
 * Compiling one filter value into a criterion: the leading modifier, the
 * escape, the `like` wildcard rewrite, comma lists, case-insensitive
 * coercion of `false`/`true`/`null`/`undefined`/empty, dates, and the
 * between pair.
 */
module Criteria {
  import opened Wrappers
  import opened Strings
  import opened Modifiers
  import opened LikePattern
  import opened Request
  import Lists

  /** A compiled filter value. Dates are objects: no two are ever the same value. */
  datatype Value = VStr(s: string) | VNum(n: int) | VNull | VDate(t: int)

  /** A scalar or a comma list. */
  datatype Payload = One(v: Value) | Many(vs: seq<Value>)

  /** Equality with a payload, or an object of operator keys in insertion order. */
  datatype Criterion = Equals(p: Payload) | Ops(ops: seq<(Op, Payload)>)

  /** `_.uniq`'s SameValueZero on compiled values. */
  predicate SameValue(a: Value, b: Value) {
    a == b && !a.VDate?
  }

  /** No two entries are the same value. */
  predicate NoDuplicates(vs: seq<Value>) {
    forall i, j | 0 <= i < j < |vs| :: !SameValue(vs[i], vs[j])
  }

  /** `_.uniq` on compiled values: the first of each repeated value is kept, dates always. */
  function UniqValues(vs: seq<Value>): (r: seq<Value>)
    ensures NoDuplicates(r)
    ensures |r| <= |vs|
    ensures forall x :: x in r <==> x in vs
    ensures forall x: Value | x.VDate? :: multiset(r)[x] == multiset(vs)[x]
    decreases |vs|
  {
    if |vs| == 0 then []
    else
      var init := vs[..|vs| - 1];
      var x := vs[|vs| - 1];
      var r := UniqValues(init);
      assert vs == init + [x];
      if !x.VDate? && x in r then r else r + [x]
  }

  /** Every value of `r` occurs in `vs`, and the values other than dates stand in the order of their first occurrences there. */
  predicate FirstOrdered(vs: seq<Value>, r: seq<Value>) {
    && (forall i | 0 <= i < |r| :: r[i] in vs)
    && forall i, j | 0 <= i < j < |r| && !r[i].VDate? && !r[j].VDate? :: Lists.First(vs, r[i]) < Lists.First(vs, r[j])
  }

  /** The kept values other than dates stand in the order of their first occurrences. */
  lemma {:induction false} UniqValuesFirstOrder(vs: seq<Value>)
    ensures FirstOrdered(vs, UniqValues(vs))
    decreases |vs|
  {
    if |vs| > 0 {
      var init := vs[..|vs| - 1];
      var x := vs[|vs| - 1];
      UniqValuesFirstOrder(init);
      assert vs == init + [x];
      OrderedSnoc(init, x, UniqValues(init));
    }
  }

  /** Appending to a list keeps its kept values in first-occurrence order, and so does keeping the new one. */
  lemma OrderedSnoc(init: seq<Value>, x: Value, r: seq<Value>)
    requires FirstOrdered(init, r)
    ensures FirstOrdered(init + [x], r)
    ensures x.VDate? || x !in init ==> FirstOrdered(init + [x], r + [x])
  {
    var vs := init + [x];
    forall y | y in init ensures Lists.First(vs, y) == Lists.First(init, y) {
      Lists.FirstOfSnoc(init, x, y);
    }
    if x !in init {
      Lists.FirstOfLast(init, x);
    }
  }

  /** Each value tagged so that `_.uniq`'s SameValueZero becomes plain equality: a date carries its own position. */
  function Tagged(vs: seq<Value>): (r: seq<(Value, int)>)
    ensures |r| == |vs|
    ensures forall k | 0 <= k < |vs| :: r[k] == (vs[k], if vs[k].VDate? then k else -1)
  {
    seq(|vs|, k requires 0 <= k < |vs| => (vs[k], if vs[k].VDate? then k else -1))
  }

  /** The values of a tagged list. */
  function Untagged(ts: seq<(Value, int)>): (r: seq<Value>)
    ensures |r| == |ts|
    ensures forall k | 0 <= k < |ts| :: r[k] == ts[k].0
  {
    seq(|ts|, k requires 0 <= k < |ts| => ts[k].0)
  }

  /**
   * `UniqValues` is the generic `_.uniq` once dates are told apart by their
   * position, so it too keeps every first occurrence in order of appearance.
   */
  lemma {:induction false} UniqValuesIsUniq(vs: seq<Value>)
    ensures UniqValues(vs) == Untagged(Lists.Uniq(Tagged(vs)))
    decreases |vs|
  {
    if |vs| > 0 {
      var init, x := vs[..|vs| - 1], vs[|vs| - 1];
      var t := (x, if x.VDate? then |init| else -1);
      var u := Lists.Uniq(Tagged(init));
      assert Lists.Uniq(Tagged(vs)) == if t in u then u else u + [t] by {
        assert Tagged(vs)[..|vs| - 1] == Tagged(init);
        assert Tagged(vs)[|vs| - 1] == t;
      }
      assert t in u <==> !x.VDate? && x in UniqValues(init) by {
        TagPresent(init, x);
      }
      UniqValuesIsUniq(init);
      assert Untagged(u + [t]) == Untagged(u) + [x];
    }
  }

  /** A value's tag occurs among the earlier tags exactly when it is a repeated non-date. */
  lemma TagPresent(init: seq<Value>, x: Value)
    ensures (x, if x.VDate? then |init| else -1) in Tagged(init) <==> !x.VDate? && x in init
  {
    var t := (x, if x.VDate? then |init| else -1);
    if t in Tagged(init) {
      var k :| 0 <= k < |init| && Tagged(init)[k] == t;
    }
    if !x.VDate? && x in init {
      var k :| 0 <= k < |init| && init[k] == x;
      assert Tagged(init)[k] == t;
    }
  }

  /** `_.uniq` keeps a list without repeated values as it is. */
  lemma {:induction false} UniqValuesOfDistinct(vs: seq<Value>)
    requires NoDuplicates(vs)
    ensures UniqValues(vs) == vs
    decreases |vs|
  {
    if |vs| > 0 {
      var init := vs[..|vs| - 1];
      var x := vs[|vs| - 1];
      assert vs == init + [x];
      NoDuplicatesInit(vs);
      UniqValuesOfDistinct(init);
    }
  }

  /** Dropping the last entry keeps a list free of repeats, and that entry (unless a date) is not among the rest. */
  lemma NoDuplicatesInit(vs: seq<Value>)
    requires |vs| > 0 && NoDuplicates(vs)
    ensures NoDuplicates(vs[..|vs| - 1])
    ensures !vs[|vs| - 1].VDate? ==> vs[|vs| - 1] !in vs[..|vs| - 1]
  {
    var init := vs[..|vs| - 1];
    assert forall i | 0 <= i < |init| :: init[i] == vs[i];
  }

  /** The words the compiler coerces to `null`. */
  predicate IsNullWord(s: string) {
    LowersTo(s, "null") || LowersTo(s, "undefined") || s == ""
  }

  /** A word the compiler coerces rather than keeping as text. */
  predicate IsCoerced(s: string) {
    LowersTo(s, "false") || LowersTo(s, "true") || IsNullWord(s)
  }

  /** One element of a comma list, already trimmed. */
  function CoerceElement(s: string, isDate: bool, tryDate: string -> Option<int>): (v: Value)
    ensures LowersTo(s, "false") ==> v == VNum(0)
    ensures LowersTo(s, "true") ==> v == VNum(1)
    ensures IsNullWord(s) ==> v == VNull
    ensures !IsCoerced(s) ==> v == (if isDate && tryDate(s).Some? then VDate(tryDate(s).value) else VStr(s))
  {
    if LowersTo(s, "false") then VNum(0)
    else if LowersTo(s, "true") then VNum(1)
    else if IsNullWord(s) then VNull
    else if isDate then
      match tryDate(s)
      case Some(t) => VDate(t)
      case None => VStr(s)
    else VStr(s)
  }

  /** Trims and coerces every piece of a split payload. */
  function CoerceList(pieces: seq<string>, isDate: bool, tryDate: string -> Option<int>): (r: seq<Value>)
    ensures |r| == |pieces|
    ensures forall i | 0 <= i < |r| :: r[i] == CoerceElement(Trim(pieces[i]), isDate, tryDate)
  {
    seq(|pieces|, i requires 0 <= i < |pieces| => CoerceElement(Trim(pieces[i]), isDate, tryDate))
  }

  /**
   * A payload that is not a list. The date branch here calls a service
   * that is not defined, so on a date attribute any value that is not a
   * coerced word raises.
   */
  function CoerceScalar(s: string, like: bool, isDate: bool): (r: Result<Value, ApiError>)
    ensures LowersTo(s, "false") ==> r == Success(VNum(0))
    ensures LowersTo(s, "true") ==> r == Success(VNum(1))
    ensures IsNullWord(s) ==> r == Success(if like then VStr("%") else VNull)
    ensures !IsCoerced(s) ==> r == if isDate then Failure(HelperServiceUndefined) else Success(VStr(s))
  {
    if LowersTo(s, "false") then Success(VNum(0))
    else if LowersTo(s, "true") then Success(VNum(1))
    else if IsNullWord(s) then Success(if like then VStr("%") else VNull)
    else if isDate then Failure(HelperServiceUndefined)
    else Success(VStr(s))
  }

  /** The modifier a trimmed value starts with (none, equality, also for an escaped one). */
  function ModOf(v: string): Mod {
    match MatchModifier(v)
    case Some(t) => Translate(t)
    case None => NoMod
  }

  /** A backslash, optional white space, then a modifier. */
  predicate IsEscaped(v: string) {
    |v| > 0 && v[0] == '\\' && MatchModifier(TrimStart(v[1..])).Some?
  }

  /**
   * The payload after the modifier: the modifier stripped and the rest
   * trimmed (wildcards rewritten under `like`), or the escape stripped.
   */
  function PayloadText(v: string): (p: string)
    ensures IsTrimmed(p) || (MatchModifier(v).None? && !IsEscaped(v))
  {
    match MatchModifier(v)
    case Some(t) =>
      var rest := Trim(v[|Text(t)|..]);
      if Translate(t) == Single(Like) && rest != "" then
        RewriteKeepsTrimmed(rest);
        LikeRewrite(rest)
      else rest
    case None =>
      if IsEscaped(v) then Trim(TrimStart(v[1..])) else v
  }

  /**
   * What the payload is: after a modifier, the trimmed remainder, with only
   * `*` turned into `%` and only under `like`; after an escape, the trimmed
   * text behind the backslash; otherwise the value itself.
   */
  lemma PayloadTextIs(v: string)
    ensures MatchModifier(v).Some? ==>
              var t := MatchModifier(v).value;
              var rest := Trim(v[|Text(t)|..]);
              && |PayloadText(v)| == |rest|
              && (Translate(t) != Single(Like) ==> PayloadText(v) == rest)
              && forall i | 0 <= i < |rest| ::
                   PayloadText(v)[i] == rest[i] || (Translate(t) == Single(Like) && rest[i] == '*' && PayloadText(v)[i] == '%')
    ensures MatchModifier(v).None? && IsEscaped(v) ==> PayloadText(v) == Trim(TrimStart(v[1..]))
    ensures MatchModifier(v).None? && !IsEscaped(v) ==> PayloadText(v) == v
  {
  }

  /** The wildcard rewrite keeps a trimmed payload trimmed: it only turns `*` into `%`. */
  lemma RewriteKeepsTrimmed(s: string)
    requires s != [] && IsTrimmed(s)
    ensures IsTrimmed(LikeRewrite(s))
  {
    var r := LikeRewrite(s);
    assert r[0] == s[0] || r[0] == '%';
    assert r[|r| - 1] == s[|s| - 1] || r[|r| - 1] == '%';
  }

  /** Modifiers under which a payload with a comma is a list. */
  predicate ListModifier(m: Mod) {
    m == NoMod || m == Single(Not) || m == Between
  }

  /** The between pair from a list: element 0 as the `>=` bound, element 1 as the `<=` bound, when present. */
  function BetweenOfList(vs: seq<Value>): (ops: seq<(Op, Payload)>)
    ensures |ops| == if |vs| >= 2 then 2 else |vs|
    ensures |vs| >= 1 ==> ops[0] == (GreaterEq, One(vs[0]))
    ensures |vs| >= 2 ==> ops[1] == (LessEq, One(vs[1]))
  {
    (if |vs| >= 1 then [(GreaterEq, One(vs[0]))] else [])
    + (if |vs| >= 2 then [(LessEq, One(vs[1]))] else [])
  }

  /** The shape a modifier gives a criterion. */
  predicate Fits(m: Mod, c: Criterion) {
    match m
    case NoMod => c.Equals?
    case Single(op) => c.Ops? && |c.ops| == 1 && c.ops[0].0 == op
    case Between =>
      && c.Ops? && |c.ops| <= 2
      && (|c.ops| >= 1 ==> c.ops[0].0 == GreaterEq && c.ops[0].1.One?)
      && (|c.ops| == 2 ==> c.ops[1].0 == LessEq && c.ops[1].1.One?)
  }

  /** Every list inside a criterion is non-empty and free of repeated values. */
  predicate ListsClean(c: Criterion) {
    match c
    case Equals(p) => p.Many? ==> |p.vs| >= 1 && NoDuplicates(p.vs)
    case Ops(ops) => forall i | 0 <= i < |ops| :: ops[i].1.Many? ==> |ops[i].1.vs| >= 1 && NoDuplicates(ops[i].1.vs)
  }

  /** The criterion a list payload gives under a list modifier. */
  function ListCriterion(m: Mod, vs: seq<Value>): (c: Criterion)
    requires ListModifier(m) && |vs| >= 1 && NoDuplicates(vs)
    ensures Fits(m, c) && ListsClean(c)
    ensures m == NoMod ==> c == Equals(Many(vs))
    ensures m.Single? ==> c == Ops([(m.op, Many(vs))])
    ensures m == Between ==> c == Ops(BetweenOfList(vs))
  {
    match m
    case Single(op) => Ops([(op, Many(vs))])
    case Between => Ops(BetweenOfList(vs))
    case NoMod => Equals(Many(vs))
  }

  /**
   * The criterion a scalar gives. Under the between modifier text fills
   * both bounds, a number (which has no elements) fills neither, and `null`
   * raises because it cannot be indexed.
   */
  function ScalarCriterion(m: Mod, x: Value): (r: Result<Criterion, ApiError>)
    ensures r.Success? ==> Fits(m, r.value) && ListsClean(r.value)
    ensures r.Failure? <==> m == Between && x == VNull
    ensures r.Failure? ==> r.error == BetweenOnNull
    ensures m == NoMod ==> r == Success(Equals(One(x)))
    ensures m.Single? ==> r == Success(Ops([(m.op, One(x))]))
    ensures m == Between && x.VStr? ==> r == Success(Ops([(GreaterEq, One(x)), (LessEq, One(x))]))
    ensures m == Between && (x.VNum? || x.VDate?) ==> r == Success(Ops([]))
  {
    match m
    case NoMod => Success(Equals(One(x)))
    case Single(op) => Success(Ops([(op, One(x))]))
    case Between =>
      match x
      case VStr(_) => Success(Ops([(GreaterEq, One(x)), (LessEq, One(x))]))
      case VNull => Failure(BetweenOnNull)
      case _ => Success(Ops([]))
  }

  /**
   * The criterion one filter value compiles to. `isDate` says whether the
   * attribute is declared as a date; `tryDate` is the date parsing the
   * list branch applies to its elements.
   */
  function CompileValue(raw: string, isDate: bool, tryDate: string -> Option<int>): (r: Result<Criterion, ApiError>)
    ensures r.Success? ==> Fits(ModOf(Trim(raw)), r.value) && ListsClean(r.value)
    ensures r.Failure? ==> r.error == HelperServiceUndefined || r.error == BetweenOnNull
    ensures r.Failure? && r.error == HelperServiceUndefined ==> isDate
    ensures r.Failure? && r.error == BetweenOnNull ==> ModOf(Trim(raw)) == Between
  {
    var v := Trim(raw);
    var m := ModOf(v);
    var p := PayloadText(v);
    if ListModifier(m) && ',' in p then
      var pieces := CoerceList(Split(p, ','), isDate, tryDate);
      var vs := UniqValues(pieces);
      assert pieces[0] in vs;
      Success(ListCriterion(m, vs))
    else
      match CoerceScalar(p, m == Single(Like), isDate)
      case Failure(e) => Failure(e)
      case Success(x) => ScalarCriterion(m, x)
  }

  /** After a modifier, a trimmed remainder (without `*` under `like`) is the payload as it stands. */
  lemma PayloadAfterModifier(v: string, t: Token, rest: string)
    requires MatchModifier(v) == Some(t) && v[|Text(t)|..] == rest
    requires IsTrimmed(rest) && (Translate(t) == Single(Like) ==> '*' !in rest)
    ensures ModOf(v) == Translate(t) && PayloadText(v) == rest
  {
    if Translate(t) == Single(Like) {
      LikeRewriteNoStar(rest);
    }
  }

  /** Without a modifier or a backslash in front, the payload is the whole value. */
  lemma PayloadWithoutModifier(v: string)
    requires v != [] && !IsModifierChar(v[0]) && v[0] != '\\'
    ensures ModOf(v) == NoMod && PayloadText(v) == v
  {
  }

  /** A trimmed value whose payload is not read as a list compiles as the scalar its payload coerces to. */
  lemma CompileScalarAs(v: string, m: Mod, p: string, x: Value, isDate: bool, tryDate: string -> Option<int>)
    requires IsTrimmed(v) && ModOf(v) == m && PayloadText(v) == p
    requires !(ListModifier(m) && ',' in p)
    requires CoerceScalar(p, m == Single(Like), isDate) == Success(x)
    ensures CompileValue(v, isDate, tryDate) == ScalarCriterion(m, x)
  {
  }

  /** A trimmed value whose payload is read as a list compiles as the de-duplicated list. */
  lemma CompileListAs(v: string, m: Mod, p: string, vs: seq<Value>, isDate: bool, tryDate: string -> Option<int>)
    requires IsTrimmed(v) && ModOf(v) == m && PayloadText(v) == p
    requires ListModifier(m) && ',' in p
    requires UniqValues(CoerceList(Split(p, ','), isDate, tryDate)) == vs
    ensures |vs| >= 1 && NoDuplicates(vs)
    ensures CompileValue(v, isDate, tryDate) == Success(ListCriterion(m, vs))
  {
    var pieces := CoerceList(Split(p, ','), isDate, tryDate);
    assert pieces[0] in vs;
  }
}

=== FILE: criteria_text.dfy ===
/**
 * `parseCriteriaToString`: each compiled criterion written back as a
 * query fragment, through the reverse modifier table, and what survives a
 * second compilation.
 */
module CriteriaText {
  import opened Wrappers
  import opened Strings
  import opened OrderedMap
  import opened JsNumber
  import opened Modifiers
  import opened LikePattern
  import opened UriEncoding
  import opened Criteria

  /** A value as string concatenation renders it; `dateText` is `Date.prototype.toString`. */
  function ValueText(v: Value, dateText: int -> string): string {
    match v
    case VStr(s) => s
    case VNum(n) => IntToString(n)
    case VNull => ""
    case VDate(t) => dateText(t)
  }

  /** Each element's text. */
  function Texts(vs: seq<Value>, dateText: int -> string): (r: seq<string>)
    ensures |r| == |vs|
    ensures forall i | 0 <= i < |vs| :: r[i] == ValueText(vs[i], dateText)
  {
    if |vs| == 0 then [] else [ValueText(vs[0], dateText)] + Texts(vs[1..], dateText)
  }

  /** `Array.prototype.join(',')`, which renders `null` as empty. */
  function ValuesText(vs: seq<Value>, dateText: int -> string): string {
    Join(Texts(vs, dateText), ",")
  }

  /** An operator's value: `null` as empty, a list joined. */
  function OperandText(p: Payload, dateText: int -> string): string {
    match p
    case One(v) => ValueText(v, dateText)
    case Many(vs) => ValuesText(vs, dateText)
  }

  /**
   * The text of one criterion before trimming: strings and numbers as they
   * are, lists joined, a one-key object as its literal and value, a
   * `>=`-then-`<=` object as `><` and both values; anything else (`null`,
   * a date, an empty object) as nothing.
   */
  function CriterionText(c: Criterion, dateText: int -> string): (r: string)
    ensures c == Equals(One(VNull)) ==> r == ""
    ensures c.Equals? && c.p.One? && c.p.v.VDate? ==> r == ""
    ensures c.Ops? && |c.ops| == 1 ==> Literal(c.ops[0].0) <= r
    ensures c.Ops? && |c.ops| == 2 && c.ops[0].0 == GreaterEq && c.ops[1].0 == LessEq ==> "><" <= r
    ensures c.Ops? && |c.ops| == 2 && !(c.ops[0].0 == GreaterEq && c.ops[1].0 == LessEq) ==> r == ""
    ensures c.Ops? && (|c.ops| == 0 || |c.ops| > 2) ==> r == ""
  {
    match c
    case Equals(One(v)) =>
      if v.VStr? || v.VNum? then ValueText(v, dateText) else ""
    case Equals(Many(vs)) => ValuesText(vs, dateText)
    case Ops(ops) =>
      if |ops| == 1 then Literal(ops[0].0) + OperandText(ops[0].1, dateText)
      else if |ops| == 2 && ops[0].0 == GreaterEq && ops[1].0 == LessEq then
        "><" + (OperandText(ops[0].1, dateText) + "," + OperandText(ops[1].1, dateText))
      else ""
  }

  /** One fragment: `name=value` (encoded unless `decode`), or the bare name when the value is empty. */
  function FieldText(name: string, c: Criterion, decode: bool, dateText: int -> string): (r: string)
    ensures Trim(CriterionText(c, dateText)) == [] ==> r == name
    ensures Trim(CriterionText(c, dateText)) != [] && decode ==> r == name + "=" + Trim(CriterionText(c, dateText))
    ensures Trim(CriterionText(c, dateText)) != [] && !decode ==> r == name + "=" + Encode(Trim(CriterionText(c, dateText)))
  {
    var text := Trim(CriterionText(c, dateText));
    if text == [] then name
    else name + "=" + (if decode then text else Encode(text))
  }

  /** The fragments of every criterion, in key order. */
  function FieldTexts(where: OMap<Criterion>, decode: bool, dateText: int -> string): (r: seq<string>)
    ensures |r| == |where|
    ensures forall i | 0 <= i < |r| :: r[i] == FieldText(where[i].0, where[i].1, decode, dateText)
  {
    seq(|where|, i requires 0 <= i < |where| => FieldText(where[i].0, where[i].1, decode, dateText))
  }

  /** `parseCriteriaToString` applied to already parsed criteria: the fragments joined with `&`. */
  function CriteriaToString(where: OMap<Criterion>, decode: bool, dateText: int -> string): (r: string)
    ensures |where| == 0 ==> r == ""
    ensures !decode && |where| >= 1 && (forall i | 0 <= i < |where| :: '&' !in where[i].0) ==>
              Split(r, '&') == FieldTexts(where, decode, dateText)
  {
    var fs := FieldTexts(where, decode, dateText);
    if !decode && |where| >= 1 && (forall i | 0 <= i < |where| :: '&' !in where[i].0) then
      forall i | 0 <= i < |fs| ensures '&' !in fs[i] {
        FieldTextHasNoAmpersand(where[i].0, where[i].1, dateText);
      }
      SplitJoin(fs, '&');
      Join(fs, "&")
    else Join(fs, "&")
  }

  /** An encoded fragment holds `&` only when its name does. */
  lemma FieldTextHasNoAmpersand(name: string, c: Criterion, dateText: int -> string)
    requires '&' !in name
    ensures '&' !in FieldText(name, c, false, dateText)
  {
    var text := Trim(CriterionText(c, dateText));
    if text != [] {
      EncodeHasNoSeparators(text);
    }
  }

  /** Encoded values never contain the separators of a query string. */
  lemma EncodedFieldHasNoSeparators(name: string, c: Criterion, dateText: int -> string)
    requires Trim(CriterionText(c, dateText)) != []
    ensures var v := Encode(Trim(CriterionText(c, dateText)));
            FieldText(name, c, false, dateText) == name + "=" + v && '&' !in v && '=' !in v
  {
    EncodeHasNoSeparators(Trim(CriterionText(c, dateText)));
  }

  /**
   * Text that a value keeps through writing and reading again: not empty,
   * no surrounding white space, no comma, no leading modifier character or
   * backslash, and not one of the coerced words.
   */
  predicate PlainText(s: string) {
    && s != [] && IsTrimmed(s) && ',' !in s
    && !IsModifierChar(s[0]) && s[0] != '\\'
    && !IsCoerced(s)
  }

  /** A list of two or more distinct plain strings. */
  predicate PlainList(vs: seq<Value>) {
    && |vs| >= 2 && NoDuplicates(vs)
    && forall i | 0 <= i < |vs| :: vs[i].VStr? && PlainText(vs[i].s)
  }

  /**
   * The criteria on plain text: equality with a string or a list, one
   * operator on a string (a `like` pattern without `*`), `not` on a list,
   * and a between pair with different bounds.
   */
  predicate PlainCriterion(c: Criterion) {
    match c
    case Equals(One(v)) => v.VStr? && PlainText(v.s)
    case Equals(Many(vs)) => PlainList(vs)
    case Ops(ops) =>
      if |ops| == 1 then
        match ops[0].1
        case One(v) => v.VStr? && PlainText(v.s) && (ops[0].0 == Like ==> '*' !in v.s)
        case Many(vs) => ops[0].0 == Not && PlainList(vs)
      else
        && |ops| == 2 && ops[0].0 == GreaterEq && ops[1].0 == LessEq
        && ops[0].1.One? && ops[1].1.One?
        && ops[0].1.v.VStr? && ops[1].1.v.VStr?
        && PlainText(ops[0].1.v.s) && PlainText(ops[1].1.v.s)
        && ops[0].1.v.s != ops[1].1.v.s
  }

  lemma TrimmedConcat(a: string, b: string)
    requires a != [] && b != [] && !IsSpace(a[0]) && IsTrimmed(b)
    ensures IsTrimmed(a + b) && Trim(a + b) == a + b
  {
    assert (a + b)[|a + b| - 1] == b[|b| - 1];
  }

  /** A plain list is written as its strings joined: trimmed, starting with the first string, with a comma. */
  lemma PlainListJoin(vs: seq<Value>, dateText: int -> string)
    requires PlainList(vs)
    ensures var t := ValuesText(vs, dateText);
            t != [] && IsTrimmed(t) && t[0] == vs[0].s[0] && ',' in t
  {
    var xs := Texts(vs, dateText);
    forall i | 0 <= i < |xs| ensures xs[i] != [] {
    }
    JoinEnds(xs, ",");
    JoinHasSeparator(xs, ',');
  }

  /** Splitting a plain list's text at commas gives back its strings. */
  lemma PlainListSplit(vs: seq<Value>, dateText: int -> string)
    requires PlainList(vs)
    ensures Split(ValuesText(vs, dateText), ',') == Texts(vs, dateText)
  {
    var xs := Texts(vs, dateText);
    forall i | 0 <= i < |xs| ensures ',' !in xs[i] {
    }
    SplitJoin(xs, ',');
  }

  /** Coercing a plain list's strings gives back the list. */
  lemma PlainListCoerce(vs: seq<Value>, dateText: int -> string, tryDate: string -> Option<int>)
    requires PlainList(vs)
    ensures CoerceList(Texts(vs, dateText), false, tryDate) == vs
  {
    var xs := Texts(vs, dateText);
    var back := CoerceList(xs, false, tryDate);
    forall i | 0 <= i < |vs| ensures back[i] == vs[i] {
      assert Trim(xs[i]) == vs[i].s;
    }
  }

  /** A plain list is written as its strings joined, and splitting and coercing that gives the list back. */
  lemma PlainListText(vs: seq<Value>, dateText: int -> string, tryDate: string -> Option<int>)
    requires PlainList(vs)
    ensures var t := ValuesText(vs, dateText);
            && t != [] && IsTrimmed(t) && t[0] == vs[0].s[0] && ',' in t
            && CoerceList(Split(t, ','), false, tryDate) == vs
  {
    PlainListJoin(vs, dateText);
    PlainListSplit(vs, dateText);
    PlainListCoerce(vs, dateText, tryDate);
  }

  /** The facts about a list's text that compiling it depends on. */
  predicate ListTextFacts(u: string, vs: seq<Value>, tryDate: string -> Option<int>)
    requires PlainList(vs)
  {
    && u != [] && IsTrimmed(u) && u[0] == vs[0].s[0] && ',' in u
    && CoerceList(Split(u, ','), false, tryDate) == vs
  }

  /** A plain string compiles to equality with itself. */
  lemma CompileEquals(s: string, tryDate: string -> Option<int>)
    requires PlainText(s)
    ensures CompileValue(s, false, tryDate) == Success(Equals(One(VStr(s))))
  {
    PayloadWithoutModifier(s);
    CompileScalarAs(s, NoMod, s, VStr(s), false, tryDate);
  }

  /** The text of a plain list compiles to equality with the list. */
  lemma CompileEqualsList(u: string, vs: seq<Value>, tryDate: string -> Option<int>)
    requires PlainList(vs) && ListTextFacts(u, vs, tryDate)
    ensures CompileValue(u, false, tryDate) == Success(Equals(Many(vs)))
  {
    PayloadWithoutModifier(u);
    UniqValuesOfDistinct(vs);
    CompileListAs(u, NoMod, u, vs, false, tryDate);
  }

  /** Plain text coerces to itself as a scalar on an attribute that is not a date. */
  lemma CoercePlain(s: string, like: bool)
    requires PlainText(s)
    ensures CoerceScalar(s, like, false) == Success(VStr(s))
  {
  }

  /** How an operator's literal in front of a plain string is read: that operator with the string as payload. */
  lemma SingleOpParts(op: Op, s: string)
    requires PlainText(s) && (op == Like ==> '*' !in s)
    ensures ModOf(Literal(op) + s) == Single(op) && PayloadText(Literal(op) + s) == s
  {
    var t := Literal(op) + s;
    LiteralReadsBack(op, s);
    assert t[|Literal(op)|..] == s;
    PayloadAfterModifier(t, MatchModifier(t).value, s);
  }

  /** An operator's literal followed by a plain string compiles to that operator on the string. */
  lemma CompileSingleOp(op: Op, s: string, tryDate: string -> Option<int>)
    requires PlainText(s) && (op == Like ==> '*' !in s)
    ensures CompileValue(Literal(op) + s, false, tryDate) == Success(Ops([(op, One(VStr(s)))]))
  {
    var t := Literal(op) + s;
    assert IsTrimmed(t) by {
      TrimmedConcat(Literal(op), s);
    }
    assert ModOf(t) == Single(op) && PayloadText(t) == s by {
      SingleOpParts(op, s);
    }
    assert CoerceScalar(s, op == Like, false) == Success(VStr(s)) by {
      CoercePlain(s, op == Like);
    }
    CompileScalarAs(t, Single(op), s, VStr(s), false, tryDate);
  }

  /** `!` followed by the text of a plain list compiles to `not` on the list. */
  lemma CompileNotList(u: string, vs: seq<Value>, tryDate: string -> Option<int>)
    requires PlainList(vs) && ListTextFacts(u, vs, tryDate)
    ensures CompileValue("!" + u, false, tryDate) == Success(Ops([(Not, Many(vs))]))
  {
    TrimmedConcat("!", u);
    BangRead(u);
    UniqValuesOfDistinct(vs);
    CompileListAs("!" + u, Single(Not), u, vs, false, tryDate);
  }

  /** `!` in front of a trimmed text that starts with no modifier character: `not`, with that text as payload. */
  lemma BangRead(u: string)
    requires u != [] && IsTrimmed(u) && !IsModifierChar(u[0])
    ensures ModOf("!" + u) == Single(Not) && PayloadText("!" + u) == u
  {
    var t := "!" + u;
    LiteralReadsBack(Not, u);
    assert t[1..] == u;
    PayloadAfterModifier(t, Bang, u);
  }

  /** `a,b` for plain strings is trimmed and starts as `a` does. */
  lemma PairTrimmed(a: string, b: string)
    requires PlainText(a) && PlainText(b)
    ensures var u := a + "," + b;
            && u != [] && IsTrimmed(u) && u[0] == a[0] && ',' in u
  {
    var u := a + "," + b;
    assert u[|u| - 1] == b[|b| - 1];
    assert u[|a|] == ',';
  }

  /** How `><` in front of a trimmed text is read: the between modifier with that text as payload. */
  lemma BetweenPrefix(u: string)
    requires u != [] && IsTrimmed(u) && !IsSpace(u[0])
    ensures IsTrimmed("><" + u) && ModOf("><" + u) == Between && PayloadText("><" + u) == u
  {
    TrimmedConcat("><", u);
    BetweenRead(u);
  }

  /** `><` in front of a trimmed text: the between modifier, with that text as payload. */
  lemma BetweenRead(u: string)
    requires IsTrimmed(u)
    ensures ModOf("><" + u) == Between && PayloadText("><" + u) == u
  {
    var t := "><" + u;
    assert MatchModifier(t) == Some(GtLt);
    assert t[2..] == u;
    PayloadAfterModifier(t, GtLt, u);
  }

  /** How `><a,b` is read: trimmed, the between modifier, and `a,b` as a list payload. */
  lemma PairParts(a: string, b: string)
    requires PlainText(a) && PlainText(b)
    ensures var t := "><" + (a + "," + b);
            && IsTrimmed(t) && ModOf(t) == Between && PayloadText(t) == a + "," + b
            && ',' in a + "," + b
  {
    PairTrimmed(a, b);
    BetweenPrefix(a + "," + b);
  }

  /** The payload `a,b` splits and coerces to the two strings. */
  lemma PairPieces(a: string, b: string, tryDate: string -> Option<int>)
    requires PlainText(a) && PlainText(b)
    ensures CoerceList(Split(a + "," + b, ','), false, tryDate) == [VStr(a), VStr(b)]
  {
    assert Split(a + "," + b, ',') == [a, b] by {
      assert [a, b][1..] == [b];
      assert Join([a, b], ",") == a + "," + b;
      SplitJoin([a, b], ',');
    }
  }

  /** `><a,b` compiles to the between pair of the de-duplicated list `a,b`. */
  lemma CompileBetweenPair(a: string, b: string, tryDate: string -> Option<int>)
    requires PlainText(a) && PlainText(b)
    ensures CompileValue("><" + (a + "," + b), false, tryDate) == Success(Ops(BetweenOfList(UniqValues([VStr(a), VStr(b)]))))
  {
    PairParts(a, b);
    PairPieces(a, b, tryDate);
    CompileListAs("><" + (a + "," + b), Between, a + "," + b, UniqValues([VStr(a), VStr(b)]), false, tryDate);
  }

  /** A criterion's text is not empty, trimmed, and compiles back to the criterion on a non-date attribute. */
  predicate ReadsBack(c: Criterion, dateText: int -> string, tryDate: string -> Option<int>) {
    var t := CriterionText(c, dateText);
    t != [] && IsTrimmed(t) && CompileValue(t, false, tryDate) == Success(c)
  }

  /** Two different values stay a pair and become the two bounds. */
  lemma DistinctPair(a: string, b: string)
    requires a != b
    ensures BetweenOfList(UniqValues([VStr(a), VStr(b)])) == [(GreaterEq, One(VStr(a))), (LessEq, One(VStr(b)))]
  {
    UniqValuesOfDistinct([VStr(a), VStr(b)]);
  }

  /** `><a,b` with different plain bounds compiles to the pair of them. */
  lemma CompileDistinctBounds(a: string, b: string, tryDate: string -> Option<int>)
    requires PlainText(a) && PlainText(b) && a != b
    ensures CompileValue("><" + (a + "," + b), false, tryDate) == Success(Ops([(GreaterEq, One(VStr(a))), (LessEq, One(VStr(b)))]))
  {
    CompileBetweenPair(a, b, tryDate);
    DistinctPair(a, b);
  }

  /** Equality with a plain string reads back as itself. */
  lemma EqualsRoundTrip(s: string, dateText: int -> string, tryDate: string -> Option<int>)
    requires PlainText(s)
    ensures ReadsBack(Equals(One(VStr(s))), dateText, tryDate)
  {
    assert CriterionText(Equals(One(VStr(s))), dateText) == s;
    CompileEquals(s, tryDate);
  }

  /** Equality with a plain list reads back as itself. */
  lemma EqualsListRoundTrip(vs: seq<Value>, dateText: int -> string, tryDate: string -> Option<int>)
    requires PlainList(vs)
    ensures ReadsBack(Equals(Many(vs)), dateText, tryDate)
  {
    var u := ValuesText(vs, dateText);
    PlainListText(vs, dateText, tryDate);
    CompileEqualsList(u, vs, tryDate);
  }

  /** One operator on a plain string reads back as itself. */
  lemma SingleOpRoundTrip(op: Op, s: string, dateText: int -> string, tryDate: string -> Option<int>)
    requires PlainText(s) && (op == Like ==> '*' !in s)
    ensures ReadsBack(Ops([(op, One(VStr(s)))]), dateText, tryDate)
  {
    assert CriterionText(Ops([(op, One(VStr(s)))]), dateText) == Literal(op) + s;
    TrimmedConcat(Literal(op), s);
    CompileSingleOp(op, s, tryDate);
  }

  /** `not` on a plain list reads back as itself. */
  lemma NotListRoundTrip(vs: seq<Value>, dateText: int -> string, tryDate: string -> Option<int>)
    requires PlainList(vs)
    ensures ReadsBack(Ops([(Not, Many(vs))]), dateText, tryDate)
  {
    var u := ValuesText(vs, dateText);
    assert CriterionText(Ops([(Not, Many(vs))]), dateText) == "!" + u;
    PlainListText(vs, dateText, tryDate);
    TrimmedConcat("!", u);
    CompileNotList(u, vs, tryDate);
  }

  /** A between pair with different plain bounds reads back as itself. */
  lemma BetweenRoundTrip(a: string, b: string, dateText: int -> string, tryDate: string -> Option<int>)
    requires PlainText(a) && PlainText(b) && a != b
    ensures ReadsBack(Ops([(GreaterEq, One(VStr(a))), (LessEq, One(VStr(b)))]), dateText, tryDate)
  {
    assert CriterionText(Ops([(GreaterEq, One(VStr(a))), (LessEq, One(VStr(b)))]), dateText) == "><" + (a + "," + b);
    PairParts(a, b);
    CompileDistinctBounds(a, b, tryDate);
  }

  /**
   * Every plain criterion, written out and compiled again on an attribute
   * that is not a date, is the criterion it was; the encoded fragment
   * decodes to the text that is compiled.
   */
  lemma CriterionRoundTrip(name: string, c: Criterion, dateText: int -> string, tryDate: string -> Option<int>)
    requires PlainCriterion(c)
    ensures var t := Trim(CriterionText(c, dateText));
            && t != []
            && FieldText(name, c, false, dateText) == name + "=" + Encode(t)
            && Decode(Encode(t)) == Some(t)
            && CompileValue(t, false, tryDate) == Success(c)
  {
    CriterionTextPlain(c, dateText, tryDate);
    var t := CriterionText(c, dateText);
    assert Trim(t) == t;
    DecodeEncode(t);
  }

  /** A plain criterion's text is trimmed, not empty, and compiles back to it. */
  lemma CriterionTextPlain(c: Criterion, dateText: int -> string, tryDate: string -> Option<int>)
    requires PlainCriterion(c)
    ensures ReadsBack(c, dateText, tryDate)
  {
    match c
    case Equals(One(v)) =>
      EqualsRoundTrip(v.s, dateText, tryDate);
    case Equals(Many(vs)) =>
      EqualsListRoundTrip(vs, dateText, tryDate);
    case Ops(ops) =>
      if |ops| == 1 {
        match ops[0].1
        case One(v) =>
          assert c == Ops([(ops[0].0, One(VStr(v.s)))]);
          SingleOpRoundTrip(ops[0].0, v.s, dateText, tryDate);
        case Many(vs) =>
          assert c == Ops([(Not, Many(vs))]);
          NotListRoundTrip(vs, dateText, tryDate);
      } else {
        var a := ops[0].1.v.s;
        var b := ops[1].1.v.s;
        assert c == Ops([(GreaterEq, One(VStr(a))), (LessEq, One(VStr(b)))]);
        BetweenRoundTrip(a, b, dateText, tryDate);
      }
  }

  /** `\@s` is trimmed. */
  lemma EscapedTrimmed(s: string)
    requires PlainText(s)
    ensures IsTrimmed("\\@" + s)
  {
    TrimmedConcat("\\@", s);
  }

  /** `\@s` has no modifier, and its payload is the text after the backslash. */
  lemma EscapedRead(s: string)
    requires PlainText(s)
    ensures ModOf("\\@" + s) == NoMod && PayloadText("\\@" + s) == "@" + s
  {
    TrimmedConcat("@", s);
    assert "\\@" + s == ['\\'] + ("@" + s);
    EscapeRead("@" + s);
  }

  /** A backslash in front of a trimmed modifier text: no modifier, and the text after the backslash as payload. */
  lemma EscapeRead(t: string)
    requires t != [] && IsTrimmed(t) && IsModifierChar(t[0])
    ensures ModOf(['\\'] + t) == NoMod && PayloadText(['\\'] + t) == t
  {
    var v := ['\\'] + t;
    assert v[0] == '\\' && v[1..] == t;
    assert MatchModifier(v).None?;
    assert TrimStart(t) == t;
    assert IsEscaped(v);
    assert Trim(t) == t;
  }

  /** `@s` is neither a list nor a coerced word. */
  lemma EscapedPayload(s: string)
    requires PlainText(s)
    ensures ',' !in "@" + s && !IsCoerced("@" + s)
  {
    var t := "@" + s;
    assert t == ['@'] + s;
    assert t[0] == '@' && LowerChar('@') == '@';
  }

  /** An escaped modifier compiles to equality with the text after the backslash. */
  lemma CompileEscaped(s: string, tryDate: string -> Option<int>)
    requires PlainText(s)
    ensures CompileValue("\\@" + s, false, tryDate) == Success(Equals(One(VStr("@" + s))))
  {
    EscapedTrimmed(s);
    EscapedRead(s);
    EscapedPayload(s);
    CompileScalarAs("\\@" + s, NoMod, "@" + s, VStr("@" + s), false, tryDate);
  }

  /** An escaped modifier is written without its backslash and reads back as the operator. */
  lemma EscapedModifierIsLost(s: string, dateText: int -> string, tryDate: string -> Option<int>)
    requires PlainText(s)
    ensures CompileValue("\\@" + s, false, tryDate) == Success(Equals(One(VStr("@" + s))))
    ensures CriterionText(Equals(One(VStr("@" + s))), dateText) == "@" + s
    ensures CompileValue("@" + s, false, tryDate) == Success(Ops([(Contains, One(VStr(s)))]))
  {
    CompileEscaped(s, tryDate);
    EqualsText("@" + s, dateText);
    CompileSingleOp(Contains, s, tryDate);
  }

  /** Equality with text is written as the text itself. */
  lemma EqualsText(x: string, dateText: int -> string)
    ensures CriterionText(Equals(One(VStr(x))), dateText) == x
  {
  }

  /** A scalar under the between modifier compiles to both bounds equal to it. */
  lemma CompileBetweenScalar(a: string, tryDate: string -> Option<int>)
    requires PlainText(a)
    ensures CompileValue("><" + a, false, tryDate) == Success(Ops([(GreaterEq, One(VStr(a))), (LessEq, One(VStr(a)))]))
  {
    BetweenPrefix(a);
    CompileScalarAs("><" + a, Between, a, VStr(a), false, tryDate);
  }

  /** A repeated value collapses to one, which becomes the lower bound only. */
  lemma RepeatedPair(a: string)
    ensures BetweenOfList(UniqValues([VStr(a), VStr(a)])) == [(GreaterEq, One(VStr(a)))]
  {
    assert UniqValues([VStr(a)]) == [VStr(a)];
    assert [VStr(a), VStr(a)][..1] == [VStr(a)];
  }

  /** A between list with a repeated bound keeps only the lower bound. */
  lemma CompileRepeatedBound(a: string, tryDate: string -> Option<int>)
    requires PlainText(a)
    ensures CompileValue("><" + (a + "," + a), false, tryDate) == Success(Ops([(GreaterEq, One(VStr(a)))]))
  {
    CompileBetweenPair(a, a, tryDate);
    RepeatedPair(a);
  }

  /** A between value with equal bounds is written as a two-element list that collapses to one bound. */
  lemma EqualBoundsAreLost(a: string, dateText: int -> string, tryDate: string -> Option<int>)
    requires PlainText(a)
    ensures CompileValue("><" + a, false, tryDate) == Success(Ops([(GreaterEq, One(VStr(a))), (LessEq, One(VStr(a)))]))
    ensures CriterionText(Ops([(GreaterEq, One(VStr(a))), (LessEq, One(VStr(a)))]), dateText) == "><" + (a + "," + a)
    ensures CompileValue("><" + (a + "," + a), false, tryDate) == Success(Ops([(GreaterEq, One(VStr(a)))]))
  {
    CompileBetweenScalar(a, tryDate);
    assert Texts([VStr(a), VStr(a)], dateText) == [a, a];
    CompileRepeatedBound(a, tryDate);
  }

  /** Any spelling of `false` compiles to the number 0. */
  lemma CompileFalse(s: string, tryDate: string -> Option<int>)
    requires IsTrimmed(s) && LowersTo(s, "false")
    ensures CompileValue(s, false, tryDate) == Success(Equals(One(VNum(0))))
  {
    assert LowerChar(s[0]) == 'f';
    PayloadWithoutModifier(s);
    LowersToExcludes(s, "false", ',');
    CompileScalarAs(s, NoMod, s, VNum(0), false, tryDate);
  }

  /** The text `0` compiles to equality with the string `0`. */
  lemma CompileZeroText(tryDate: string -> Option<int>)
    ensures CompileValue("0", false, tryDate) == Success(Equals(One(VStr("0"))))
  {
    PayloadWithoutModifier("0");
    CompileScalarAs("0", NoMod, "0", VStr("0"), false, tryDate);
  }

  /** A value that is the word `false` in any letter case compiles to the number 0, which is written as `0` and reads back as the text `0`. */
  lemma CoercedFalseIsLost(s: string, dateText: int -> string, tryDate: string -> Option<int>)
    requires IsTrimmed(s) && LowersTo(s, "false")
    ensures CompileValue(s, false, tryDate) == Success(Equals(One(VNum(0))))
    ensures CriterionText(Equals(One(VNum(0))), dateText) == "0"
    ensures CompileValue("0", false, tryDate) == Success(Equals(One(VStr("0"))))
  {
    CompileFalse(s, tryDate);
    CompileZeroText(tryDate);
  }
}

=== FILE: fields.dfy ===
/**
 * The fields option: which attributes a response keeps. It is written
 * either as the list of fields to keep, or with a leading `-` as the list
 * to drop. It is checked against the model's "select master" (its
 * attribute names), and written back in whichever of the two forms is
 * shorter.
 */
module Fields {
  import opened Wrappers
  import opened Strings
  import opened Lists
  import opened OrderedMap
  import opened Config
  import opened Schema
  import opened Request
  import Sort

  /**
   * Whether a select master takes an attribute: a non-blank name declared
   * as an object, and not a collection unless `withCollections`.
   */
  predicate Admits(e: (string, AttrDef), withCollections: bool) {
    e.1.Declared? && !IsBlank(e.0) && (withCollections || !e.1.collection)
  }

  /** The trimmed names of the admitted attributes, in declaration order, before `_.uniq`. */
  function MasterNames(attrs: OMap<AttrDef>, withCollections: bool): (r: seq<string>)
    ensures forall i | 0 <= i < |r| :: r[i] != [] && IsTrimmed(r[i])
    decreases |attrs|
  {
    if |attrs| == 0 then []
    else (if Admits(attrs[0], withCollections) then [Trim(attrs[0].0)] else []) + MasterNames(attrs[1..], withCollections)
  }

  /** Every name admitted without collections is admitted with them. */
  lemma {:induction false} MasterNamesGrow(attrs: OMap<AttrDef>, x: string)
    requires x in MasterNames(attrs, false)
    ensures x in MasterNames(attrs, true)
    decreases |attrs|
  {
    if x !in MasterNames(attrs[1..], false) {
      assert x == Trim(attrs[0].0) && Admits(attrs[0], true);
    } else {
      MasterNamesGrow(attrs[1..], x);
    }
  }

  /** The select master `parseFields` checks against: the attributes that are not collections. */
  function Master(m: Model): (r: seq<string>)
    ensures Distinct(r)
  {
    Uniq(MasterNames(m.attributes, false))
  }

  /** The select master `parseFieldsToString` writes against: every attribute, collections included. */
  function SerialMaster(m: Model): (r: seq<string>)
    ensures Distinct(r)
  {
    Uniq(MasterNames(m.attributes, true))
  }

  /** A name is in the master of `attrs` exactly when some admitted attribute trims to it. */
  lemma {:induction false} MasterNamesAdmitted(attrs: OMap<AttrDef>, withCollections: bool, x: string)
    ensures x in MasterNames(attrs, withCollections) <==>
              exists i | 0 <= i < |attrs| :: Admits(attrs[i], withCollections) && Trim(attrs[i].0) == x
    decreases |attrs|
  {
    if |attrs| > 0 {
      MasterNamesAdmitted(attrs[1..], withCollections, x);
      if exists i | 0 <= i < |attrs| :: Admits(attrs[i], withCollections) && Trim(attrs[i].0) == x {
        var i :| 0 <= i < |attrs| && Admits(attrs[i], withCollections) && Trim(attrs[i].0) == x;
        if i > 0 {
          assert attrs[1..][i - 1] == attrs[i];
        }
      }
      if exists i | 0 <= i < |attrs[1..]| :: Admits(attrs[1..][i], withCollections) && Trim(attrs[1..][i].0) == x {
        var i :| 0 <= i < |attrs[1..]| && Admits(attrs[1..][i], withCollections) && Trim(attrs[1..][i].0) == x;
        assert attrs[i + 1] == attrs[1..][i];
      }
    }
  }

  /**
   * The two masters hold exactly the trimmed names of the admitted
   * attributes: without collections for parsing, with them for writing.
   */
  lemma MasterMembers(m: Model, x: string)
    ensures x in Master(m) <==>
              exists i | 0 <= i < |m.attributes| :: Admits(m.attributes[i], false) && Trim(m.attributes[i].0) == x
    ensures x in SerialMaster(m) <==>
              exists i | 0 <= i < |m.attributes| :: Admits(m.attributes[i], true) && Trim(m.attributes[i].0) == x
  {
    MasterNamesAdmitted(m.attributes, false, x);
    MasterNamesAdmitted(m.attributes, true, x);
  }

  /** Every name of the parsing master is in the writing master. */
  lemma MasterInSerialMaster(m: Model, x: string)
    requires x in Master(m)
    ensures x in SerialMaster(m)
  {
    MasterNamesGrow(m.attributes, x);
  }

  /** The fields text: the request's parameter, the model's and the global default, the route option, else none. */
  function FieldsSource(req: Req, cfg: Settings, m: Model): (r: Option<string>)
    ensures r.Some? ==> IsToken(r.value)
    ensures var p := ParamVal(req, FieldsName(cfg));
            HasText(p) ==> r == Some(Trim(p.s))
    ensures var p := ParamVal(req, FieldsName(cfg));
            !HasText(p) && HasText(m.overrides.defaultFields) ==> r == Some(Trim(m.overrides.defaultFields.s))
    ensures var p := ParamVal(req, FieldsName(cfg));
            !HasText(p) && !HasText(m.overrides.defaultFields) && HasText(cfg.defaultFields) ==>
              r == Some(Trim(cfg.defaultFields.s))
    ensures var p := ParamVal(req, FieldsName(cfg));
            !HasText(p) && !HasText(m.overrides.defaultFields) && !HasText(cfg.defaultFields) && HasText(req.options.fields) ==>
              r == Some(Trim(req.options.fields.s))
    ensures var p := ParamVal(req, FieldsName(cfg));
            !HasText(p) && !HasText(m.overrides.defaultFields) && !HasText(cfg.defaultFields) && !HasText(req.options.fields) ==>
              r.None?
  {
    FirstTextOfFour(ParamVal(req, FieldsName(cfg)), m.overrides.defaultFields, cfg.defaultFields, req.options.fields);
    FirstText([ParamVal(req, FieldsName(cfg)), m.overrides.defaultFields, cfg.defaultFields, req.options.fields])
  }

  /** The field an item names, trimmed; `id` stands for the primary key, and names nothing without one. */
  function FieldName(m: Model, item: string): (r: Option<string>)
    ensures Trim(item) != "id" ==> r == Some(Trim(item))
    ensures Trim(item) == "id" ==> r == m.primaryKey
  {
    var f := Trim(item);
    if f == "id" then m.primaryKey else Some(f)
  }

  /** The fields the items name, in order. */
  function FieldNames(m: Model, items: seq<string>): (r: seq<string>)
    ensures |r| <= |items|
    ensures forall i | 0 <= i < |r| :: r[i] != "id" || m.primaryKey == Some("id")
    decreases |items|
  {
    if |items| == 0 then []
    else
      (match FieldName(m, items[0]) case Some(f) => [f] case None => []) + FieldNames(m, items[1..])
  }

  /**
   * The fields are the ones the items name; with a primary key every item
   * names one, so the fields are the items' fields, position by position.
   */
  lemma {:induction false} FieldNamesNamed(m: Model, items: seq<string>)
    ensures forall x :: x in FieldNames(m, items) <==> exists i | 0 <= i < |items| :: FieldName(m, items[i]) == Some(x)
    ensures m.primaryKey.Some? ==>
              |FieldNames(m, items)| == |items| && forall i | 0 <= i < |items| :: FieldNames(m, items)[i] == FieldName(m, items[i]).value
    decreases |items|
  {
    if |items| > 0 {
      FieldNamesNamed(m, items[1..]);
      FieldNamesCons(m, items, FieldNames(m, items[1..]));
    }
  }

  /** The first item's field, if any, put before the fields of the others. */
  lemma FieldNamesCons(m: Model, items: seq<string>, rest: seq<string>)
    requires |items| >= 1
    requires forall x :: x in rest <==> exists i | 0 <= i < |items[1..]| :: FieldName(m, items[1..][i]) == Some(x)
    requires m.primaryKey.Some? ==>
               |rest| == |items[1..]| && forall i | 0 <= i < |items[1..]| :: rest[i] == FieldName(m, items[1..][i]).value
    ensures var r := (match FieldName(m, items[0]) case Some(f) => [f] case None => []) + rest;
            && (forall x :: x in r <==> exists i | 0 <= i < |items| :: FieldName(m, items[i]) == Some(x))
            && (m.primaryKey.Some? ==> |r| == |items| && forall i | 0 <= i < |items| :: r[i] == FieldName(m, items[i]).value)
  {
    var head := match FieldName(m, items[0]) case Some(f) => [f] case None => [];
    ConsMembers(m, items, head, rest);
    if m.primaryKey.Some? {
      ConsValues(m, items, head, rest);
    }
  }

  /** The membership half of `FieldNamesCons`. */
  lemma ConsMembers(m: Model, items: seq<string>, head: seq<string>, rest: seq<string>)
    requires |items| >= 1 && head == match FieldName(m, items[0]) case Some(f) => [f] case None => []
    requires forall x :: x in rest <==> exists i | 0 <= i < |items[1..]| :: FieldName(m, items[1..][i]) == Some(x)
    ensures forall x :: x in head + rest <==> exists i | 0 <= i < |items| :: FieldName(m, items[i]) == Some(x)
  {
    forall x
      ensures x in head + rest <==> exists i | 0 <= i < |items| :: FieldName(m, items[i]) == Some(x)
    {
      if x in head {
        assert FieldName(m, items[0]) == Some(x);
      } else if x in rest {
        var i :| 0 <= i < |items[1..]| && FieldName(m, items[1..][i]) == Some(x);
        assert FieldName(m, items[i + 1]) == Some(x);
      }
      if exists i | 0 <= i < |items| :: FieldName(m, items[i]) == Some(x) {
        var i :| 0 <= i < |items| && FieldName(m, items[i]) == Some(x);
        if i > 0 {
          assert FieldName(m, items[1..][i - 1]) == Some(x);
        }
      }
    }
  }

  /** The value half of `FieldNamesCons`: with a primary key every item names exactly one field. */
  lemma ConsValues(m: Model, items: seq<string>, head: seq<string>, rest: seq<string>)
    requires |items| >= 1 && m.primaryKey.Some? && head == [FieldName(m, items[0]).value]
    requires |rest| == |items[1..]| && forall i | 0 <= i < |items[1..]| :: rest[i] == FieldName(m, items[1..][i]).value
    ensures |head + rest| == |items| && forall i | 0 <= i < |items| :: (head + rest)[i] == FieldName(m, items[i]).value
  {
    forall i | 0 <= i < |items| ensures (head + rest)[i] == FieldName(m, items[i]).value {
      if i > 0 {
        assert items[1..][i - 1] == items[i];
      }
    }
  }

  /** The last check of `parseFields`: no selection, or one as long as the master, is `false`. */
  function Selection(m: Model, sel: seq<string>): (r: Option<seq<string>>)
    ensures r.Some? <==> |sel| != 0 && |sel| != |Master(m)|
    ensures r.Some? ==> r.value == sel
  {
    if |sel| == 0 || |sel| == |Master(m)| then None else Some(sel)
  }

  /** The fields a fields text names, after its signs. */
  function AskedNames(m: Model, f: string): (r: seq<string>)
    ensures forall i | 0 <= i < |r| :: r[i] != "id" || m.primaryKey == Some("id")
  {
    FieldNames(m, Split(Sort.StripSigns(f), ','))
  }

  /**
   * The selection a fields text makes: with a leading `-` the master's
   * copy loses each named field once; otherwise each named field of the
   * master is kept, in the order named.
   */
  function SelectFrom(m: Model, f: string): (r: Option<seq<string>>)
    requires f != []
    ensures |Master(m)| == 0 ==> r.None?
    ensures r.Some? ==> 1 <= |r.value| && |r.value| != |Master(m)|
    ensures r.Some? ==> forall i | 0 <= i < |r.value| :: r.value[i] in Master(m)
  {
    var master := Master(m);
    if |master| == 0 then None
    else if f[0] == '-' then
      RemoveAllIsWithout(master, AskedNames(m, f));
      Selection(m, RemoveAll(master, AskedNames(m, f)))
    else Selection(m, Within(AskedNames(m, f), master))
  }

  /** `parseFields`: the selection the first usable fields text makes, else `false`. */
  function ParseFields(req: Req, cfg: Settings, m: Model): (r: Option<seq<string>>)
    ensures FieldsSource(req, cfg, m).None? ==> r.None?
    ensures FieldsSource(req, cfg, m).Some? ==> r == SelectFrom(m, FieldsSource(req, cfg, m).value)
  {
    match FieldsSource(req, cfg, m)
    case None => None
    case Some(f) => SelectFrom(m, f)
  }

  /**
   * Dropping fields keeps the master's other fields in the master's order,
   * without repeats; the splicing loop is the filter.
   */
  lemma RemoveModeKeepsOthers(m: Model, f: string)
    requires f != [] && f[0] == '-'
    ensures SelectFrom(m, f) == Selection(m, Without(Master(m), AskedNames(m, f)))
    ensures SelectFrom(m, f).Some? ==> Distinct(SelectFrom(m, f).value)
    ensures SelectFrom(m, f).Some? ==> forall x ::
              x in SelectFrom(m, f).value <==> x in Master(m) && x !in AskedNames(m, f)
  {
    RemoveAllIsWithout(Master(m), AskedNames(m, f));
    WithoutDistinct(Master(m), AskedNames(m, f));
  }

  /** Keeping fields keeps exactly the named fields of the master, in the order named. */
  lemma KeepModeKeepsNamed(m: Model, f: string)
    requires f != [] && f[0] != '-'
    ensures SelectFrom(m, f) == Selection(m, Within(AskedNames(m, f), Master(m)))
    ensures SelectFrom(m, f).Some? ==> forall x ::
              x in SelectFrom(m, f).value <==> x in Master(m) && x in AskedNames(m, f)
  {
    var names := AskedNames(m, f);
    var sel := Within(names, Master(m));
    if |Master(m)| == 0 {
      WithinNothing(names);
    } else {
      assert SelectFrom(m, f) == Selection(m, sel);
    }
  }

  /** The text `parseFieldsToString` writes after `=`: the dropped fields when that is shorter, else the kept ones. */
  function FieldsValue(m: Model, sel: seq<string>): (r: string)
    ensures 2 * |sel| > |SerialMaster(m)| ==> r == "-" + Join(Without(SerialMaster(m), sel), ",")
    ensures 2 * |sel| <= |SerialMaster(m)| ==> r == Join(sel, ",")
  {
    var sm := SerialMaster(m);
    if 2 * |sel| > |sm| then "-" + Join(Without(sm, sel), ",") else Join(sel, ",")
  }

  /** `parseFieldsToString`: `name=` and the value; nothing without a selection or without the parameter. */
  function FieldsText(req: Req, cfg: Settings, m: Model): (r: string)
    ensures r == "" <==> ParseFields(req, cfg, m).None? || Param(req, FieldsName(cfg)).None?
    ensures r != "" ==> r == FieldsName(cfg) + "=" + FieldsValue(m, ParseFields(req, cfg, m).value)
  {
    match ParseFields(req, cfg, m)
    case None => ""
    case Some(sel) => if Param(req, FieldsName(cfg)).Some? then FieldsName(cfg) + "=" + FieldsValue(m, sel) else ""
  }

  /** A field name the text carries unchanged: trimmed, no comma or leading sign, and `id` only when that is the primary key. */
  predicate PlainField(m: Model, x: string) {
    && x != [] && IsTrimmed(x) && ',' !in x && x[0] != '-' && x[0] != '+'
    && (x == "id" ==> m.primaryKey == Some("id"))
  }

  /** A model whose every attribute name is a plain field. */
  predicate PlainModel(m: Model) {
    forall i | 0 <= i < |SerialMaster(m)| :: PlainField(m, SerialMaster(m)[i])
  }

  /** A selection `parseFields` can return, in the master's order. */
  predicate PlainSelection(m: Model, sel: seq<string>) {
    && 1 <= |sel| && |sel| != |Master(m)|
    && (forall i | 0 <= i < |sel| :: sel[i] in Master(m))
    && Within(Master(m), sel) == sel
  }

  /** Plain fields name themselves. */
  lemma {:induction false} FieldNamesOfPlain(m: Model, xs: seq<string>)
    requires forall i | 0 <= i < |xs| :: PlainField(m, xs[i])
    ensures FieldNames(m, xs) == xs
    decreases |xs|
  {
    if |xs| > 0 {
      FieldNamesOfPlain(m, xs[1..]);
      assert xs == [xs[0]] + xs[1..];
    }
  }

  /** Plain fields joined with commas are a usable text that splits back into them. */
  lemma PlainFieldsText(m: Model, xs: seq<string>)
    requires |xs| >= 1 && forall i | 0 <= i < |xs| :: PlainField(m, xs[i])
    ensures var t := Join(xs, ",");
            && IsToken(t) && t[0] != '-' && t[0] != '+' && Split(t, ',') == xs
  {
    JoinEnds(xs, ",");
    SplitJoin(xs, ',');
  }

  /** A request whose fields parameter is `t`, a usable text, reads the fields from `t`. */
  lemma SourceIsParam(req: Req, cfg: Settings, m: Model, t: string)
    requires IsToken(t) && Param(req, FieldsName(cfg)) == Some(t)
    ensures ParseFields(req, cfg, m) == SelectFrom(m, t)
  {
  }

  /** The kept-fields form of a plain selection selects it again. */
  lemma KeepFormReadsBack(m: Model, sel: seq<string>)
    requires PlainModel(m) && PlainSelection(m, sel)
    ensures SelectFrom(m, Join(sel, ",")) == Some(sel)
  {
    var t := Join(sel, ",");
    forall i | 0 <= i < |sel| ensures PlainField(m, sel[i]) {
      MasterInSerialMaster(m, sel[i]);
    }
    PlainFieldsText(m, sel);
    FieldNamesOfPlain(m, sel);
    assert AskedNames(m, t) == sel;
    WithinAll(sel, Master(m));
    KeepModeKeepsNamed(m, t);
  }

  /** The dropped-fields form of a plain selection drops something, so it is a usable text. */
  lemma DroppedNotEmpty(m: Model, sel: seq<string>)
    requires PlainSelection(m, sel)
    ensures |Without(SerialMaster(m), sel)| > 0
  {
    var master := Master(m);
    if |Without(SerialMaster(m), sel)| == 0 {
      forall i | 0 <= i < |master| ensures master[i] in sel {
        MasterInSerialMaster(m, master[i]);
      }
      WithinAll(master, sel);
      assert false;
    }
  }

  /** A `-` before a usable text free of signs is read as the drop mark alone. */
  lemma DashedText(j: string)
    requires IsToken(j) && j[0] != '-' && j[0] != '+'
    ensures IsToken("-" + j) && Sort.StripSigns("-" + j) == j
  {
    var t := "-" + j;
    assert t[|t| - 1] == j[|j| - 1];
    assert t[1..] == j;
  }

  /** The dropped-fields form of a plain selection selects it again. */
  lemma DropFormReadsBack(m: Model, sel: seq<string>)
    requires PlainModel(m) && PlainSelection(m, sel)
    ensures SelectFrom(m, "-" + Join(Without(SerialMaster(m), sel), ",")) == Some(sel)
  {
    var sm := SerialMaster(m);
    var master := Master(m);
    var dropped := Without(sm, sel);
    DroppedNotEmpty(m, sel);
    forall i | 0 <= i < |dropped| ensures PlainField(m, dropped[i]) {
      assert dropped[i] in sm;
    }
    var j := Join(dropped, ",");
    PlainFieldsText(m, dropped);
    DashedText(j);
    FieldNamesOfPlain(m, dropped);
    assert AskedNames(m, "-" + j) == dropped;
    RemoveModeKeepsOthers(m, "-" + j);
    forall i | 0 <= i < |master| ensures master[i] in dropped <==> master[i] !in sel {
      MasterInSerialMaster(m, master[i]);
    }
    WithoutIsWithin(master, dropped, sel);
  }

  /** The value `parseFieldsToString` writes for a plain selection is a usable fields text. */
  lemma FieldsValueIsToken(m: Model, sel: seq<string>)
    requires PlainModel(m) && PlainSelection(m, sel)
    ensures IsToken(FieldsValue(m, sel))
  {
    var sm := SerialMaster(m);
    if 2 * |sel| > |sm| {
      var dropped := Without(sm, sel);
      DroppedNotEmpty(m, sel);
      forall i | 0 <= i < |dropped| ensures PlainField(m, dropped[i]) {
        assert dropped[i] in sm;
      }
      PlainFieldsText(m, dropped);
      DashedText(Join(dropped, ","));
    } else {
      forall i | 0 <= i < |sel| ensures PlainField(m, sel[i]) {
        MasterInSerialMaster(m, sel[i]);
      }
      PlainFieldsText(m, sel);
    }
  }

  /**
   * A plain selection of a model with plain names, written as the fields
   * parameter, reads back as the same selection.
   */
  lemma FieldsReadsBack(req: Req, cfg: Settings, m: Model, sel: seq<string>)
    requires PlainModel(m) && PlainSelection(m, sel)
    requires Param(req, FieldsName(cfg)) == Some(FieldsValue(m, sel))
    ensures ParseFields(req, cfg, m) == Some(sel)
  {
    FieldsValueIsToken(m, sel);
    SourceIsParam(req, cfg, m, FieldsValue(m, sel));
    if 2 * |sel| > |SerialMaster(m)| {
      DropFormReadsBack(m, sel);
    } else {
      KeepFormReadsBack(m, sel);
    }
  }

  /** Naming the only field twice selects it twice. */
  lemma RepeatedFieldSelectedTwice(m: Model, a: string)
    requires Master(m) == [a] && PlainField(m, a)
    ensures SelectFrom(m, a + "," + a) == Some([a, a])
  {
    var t := a + "," + a;
    assert SelectFrom(m, t) == Selection(m, Within(AskedNames(m, t), Master(m))) by {
      assert t[0] == a[0];
      KeepModeKeepsNamed(m, t);
    }
    assert Within(AskedNames(m, t), Master(m)) == [a, a] by {
      AskedTwice(m, a);
      WithinAll([a, a], [a]);
    }
  }

  /** A plain field named twice is asked for twice. */
  lemma AskedTwice(m: Model, a: string)
    requires PlainField(m, a)
    ensures AskedNames(m, a + "," + a) == [a, a]
  {
    assert Join([a, a], ",") == a + "," + a;
    PlainFieldsText(m, [a, a]);
    FieldNamesOfPlain(m, [a, a]);
  }

  /** A bare `-` drops nothing, so it selects the whole master, which is no selection. */
  lemma BareDashSelectsNothing(m: Model)
    ensures SelectFrom(m, "-") == None
  {
    assert Sort.StripSigns("-") == Sort.StripSigns(Trim(""));
    assert Split("", ',') == [""];
    assert FieldNames(m, [""]) == [""] by {
      assert FieldName(m, "") == Some("");
    }
    assert AskedNames(m, "-") == [""];
    RemoveModeKeepsOthers(m, "-");
    forall i | 0 <= i < |Master(m)| ensures Master(m)[i] !in [""] {
      assert Master(m)[i] in MasterNames(m.attributes, false);
    }
    WithoutAgree(Master(m), [""], []);
    WithoutNothing(Master(m));
  }

  /**
   * Naming the only field twice selects it twice; that selection is
   * written as a bare `-`, which reads back as no selection at all.
   */
  lemma RepeatedFieldIsLost(m: Model, a: string)
    requires Master(m) == [a] && SerialMaster(m) == [a] && PlainField(m, a)
    ensures SelectFrom(m, a + "," + a) == Some([a, a])
    ensures FieldsValue(m, [a, a]) == "-"
    ensures SelectFrom(m, FieldsValue(m, [a, a])) == None
  {
    RepeatedFieldSelectedTwice(m, a);
    assert Without([a], [a, a]) == [] by {
      assert [a][1..] == [];
    }
    assert FieldsValue(m, [a, a]) == "-" + "";
    BareDashSelectsNothing(m);
  }
}

=== FILE: js_number.dfy ===
/**
 * JavaScript's integer text conversions: `parseInt` (radix left
 * undefined, as every call in the compiler does) and the decimal rendering
 * a number gets when it is concatenated to a string.
 */
module JsNumber {
  import opened Wrappers
  import opened Strings

  predicate IsDecDigit(c: char) {
    '0' <= c <= '9'
  }

  /** The value of `c` as a digit in base 10 or 16, if it is one. */
  function DigitValue(c: char, radix: nat): Option<nat>
    requires radix == 10 || radix == 16
  {
    if '0' <= c <= '9' then Some(c as int - '0' as int)
    else if radix == 16 && 'a' <= c <= 'f' then Some(c as int - 'a' as int + 10)
    else if radix == 16 && 'A' <= c <= 'F' then Some(c as int - 'A' as int + 10)
    else None
  }

  /** Length of the longest prefix of `s` made of digits of `radix`. */
  function DigitRun(s: string, radix: nat): (n: nat)
    requires radix == 10 || radix == 16
    ensures n <= |s|
    ensures forall i | 0 <= i < n :: DigitValue(s[i], radix).Some?
    ensures n < |s| ==> DigitValue(s[n], radix).None?
  {
    if |s| > 0 && DigitValue(s[0], radix).Some? then 1 + DigitRun(s[1..], radix) else 0
  }

  /** The number a string of digits denotes, most significant first. */
  function DigitsValue(s: string, radix: nat): nat
    requires radix == 10 || radix == 16
    requires forall i | 0 <= i < |s| :: DigitValue(s[i], radix).Some?
  {
    if |s| == 0 then 0
    else DigitsValue(s[..|s| - 1], radix) * radix + DigitValue(s[|s| - 1], radix).value
  }

  /**
   * `parseInt(s)`: skip leading white space, take an optional sign, switch to
   * base 16 after `0x`/`0X`, then read the longest digit run; no digits is NaN (None).
   */
  function ParseInt(s: string): Option<int>
  {
    var t := TrimStart(s);
    var negative := |t| > 0 && t[0] == '-';
    var u := if |t| > 0 && (t[0] == '-' || t[0] == '+') then t[1..] else t;
    var hex := |u| >= 2 && u[0] == '0' && (u[1] == 'x' || u[1] == 'X');
    var radix := if hex then 16 else 10;
    var w := if hex then u[2..] else u;
    var n := DigitRun(w, radix);
    if n == 0 then None
    else
      var v: int := PrefixValue(w, n, radix);
      Some(if negative then -v else v)
  }

  /** Text that starts with something other than white space, a sign or a digit is not a number. */
  lemma ParseIntOfNonDigit(s: string)
    requires |s| > 0 && !IsSpace(s[0]) && s[0] != '-' && s[0] != '+' && !IsDecDigit(s[0])
    ensures ParseInt(s).None?
  {
    assert TrimStart(s) == s;
    assert DigitValue(s[0], 10).None?;
  }

  /** The number the first `n` characters of `w`, all digits, denote. */
  function PrefixValue(w: string, n: nat, radix: nat): nat
    requires radix == 10 || radix == 16
    requires n <= |w| && forall i | 0 <= i < n :: DigitValue(w[i], radix).Some?
  {
    var d := w[..n];
    assert forall i | 0 <= i < |d| :: d[i] == w[i];
    DigitsValue(d, radix)
  }

  function DigitChar(d: nat): (c: char)
    requires d < 10
    ensures IsDecDigit(c) && DigitValue(c, 10) == Some(d)
  {
    ('0' as int + d) as char
  }

  /** The decimal text of a natural number, without leading zeros. */
  function NatToString(n: nat): (r: string)
    ensures 1 <= |r|
    ensures forall i | 0 <= i < |r| :: IsDecDigit(r[i])
    ensures r[0] == '0' ==> n == 0 && r == "0"
  {
    if n < 10 then [DigitChar(n)] else NatToString(n / 10) + [DigitChar(n % 10)]
  }

  /** `'' + n` for an integer `n`. */
  function IntToString(n: int): (r: string)
    ensures 1 <= |r|
    ensures n >= 0 ==> r == NatToString(n)
    ensures n < 0 ==> r == "-" + NatToString(-n)
  {
    if n < 0 then "-" + NatToString(-n) else NatToString(n)
  }

  lemma {:induction false} NatToStringValue(n: nat)
    ensures DigitsValue(NatToString(n), 10) == n
  {
    if n >= 10 {
      NatToStringValue(n / 10);
      var s := NatToString(n);
      assert s[..|s| - 1] == NatToString(n / 10);
    }
  }

  lemma {:induction false} DigitRunAppend(d: string, rest: string)
    requires forall i | 0 <= i < |d| :: IsDecDigit(d[i])
    requires rest == [] || !IsDecDigit(rest[0])
    ensures DigitRun(d + rest, 10) == |d|
    decreases |d|
  {
    if |d| > 0 {
      assert (d + rest)[1..] == d[1..] + rest;
      DigitRunAppend(d[1..], rest);
    }
  }

  /**
   * Reading back a positive number's decimal text with `parseInt` gives the
   * number, whatever non-digit text follows it.
   */
  lemma ParseIntOfDecimal(n: int, rest: string)
    requires n >= 1
    requires rest == [] || !IsDecDigit(rest[0])
    ensures ParseInt(IntToString(n) + rest) == Some(n)
  {
    var d := NatToString(n);
    var s := d + rest;
    assert IntToString(n) == d;
    assert s[0] == d[0] && IsDecDigit(s[0]) && !IsSpace(s[0]);
    assert TrimStart(s) == s;
    assert d[0] != '0';
    DigitRunAppend(d, rest);
    assert s[..|d|] == d;
    NatToStringValue(n);
  }
}

=== FILE: like_pattern.dfy ===
/**
 * The wildcard rewrite applied to a `like` payload: a global `replace`
 * of the pattern `([^\\]+|^)\*` by `$1%`, modelled as the regular
 * expression engine runs it (leftmost match, first alternative first,
 * greedy run with backtracking, global scan resuming after each match),
 * together with what that amounts to.
 */
module LikePattern {
  import opened Wrappers

  /** End of the backslash-free run that starts at `p`. */
  function RunEnd(s: string, p: nat): (e: nat)
    requires p <= |s|
    ensures p <= e <= |s|
    ensures forall i | p <= i < e :: s[i] != '\\'
    ensures e < |s| ==> s[e] == '\\'
    decreases |s| - p
  {
    if p == |s| || s[p] == '\\' then p else RunEnd(s, p + 1)
  }

  /** Any position inside a run ends where the run ends. */
  lemma {:induction false} RunEndInside(s: string, p: nat, q: nat)
    requires p <= |s|
    requires p <= q <= RunEnd(s, p)
    ensures RunEnd(s, q) == RunEnd(s, p)
    decreases q - p
  {
    if p < q {
      RunEndInside(s, p + 1, q);
    }
  }

  /** The last `*` in `s[lo..hi]`. */
  function LastStar(s: string, lo: nat, hi: nat): (r: Option<nat>)
    requires lo <= hi <= |s|
    ensures r.Some? ==> lo <= r.value < hi && s[r.value] == '*'
    ensures r.Some? ==> forall i | r.value < i < hi :: s[i] != '*'
    ensures r.None? ==> forall i | lo <= i < hi :: s[i] != '*'
    decreases hi - lo
  {
    if lo == hi then None
    else if s[hi - 1] == '*' then Some(hi - 1)
    else LastStar(s, lo, hi - 1)
  }

  /**
   * Where a match of `([^\\]+|^)\*` that starts exactly at `p` ends: a
   * non-empty backslash-free run followed by `*`, the run as long as
   * possible; failing that, a `*` at the very start of the string.
   */
  function MatchAt(s: string, p: nat): (r: Option<nat>)
    requires p < |s|
    ensures r.Some? ==> p < r.value <= |s|
  {
    if s[p] == '\\' then None
    else
      var e := RunEnd(s, p);
      match LastStar(s, p + 1, e)
      case Some(q) =>
        RunEndInside(s, p, q);
        Some(q + 1)
      case None =>
        if p == 0 && s[0] == '*' then Some(1) else None
  }

  /**
   * A match is a backslash-free stretch ending in the last `*` of its run,
   * preceded by something other than a backslash unless it is the lone
   * leading `*`.
   */
  lemma MatchAtFacts(s: string, p: nat, e: nat)
    requires p < |s| && MatchAt(s, p) == Some(e)
    ensures s[e - 1] == '*'
    ensures forall i | p <= i < e :: s[i] != '\\'
    ensures e == 1 || (p < e - 1 && s[e - 2] != '\\')
    ensures forall i | e - 1 < i < RunEnd(s, e - 1) :: s[i] != '*'
  {
    if s[p] != '\\' && LastStar(s, p + 1, RunEnd(s, p)).Some? {
      RunEndInside(s, p, e - 1);
    }
  }

  /** The global replacement from position `p` on: each match's run is kept and its `*` becomes `%`. */
  function ReplaceFrom(s: string, p: nat): (r: string)
    requires p <= |s|
    ensures |r| == |s| - p
    decreases |s| - p
  {
    if p == |s| then ""
    else match MatchAt(s, p)
      case Some(e) => s[p..e - 1] + "%" + ReplaceFrom(s, e)
      case None => [s[p]] + ReplaceFrom(s, p + 1)
  }

  /** Where a match starts, the scan writes the run, a `%`, and the scan after the match. */
  lemma ReplaceFromMatch(s: string, p: nat, e: nat)
    requires p < |s| && MatchAt(s, p) == Some(e)
    ensures ReplaceFrom(s, p) == s[p..e - 1] + "%" + ReplaceFrom(s, e)
  {
  }

  /** Where no match starts, the scan copies one character and moves on. */
  lemma ReplaceFromMiss(s: string, p: nat)
    requires p < |s| && MatchAt(s, p).None?
    ensures ReplaceFrom(s, p) == [s[p]] + ReplaceFrom(s, p + 1)
  {
  }

  /** Inside a match, the output keeps the run and marks its last star. */
  lemma KeepsInMatch(s: string, p: nat, e: nat, j: nat)
    requires p < |s| && MatchAt(s, p) == Some(e) && p <= j < e
    ensures KeptOrMarked(s, j, ReplaceFrom(s, p)[j - p])
  {
    ReplaceFromMatch(s, p, e);
    MatchAtFacts(s, p, e);
    var head := s[p..e - 1] + "%";
    var rest := ReplaceFrom(s, e);
    assert ReplaceFrom(s, p)[j - p] == head[j - p];
    if j == e - 1 {
      assert head[j - p] == '%';
      assert LastStarOfRun(s, e - 1);
    } else {
      assert head[j - p] == s[j];
    }
  }

  /** Each output character of the scan is the input's, or `%` in place of the last star of a run. */
  lemma {:induction false} ReplaceFromKeeps(s: string, p: nat, j: nat)
    requires p <= j < |s|
    ensures KeptOrMarked(s, j, ReplaceFrom(s, p)[j - p])
    decreases |s| - p, 1
  {
    match MatchAt(s, p)
    case Some(e) =>
      if j < e {
        KeepsInMatch(s, p, e, j);
      } else {
        KeepsAfterMatch(s, p, e, j);
      }
    case None =>
      KeepsAfterMiss(s, p, j);
  }

  /** Past a match, the output is the scan resumed after it. */
  lemma {:induction false} KeepsAfterMatch(s: string, p: nat, e: nat, j: nat)
    requires p < |s| && MatchAt(s, p) == Some(e) && e <= j < |s|
    ensures KeptOrMarked(s, j, ReplaceFrom(s, p)[j - p])
    decreases |s| - p, 0
  {
    ReplaceAfterMatch(s, p, e, j);
    ReplaceFromKeeps(s, e, j);
  }

  /** Where no match starts, the output is the character itself, then the scan one on. */
  lemma {:induction false} KeepsAfterMiss(s: string, p: nat, j: nat)
    requires p <= j < |s| && MatchAt(s, p).None?
    ensures KeptOrMarked(s, j, ReplaceFrom(s, p)[j - p])
    decreases |s| - p, 0
  {
    ReplaceFromMiss(s, p);
    if j > p {
      ReplaceAfterMiss(s, p, j);
      ReplaceFromKeeps(s, p + 1, j);
    }
  }

  /** The `like` wildcard rewrite of a whole payload. */
  function LikeRewrite(s: string): (r: string)
    ensures |r| == |s|
    ensures forall i | 0 <= i < |s| :: r[i] == s[i] || (s[i] == '*' && r[i] == '%')
    ensures forall i | 0 <= i < |s| && r[i] != s[i] :: LastStarOfRun(s, i)
  {
    var r := ReplaceFrom(s, 0);
    assert forall i | 0 <= i < |s| :: KeptOrMarked(s, i, r[i]) by {
      forall i | 0 <= i < |s| ensures KeptOrMarked(s, i, r[i]) {
        ReplaceFromKeeps(s, 0, i);
      }
    }
    r
  }

  /** Output character `c` at position `j` is the input's, or `%` in place of the last star of a run. */
  predicate KeptOrMarked(s: string, j: nat, c: char)
    requires j < |s|
  {
    c == s[j] || (c == '%' && LastStarOfRun(s, j))
  }

  /**
   * Position `i` holds the last `*` of its backslash-free run, and is not
   * the first character of a run that begins right after a backslash.
   */
  predicate LastStarOfRun(s: string, i: nat)
    requires i < |s|
  {
    && s[i] == '*'
    && (i == 0 || s[i - 1] != '\\')
    && forall k | i < k < RunEnd(s, i) :: s[k] != '*'
  }

  /** A match attempt inside a run, before its last star, ends just after that star. */
  lemma MatchFindsLastStar(s: string, p: nat, i: nat)
    requires p < i < |s| && LastStarOfRun(s, i)
    requires forall k | p <= k < i :: s[k] != '\\'
    ensures MatchAt(s, p) == Some(i + 1)
  {
    RunEndInside(s, p, i);
    assert LastStar(s, p + 1, RunEnd(s, p)) == Some(i);
  }

  /** Output positions past a match come from the scan resumed after it. */
  lemma ReplaceAfterMatch(s: string, p: nat, e: nat, i: nat)
    requires p < |s| && MatchAt(s, p) == Some(e)
    requires e <= i < |s|
    ensures ReplaceFrom(s, p)[i - p] == ReplaceFrom(s, e)[i - e]
  {
    ReplaceFromMatch(s, p, e);
    var head := s[p..e - 1] + "%";
    var rest := ReplaceFrom(s, e);
    assert |head| == e - p;
    assert (head + rest)[|head| + (i - e)] == rest[i - e];
  }

  /** A match writes `%` where its `*` was. */
  lemma ReplaceAtMatch(s: string, p: nat, e: nat)
    requires p < |s| && MatchAt(s, p) == Some(e)
    ensures ReplaceFrom(s, p)[e - 1 - p] == '%'
  {
    ReplaceFromMatch(s, p, e);
    var head := s[p..e - 1] + "%";
    assert (head + ReplaceFrom(s, e))[e - 1 - p] == '%';
  }

  /** A lone `*` at the start of the string is the second alternative's match. */
  lemma LeadingStar(s: string)
    requires |s| > 0 && LastStarOfRun(s, 0)
    ensures ReplaceFrom(s, 0)[0] == '%'
  {
    assert LastStar(s, 1, RunEnd(s, 0)).None?;
    assert MatchAt(s, 0) == Some(1);
    ReplaceAtMatch(s, 0, 1);
  }

  /** Output positions past a failed attempt come from the scan one position on. */
  lemma ReplaceAfterMiss(s: string, p: nat, i: nat)
    requires p < i < |s| && MatchAt(s, p).None?
    ensures ReplaceFrom(s, p)[i - p] == ReplaceFrom(s, p + 1)[i - (p + 1)]
  {
    ReplaceFromMiss(s, p);
  }

  /** A match never runs over a backslash. */
  lemma MatchStopsAtBackslash(s: string, p: nat, e: nat, k: nat)
    requires p <= k < |s| && s[k] == '\\' && MatchAt(s, p) == Some(e)
    ensures e <= k
  {
    MatchAtFacts(s, p, e);
  }

  /** A `%` written by the scan resumed after a match is in the output from the match's start. */
  lemma StarAfterMatch(s: string, p: nat, e: nat, i: nat)
    requires p < |s| && MatchAt(s, p) == Some(e)
    requires e <= i < |s| && ReplaceFrom(s, e)[i - e] == '%'
    ensures ReplaceFrom(s, p)[i - p] == '%'
  {
    ReplaceAfterMatch(s, p, e, i);
  }

  /** A `%` written by the scan one position on is in the output from the position before. */
  lemma StarAfterMiss(s: string, p: nat, i: nat)
    requires p < i < |s| && MatchAt(s, p).None?
    requires ReplaceFrom(s, p + 1)[i - (p + 1)] == '%'
    ensures ReplaceFrom(s, p)[i - p] == '%'
  {
    ReplaceAfterMiss(s, p, i);
  }

  /** The scan reaches every last star of a run, from any position before it in its run or earlier. */
  lemma {:induction false} ScanReachesLastStar(s: string, p: nat, i: nat)
    requires p <= i < |s| && LastStarOfRun(s, i)
    requires p == i ==> p == 0
    ensures ReplaceFrom(s, p)[i - p] == '%'
    decreases i - p, 2
  {
    if p == i {
      LeadingStar(s);
    } else if forall k | p <= k < i :: s[k] != '\\' {
      MatchFindsLastStar(s, p, i);
      ReplaceAtMatch(s, p, i + 1);
    } else {
      var k :| p <= k < i && s[k] == '\\';
      ScanPastBackslash(s, p, i, k);
    }
  }

  /** With a backslash between the scan and a last star, the scan moves past it and still reaches the star. */
  lemma {:induction false} ScanPastBackslash(s: string, p: nat, i: nat, k: nat)
    requires p <= k < i < |s| && s[k] == '\\' && LastStarOfRun(s, i)
    ensures ReplaceFrom(s, p)[i - p] == '%'
    decreases i - p, 1
  {
    match MatchAt(s, p)
    case Some(e) => ScanPastMatch(s, p, i, k, e);
    case None =>
      assert k != i - 1;
      ScanPastMiss(s, p, i);
  }

  /** A match before the backslash: the scan resumes after it, still before the star. */
  lemma {:induction false} ScanPastMatch(s: string, p: nat, i: nat, k: nat, e: nat)
    requires p <= k < i < |s| && s[k] == '\\' && LastStarOfRun(s, i)
    requires MatchAt(s, p) == Some(e)
    ensures ReplaceFrom(s, p)[i - p] == '%'
    decreases i - p, 0
  {
    MatchStopsAtBackslash(s, p, e, k);
    ScanReachesLastStar(s, e, i);
    StarAfterMatch(s, p, e, i);
  }

  /** No match at the scan position: the scan moves one on, still before the star. */
  lemma {:induction false} ScanPastMiss(s: string, p: nat, i: nat)
    requires p + 1 < i < |s| && LastStarOfRun(s, i)
    requires MatchAt(s, p).None?
    ensures ReplaceFrom(s, p)[i - p] == '%'
    decreases i - p, 0
  {
    ScanReachesLastStar(s, p + 1, i);
    StarAfterMiss(s, p, i);
  }

  /**
   * The rewrite changes exactly the last unescaped `*` of each
   * backslash-free run, each into `%`.
   */
  lemma LikeRewriteExactly(s: string, i: nat)
    requires i < |s|
    ensures LikeRewrite(s)[i] != s[i] <==> LastStarOfRun(s, i)
    ensures LastStarOfRun(s, i) ==> LikeRewrite(s)[i] == '%'
  {
    var r := LikeRewrite(s);
    if LastStarOfRun(s, i) {
      ScanReachesLastStar(s, 0, i);
      assert r[i] == '%' != s[i];
    } else {
      assert r[i] == s[i];
    }
  }

  /** Without any `*` the payload is left as it is. */
  lemma LikeRewriteNoStar(s: string)
    requires '*' !in s
    ensures LikeRewrite(s) == s
  {
  }

  /** In a backslash-free payload the first match ends just after the last `*`. */
  lemma FirstMatchAtLastStar(s: string, j: nat)
    requires '\\' !in s
    requires j < |s| && s[j] == '*'
    requires forall k | j < k < |s| :: s[k] != '*'
    ensures MatchAt(s, 0) == Some(j + 1)
  {
    assert RunEnd(s, 0) == |s|;
    assert LastStar(s, 1, |s|) == if j >= 1 then Some(j) else None;
  }

  /** Where no `*` follows, the scan copies the rest as it is. */
  lemma ReplaceWithoutStars(s: string, p: nat)
    requires p <= |s|
    requires forall k | p <= k < |s| :: s[k] != '*'
    ensures ReplaceFrom(s, p) == s[p..]
  {
    var rest := ReplaceFrom(s, p);
    forall d | 0 <= d < |rest| ensures rest[d] == s[p + d] {
      ReplaceFromKeeps(s, p, p + d);
    }
  }

  /** In a backslash-free payload exactly the last `*` becomes `%`. */
  lemma LikeRewriteLastStar(s: string, j: nat)
    requires '\\' !in s
    requires j < |s| && s[j] == '*'
    requires forall k | j < k < |s| :: s[k] != '*'
    ensures LikeRewrite(s) == s[..j] + "%" + s[j + 1..]
  {
    FirstMatchAtLastStar(s, j);
    ReplaceFromMatch(s, 0, j + 1);
    ReplaceWithoutStars(s, j + 1);
  }
}

=== FILE: lists.dfy ===
/**
 * The array helpers the source leans on: lodash `_.uniq`, `indexOf` +
 * `splice` removal and `filter` by (non-)membership.
 */
module Lists {

  /** No element occurs twice. */
  predicate Distinct<T(==,!new)>(xs: seq<T>) {
    forall i, j | 0 <= i < j < |xs| :: xs[i] != xs[j]
  }

  /** `xs.indexOf(x)` for an element that is present: the index of its first occurrence. */
  function First<T(==)>(xs: seq<T>, x: T): (r: nat)
    requires x in xs
    ensures r < |xs| && xs[r] == x
    ensures forall k | 0 <= k < r :: xs[k] != x
  {
    if xs[0] == x then 0 else 1 + First(xs[1..], x)
  }

  /** Putting a different element in front moves the first occurrence one place on. */
  lemma FirstCons<T>(a: T, rest: seq<T>, y: T)
    requires y in rest && a != y
    ensures First([a] + rest, y) == 1 + First(rest, y)
  {
    assert ([a] + rest)[1..] == rest;
  }

  /** Appending leaves the first occurrence of an element already present where it was. */
  lemma FirstOfSnoc<T>(init: seq<T>, x: T, y: T)
    requires y in init
    ensures First(init + [x], y) == First(init, y)
  {
    var xs := init + [x];
    assert xs[First(init, y)] == y;
  }

  /** An element that only the appended entry supplies occurs first at the end. */
  lemma FirstOfLast<T>(init: seq<T>, x: T)
    requires x !in init
    ensures First(init + [x], x) == |init|
  {
  }

  /** lodash `_.uniq`: keeps the first occurrence of every element, in order. */
  function Uniq<T(==,!new)>(xs: seq<T>): (r: seq<T>)
    ensures Distinct(r)
    ensures forall x :: x in r <==> x in xs
    ensures |r| <= |xs|
    decreases |xs|
  {
    if |xs| == 0 then []
    else
      var r := Uniq(xs[..|xs| - 1]);
      assert forall x :: x in xs <==> x in xs[..|xs| - 1] || x == xs[|xs| - 1];
      if xs[|xs| - 1] in r then r else r + [xs[|xs| - 1]]
  }

  /** `_.uniq` keeps the elements in the order in which each first occurs. */
  lemma {:induction false} UniqKeepsFirstOrder<T(!new)>(xs: seq<T>)
    ensures forall i, j | 0 <= i < j < |Uniq(xs)| :: First(xs, Uniq(xs)[i]) < First(xs, Uniq(xs)[j])
    decreases |xs|
  {
    if |xs| > 0 {
      var init, x := xs[..|xs| - 1], xs[|xs| - 1];
      var r := Uniq(init);
      UniqKeepsFirstOrder(init);
      assert xs == init + [x];
      forall y | y in init ensures First(xs, y) == First(init, y) {
        FirstOfSnoc(init, x, y);
      }
      if x !in r {
        FirstOfLast(init, x);
        assert forall i | 0 <= i < |r| :: r[i] in init;
      }
    }
  }

  /** `_.uniq` of a list with one more element at the end. */
  lemma UniqSnoc<T(!new)>(xs: seq<T>, x: T)
    ensures Uniq(xs + [x]) == if x in Uniq(xs) then Uniq(xs) else Uniq(xs) + [x]
  {
    assert (xs + [x])[..|xs|] == xs;
  }

  /** De-duplicating a prefix first makes no difference to de-duplicating the whole. */
  lemma {:induction false} UniqOfUniq<T(!new)>(xs: seq<T>, c: seq<T>)
    ensures Uniq(Uniq(xs) + c) == Uniq(xs + c)
    decreases |c|
  {
    if |c| == 0 {
      assert Uniq(xs) + c == Uniq(xs) && xs + c == xs;
      UniqOfDistinct(Uniq(xs));
    } else {
      var c', z := c[..|c| - 1], c[|c| - 1];
      UniqOfUniq(xs, c');
      assert Uniq(xs) + c == (Uniq(xs) + c') + [z];
      assert xs + c == (xs + c') + [z];
      UniqSnoc(Uniq(xs) + c', z);
      UniqSnoc(xs + c', z);
    }
  }

  /** A repeat of an element already seen does not change `_.uniq`, whatever follows. */
  lemma UniqSkipsRepeat<T(!new)>(a: seq<T>, k: T, rest: seq<T>)
    requires k in a
    ensures Uniq((a + [k]) + rest) == Uniq(a + rest)
  {
    calc {
      Uniq((a + [k]) + rest);
      { UniqOfUniq(a + [k], rest); }
      Uniq(Uniq(a + [k]) + rest);
      { UniqSnoc(a, k); }
      Uniq(Uniq(a) + rest);
      { UniqOfUniq(a, rest); }
      Uniq(a + rest);
    }
  }

  /**
   * Seeing the elements `named` (none or one) after `a`: `ks` is `a` with a
   * new element appended, and `_.uniq` of what follows agrees with `_.uniq`
   * of the whole.
   */
  lemma UniqStep<T(!new)>(a: seq<T>, ks: seq<T>, named: seq<T>, rest: seq<T>)
    requires |named| <= 1
    requires named == [] || named[0] in a ==> ks == a
    requires named != [] && named[0] !in a ==> ks == a + named
    ensures Uniq(ks + rest) == Uniq(a + (named + rest))
  {
    if named == [] {
      assert a + (named + rest) == ks + rest by {
        assert named + rest == rest;
      }
    } else if named[0] in a {
      var k := named[0];
      assert a + (named + rest) == (a + [k]) + rest by {
        assert named == [k];
      }
      UniqSkipsRepeat(a, k, rest);
    } else {
      assert a + (named + rest) == ks + rest;
    }
  }

  /** `_.uniq` leaves a duplicate-free array as it is. */
  lemma {:induction false} UniqOfDistinct<T(!new)>(xs: seq<T>)
    requires Distinct(xs)
    ensures Uniq(xs) == xs
    decreases |xs|
  {
    if |xs| > 0 {
      var init := xs[..|xs| - 1];
      UniqOfDistinct(init);
      assert xs[|xs| - 1] !in init;
      assert init + [xs[|xs| - 1]] == xs;
    }
  }

  /** `xs.splice(xs.indexOf(x), 1)` when `x` is present; otherwise nothing changes. */
  function RemoveFirst<T(==,!new)>(xs: seq<T>, x: T): (r: seq<T>)
    ensures x !in xs ==> r == xs
    ensures x in xs ==> |r| == |xs| - 1
    ensures multiset(r) == multiset(xs) - multiset{x}
    decreases |xs|
  {
    if |xs| == 0 then []
    else
      assert xs == [xs[0]] + xs[1..];
      if xs[0] == x then xs[1..] else [xs[0]] + RemoveFirst(xs[1..], x)
  }

  /** `xs.filter(el => ys.indexOf(el) === -1)`: the elements of `xs` not in `ys`, in order. */
  function Without<T(==,!new)>(xs: seq<T>, ys: seq<T>): (r: seq<T>)
    ensures forall x :: x in r <==> x in xs && x !in ys
    ensures |r| <= |xs|
    decreases |xs|
  {
    if |xs| == 0 then []
    else (if xs[0] in ys then [] else [xs[0]]) + Without(xs[1..], ys)
  }

  /** `xs.filter(el => ys.indexOf(el) !== -1)`: the elements of `xs` that are in `ys`, in order. */
  function Within<T(==,!new)>(xs: seq<T>, ys: seq<T>): (r: seq<T>)
    ensures forall x :: x in r <==> x in xs && x in ys
    ensures |r| <= |xs|
    decreases |xs|
  {
    if |xs| == 0 then []
    else (if xs[0] in ys then [xs[0]] else []) + Within(xs[1..], ys)
  }

  /** Filtering keeps a duplicate-free list duplicate-free. */
  lemma {:induction false} WithoutDistinct<T(!new)>(xs: seq<T>, ys: seq<T>)
    requires Distinct(xs)
    ensures Distinct(Without(xs, ys))
    decreases |xs|
  {
    if |xs| > 0 {
      WithoutDistinct(xs[1..], ys);
      assert xs[0] !in xs[1..];
    }
  }

  /** The source's removal loop: each of `ys` in turn is spliced out at its first occurrence. */
  function RemoveAll<T(==,!new)>(xs: seq<T>, ys: seq<T>): (r: seq<T>)
    ensures |r| <= |xs|
    decreases |ys|
  {
    if |ys| == 0 then xs else RemoveAll(RemoveFirst(xs, ys[0]), ys[1..])
  }

  /** Filtering depends only on which of the elements are in the filter. */
  lemma {:induction false} WithoutAgree<T(!new)>(xs: seq<T>, ys: seq<T>, zs: seq<T>)
    requires forall i | 0 <= i < |xs| :: xs[i] in ys <==> xs[i] in zs
    ensures Without(xs, ys) == Without(xs, zs)
    decreases |xs|
  {
    if |xs| > 0 {
      WithoutAgree(xs[1..], ys, zs);
    }
  }

  /** Keeping what is not in one list is keeping what is in another, when the two split the elements. */
  lemma {:induction false} WithoutIsWithin<T(!new)>(xs: seq<T>, ys: seq<T>, zs: seq<T>)
    requires forall i | 0 <= i < |xs| :: xs[i] in ys <==> xs[i] !in zs
    ensures Without(xs, ys) == Within(xs, zs)
    decreases |xs|
  {
    if |xs| > 0 {
      WithoutIsWithin(xs[1..], ys, zs);
    }
  }

  /** A filter that every element passes keeps the list as it is. */
  lemma {:induction false} WithinAll<T(!new)>(xs: seq<T>, ys: seq<T>)
    requires forall i | 0 <= i < |xs| :: xs[i] in ys
    ensures Within(xs, ys) == xs
    decreases |xs|
  {
    if |xs| > 0 {
      WithinAll(xs[1..], ys);
      assert xs == [xs[0]] + xs[1..];
    }
  }

  /** Splicing out of a list with a known head. */
  lemma RemoveFirstCons<T(!new)>(x: T, rest: seq<T>, y: T)
    ensures RemoveFirst([x] + rest, y) == if x == y then rest else [x] + RemoveFirst(rest, y)
  {
    assert ([x] + rest)[0] == x && ([x] + rest)[1..] == rest;
  }

  /** An empty filter keeps nothing. */
  lemma {:induction false} WithinNothing<T(!new)>(xs: seq<T>)
    ensures Within(xs, []) == []
    decreases |xs|
  {
    if |xs| > 0 {
      WithinNothing(xs[1..]);
    }
  }

  /** On a duplicate-free list, splicing out `y` after filtering out `p` filters out `p` and `y`. */
  lemma {:induction false} RemoveFirstWithout<T(!new)>(xs: seq<T>, p: seq<T>, y: T)
    requires Distinct(xs)
    ensures RemoveFirst(Without(xs, p), y) == Without(xs, p + [y])
    decreases |xs|
  {
    if |xs| > 0 {
      var x := xs[0];
      var tail := xs[1..];
      var rest := Without(tail, p);
      assert Distinct(tail) by {
        forall i, j | 0 <= i < j < |tail| ensures tail[i] != tail[j] {
          assert tail[i] == xs[i + 1] && tail[j] == xs[j + 1];
        }
      }
      if x in p {
        calc {
          RemoveFirst(Without(xs, p), y);
          RemoveFirst([] + rest, y);
          { assert [] + rest == rest; }
          RemoveFirst(rest, y);
          { RemoveFirstWithout(tail, p, y); }
          Without(tail, p + [y]);
          Without(xs, p + [y]);
        }
      } else if x == y {
        forall i | 0 <= i < |tail| ensures tail[i] in p <==> tail[i] in p + [y] {
          assert tail[i] == xs[i + 1] != xs[0];
        }
        calc {
          RemoveFirst(Without(xs, p), y);
          RemoveFirst([x] + rest, y);
          { RemoveFirstCons(x, rest, y); }
          rest;
          { WithoutAgree(tail, p, p + [y]); }
          Without(tail, p + [y]);
          Without(xs, p + [y]);
        }
      } else {
        calc {
          RemoveFirst(Without(xs, p), y);
          RemoveFirst([x] + rest, y);
          { RemoveFirstCons(x, rest, y); }
          [x] + RemoveFirst(rest, y);
          { RemoveFirstWithout(tail, p, y); }
          [x] + Without(tail, p + [y]);
          Without(xs, p + [y]);
        }
      }
    }
  }

  /** Nothing to filter out keeps the list as it is. */
  lemma {:induction false} WithoutNothing<T(!new)>(xs: seq<T>)
    ensures Without(xs, []) == xs
    decreases |xs|
  {
    if |xs| > 0 {
      WithoutNothing(xs[1..]);
      assert xs == [xs[0]] + xs[1..];
    }
  }

  /** On a duplicate-free list the removal loop after filtering out `p` filters out `p` and `ys`. */
  lemma {:induction false} RemoveAllWithout<T(!new)>(xs: seq<T>, p: seq<T>, ys: seq<T>)
    requires Distinct(xs)
    ensures RemoveAll(Without(xs, p), ys) == Without(xs, p + ys)
    decreases |ys|
  {
    if |ys| == 0 {
      assert p + ys == p;
    } else {
      var w := Without(xs, p);
      calc {
        RemoveAll(w, ys);
        RemoveAll(RemoveFirst(w, ys[0]), ys[1..]);
        { RemoveFirstWithout(xs, p, ys[0]); }
        RemoveAll(Without(xs, p + [ys[0]]), ys[1..]);
        { RemoveAllWithout(xs, p + [ys[0]], ys[1..]); }
        Without(xs, p + [ys[0]] + ys[1..]);
        { assert p + [ys[0]] + ys[1..] == p + ys; }
        Without(xs, p + ys);
      }
    }
  }

  /** On a duplicate-free list the removal loop is the filter by non-membership. */
  lemma RemoveAllIsWithout<T(!new)>(xs: seq<T>, ys: seq<T>)
    requires Distinct(xs)
    ensures RemoveAll(xs, ys) == Without(xs, ys)
  {
    WithoutNothing(xs);
    RemoveAllWithout(xs, [], ys);
    assert [] + ys == ys;
  }
}

=== FILE: modifiers.dfy ===
/**
 * The criteria modifier vocabulary: the leading token a filter value may
 * carry, how the alternation `(=(=|<|>|%|\*|@)?|!(=)?|@|%|\*|<(=)?|>(=|<)?)`
 * picks it, what each token means, and the literal the serialiser writes
 * back for each operator.
 */
module Modifiers {
  import opened Wrappers

  /** Every string the modifier alternation can match. */
  datatype Token =
    | Eq | EqEq | EqLt | EqGt | EqPct | EqStar | EqAt
    | Bang | BangEq
    | At | Pct | Star
    | Lt | LtEq
    | Gt | GtEq | GtLt

  function Text(t: Token): (r: string)
    ensures 1 <= |r| <= 2
  {
    match t
    case Eq => "="
    case EqEq => "=="
    case EqLt => "=<"
    case EqGt => "=>"
    case EqPct => "=%"
    case EqStar => "=*"
    case EqAt => "=@"
    case Bang => "!"
    case BangEq => "!="
    case At => "@"
    case Pct => "%"
    case Star => "*"
    case Lt => "<"
    case LtEq => "<="
    case Gt => ">"
    case GtEq => ">="
    case GtLt => "><"
  }

  /** The characters a modifier can start with. */
  predicate IsModifierChar(c: char) {
    c == '=' || c == '!' || c == '@' || c == '%' || c == '*' || c == '<' || c == '>'
  }

  /**
   * The leading match of the modifier alternation: alternatives are tried
   * left to right and each optional second character is taken when present.
   */
  function MatchModifier(s: string): (r: Option<Token>)
    ensures r.Some? ==> Text(r.value) <= s
    ensures r.Some? <==> |s| > 0 && IsModifierChar(s[0])
  {
    if |s| == 0 then None
    else if s[0] == '=' then
      if |s| >= 2 && s[1] == '=' then Some(EqEq)
      else if |s| >= 2 && s[1] == '<' then Some(EqLt)
      else if |s| >= 2 && s[1] == '>' then Some(EqGt)
      else if |s| >= 2 && s[1] == '%' then Some(EqPct)
      else if |s| >= 2 && s[1] == '*' then Some(EqStar)
      else if |s| >= 2 && s[1] == '@' then Some(EqAt)
      else Some(Eq)
    else if s[0] == '!' then
      if |s| >= 2 && s[1] == '=' then Some(BangEq) else Some(Bang)
    else if s[0] == '@' then Some(At)
    else if s[0] == '%' then Some(Pct)
    else if s[0] == '*' then Some(Star)
    else if s[0] == '<' then
      if |s| >= 2 && s[1] == '=' then Some(LtEq) else Some(Lt)
    else if s[0] == '>' then
      if |s| >= 2 && s[1] == '=' then Some(GtEq)
      else if |s| >= 2 && s[1] == '<' then Some(GtLt)
      else Some(Gt)
    else None
  }

  /**
   * Longest match: the chosen token is a prefix of the value, no token is
   * longer and a prefix too, and nothing is chosen exactly when no token
   * is a prefix. So `>=` is never read as `>` followed by a literal `=`.
   */
  lemma ModifierIsLongestMatch(s: string)
    ensures MatchModifier(s).None? <==> forall t: Token :: !(Text(t) <= s)
    ensures MatchModifier(s).Some? ==>
              forall t: Token :: Text(t) <= s ==> |Text(t)| <= |Text(MatchModifier(s).value)|
  {
    if MatchModifier(s).None? {
      forall t: Token ensures !(Text(t) <= s) {
      }
    } else {
      var m := MatchModifier(s).value;
      forall t: Token | Text(t) <= s ensures |Text(t)| <= |Text(m)| {
        if |Text(t)| == 2 {
          assert s[0] == Text(t)[0] && s[1] == Text(t)[1];
        }
      }
    }
  }

  /** The operator keys a filter object may carry. */
  datatype Op = Not | Contains | Like | StartsWith | EndsWith | Less | LessEq | Greater | GreaterEq

  /** What a modifier does: nothing (equality), one operator, or the between pair. */
  datatype Mod = NoMod | Single(op: Op) | Between

  /** The modifier translation table; tokens it does not list keep their own text as the key. */
  function Translate(t: Token): (r: Mod)
    ensures r == NoMod <==> t == Eq || t == EqEq
    ensures r == Between <==> t == GtLt
    ensures r == Single(Not) <==> Text(t)[0] == '!'
    ensures t in {Lt, LtEq, Gt, GtEq} ==> r.Single? && Key(r.op) == Text(t)
    ensures r == Single(Contains) <==> Text(t) == "@" || Text(t) == "=@"
    ensures r == Single(Like) <==> Text(t) == "%" || Text(t) == "=%" || Text(t) == "*" || Text(t) == "=*"
    ensures r == Single(EndsWith) <==> Text(t) == "=<"
    ensures r == Single(StartsWith) <==> Text(t) == "=>"
  {
    match t
    case Eq => NoMod
    case EqEq => NoMod
    case Bang => Single(Not)
    case BangEq => Single(Not)
    case At => Single(Contains)
    case EqAt => Single(Contains)
    case Pct => Single(Like)
    case EqPct => Single(Like)
    case Star => Single(Like)
    case EqStar => Single(Like)
    case EqLt => Single(EndsWith)
    case EqGt => Single(StartsWith)
    case GtLt => Between
    case Lt => Single(Less)
    case LtEq => Single(LessEq)
    case Gt => Single(Greater)
    case GtEq => Single(GreaterEq)
  }

  /** The operator's key in the filter object handed to the store. */
  function Key(op: Op): (r: string)
    ensures r != []
    ensures r[0] == '<' || r[0] == '>' <==> op in {Less, LessEq, Greater, GreaterEq}
    ensures op == Not ==> r == "not"
    ensures op == Contains ==> r == "contains"
    ensures op == Like ==> r == "like"
    ensures op == StartsWith ==> r == "startsWith"
    ensures op == EndsWith ==> r == "endsWith"
    ensures op == Less ==> r == "<"
    ensures op == LessEq ==> r == "<="
    ensures op == Greater ==> r == ">"
    ensures op == GreaterEq ==> r == ">="
  {
    match op
    case Not => "not"
    case Contains => "contains"
    case Like => "like"
    case StartsWith => "startsWith"
    case EndsWith => "endsWith"
    case Less => "<"
    case LessEq => "<="
    case Greater => ">"
    case GreaterEq => ">="
  }

  /** The serialiser's reverse table; keys it does not list are written verbatim. */
  function Literal(op: Op): (r: string)
    ensures 1 <= |r| <= 2
    ensures IsModifierChar(r[0])
    ensures op == Not ==> r == "!"
    ensures op == Contains ==> r == "@"
    ensures op == Like ==> r == "%"
    ensures op == EndsWith ==> r == "=<"
    ensures op == StartsWith ==> r == "=>"
    ensures op in {Less, LessEq, Greater, GreaterEq} ==> r == Key(op)
  {
    match op
    case Not => "!"
    case Contains => "@"
    case Like => "%"
    case EndsWith => "=<"
    case StartsWith => "=>"
    case _ => Key(op)
  }

  /** Distinct operators have distinct keys. */
  lemma KeyInjective(a: Op, b: Op)
    requires Key(a) == Key(b)
    ensures a == b
  {
  }

  /**
   * The reverse table inverts the translation: a literal written in front
   * of a payload that does not itself start with a modifier character is
   * read back as the same operator, and the literal is exactly what is read.
   */
  lemma LiteralReadsBack(op: Op, p: string)
    requires p == [] || !IsModifierChar(p[0])
    ensures MatchModifier(Literal(op) + p).Some?
    ensures Translate(MatchModifier(Literal(op) + p).value) == Single(op)
    ensures Text(MatchModifier(Literal(op) + p).value) == Literal(op)
  {
    var s := Literal(op) + p;
    assert s[0] == Literal(op)[0];
    if |Literal(op)| == 2 {
      assert s[1] == Literal(op)[1];
    } else if |s| >= 2 {
      assert s[1] == p[0];
    }
  }
}

=== FILE: numeric.dfy ===
/**
 * The numeric query options: the page, the limit and its maximum, the
 * populate limit and its maximum. Each is read from the first usable
 * source in a fixed order, then clamped by its maximum. Each also has a
 * `name=value` fragment, written when the request carries the parameter.
 */
module Numeric {
  import opened Wrappers
  import opened Strings
  import opened JsNumber
  import opened Config
  import opened Schema
  import opened Request

  /**
   * One link of the source's fallback chains `a || b`: the value read as a
   * number of at least 1 when it is one, else what the rest of the chain
   * gives.
   */
  function OrPositive(v: JsVal, rest: int): (r: int)
    requires rest >= 1
    ensures r >= 1
    ensures PositiveInt(v).Some? ==> r == PositiveInt(v).value
    ensures PositiveInt(v).None? ==> r == rest
  {
    PositiveInt(v).GetOr(rest)
  }

  /** The same for maximums: the value's cap when it gives one, else what the rest gives. */
  function OrCap(v: JsVal, rest: Cap): (r: Cap)
    requires rest.AtMost? ==> rest.n >= 1
    ensures r.AtMost? ==> r.n >= 1
    ensures CapOf(v).Some? ==> r == CapOf(v).value
    ensures CapOf(v).None? ==> r == rest
  {
    CapOf(v).GetOr(rest)
  }

  /** `maximumLimit && limit > maximumLimit ? maximumLimit : limit`. */
  function Clamp(x: int, cap: Cap): (r: int)
    ensures r <= x
    ensures cap.AtMost? ==> r <= cap.n
    ensures r == x || (cap.AtMost? && r == cap.n)
  {
    if cap.AtMost? && x > cap.n then cap.n else x
  }

  /** Clamping is the minimum: no value below both bounds is passed over. */
  lemma ClampIsLargest(x: int, cap: Cap, y: int)
    requires y <= x && (cap.AtMost? ==> y <= cap.n)
    ensures y <= Clamp(x, cap)
  {
  }

  /** `parsePage`: the page parameter, the model's and the global default page, the route option, else 1. */
  function Page(req: Req, cfg: Settings, m: Model): (r: int)
    ensures r >= 1
    ensures PositiveInt(ParamVal(req, PageName(cfg))).Some? ==> r == PositiveInt(ParamVal(req, PageName(cfg))).value
    ensures PositiveInt(ParamVal(req, PageName(cfg))).None? && PositiveInt(m.overrides.defaultPage).Some? ==>
              r == PositiveInt(m.overrides.defaultPage).value
    ensures (PositiveInt(ParamVal(req, PageName(cfg))).None? && PositiveInt(m.overrides.defaultPage).None?
               && PositiveInt(cfg.defaultPage).Some?) ==> r == PositiveInt(cfg.defaultPage).value
    ensures (PositiveInt(ParamVal(req, PageName(cfg))).None? && PositiveInt(m.overrides.defaultPage).None?
               && PositiveInt(cfg.defaultPage).None? && PositiveInt(req.options.page).Some?) ==> r == PositiveInt(req.options.page).value
    ensures (PositiveInt(ParamVal(req, PageName(cfg))).None? && PositiveInt(m.overrides.defaultPage).None?
               && PositiveInt(cfg.defaultPage).None? && PositiveInt(req.options.page).None?) ==> r == 1
  {
    OrPositive(ParamVal(req, PageName(cfg)), OrPositive(m.overrides.defaultPage,
      OrPositive(cfg.defaultPage, OrPositive(req.options.page, 1))))
  }

  /** `getMaximumLimit`: the model's, else the global maximum limit, else 100; `false` means no cap. */
  function MaxLimit(cfg: Settings, m: Model): (r: Cap)
    ensures r.AtMost? ==> r.n >= 1
    ensures CapOf(m.overrides.maximumLimit).Some? ==> r == CapOf(m.overrides.maximumLimit).value
    ensures CapOf(m.overrides.maximumLimit).None? && CapOf(cfg.maximumLimit).Some? ==> r == CapOf(cfg.maximumLimit).value
    ensures CapOf(m.overrides.maximumLimit).None? && CapOf(cfg.maximumLimit).None? ==> r == AtMost(100)
  {
    OrCap(m.overrides.maximumLimit, OrCap(cfg.maximumLimit, AtMost(100)))
  }

  /**
   * The limit before the maximum applies: the limit parameter, the model's
   * and the global default limit, the blueprints' default limit, the route
   * option, else 30.
   */
  function RawLimit(req: Req, cfg: Settings, m: Model, blueprintsLimit: JsVal): (r: int)
    ensures r >= 1
    ensures PositiveInt(ParamVal(req, LimitName(cfg))).Some? ==> r == PositiveInt(ParamVal(req, LimitName(cfg))).value
    ensures PositiveInt(ParamVal(req, LimitName(cfg))).None? && PositiveInt(m.overrides.defaultLimit).Some? ==>
              r == PositiveInt(m.overrides.defaultLimit).value
    ensures (PositiveInt(ParamVal(req, LimitName(cfg))).None? && PositiveInt(m.overrides.defaultLimit).None?
               && PositiveInt(cfg.defaultLimit).Some?) ==> r == PositiveInt(cfg.defaultLimit).value
    ensures (PositiveInt(ParamVal(req, LimitName(cfg))).None? && PositiveInt(m.overrides.defaultLimit).None?
               && PositiveInt(cfg.defaultLimit).None? && PositiveInt(blueprintsLimit).Some?) ==> r == PositiveInt(blueprintsLimit).value
    ensures (PositiveInt(ParamVal(req, LimitName(cfg))).None? && PositiveInt(m.overrides.defaultLimit).None?
               && PositiveInt(cfg.defaultLimit).None? && PositiveInt(blueprintsLimit).None?
               && PositiveInt(req.options.limit).Some?) ==> r == PositiveInt(req.options.limit).value
    ensures (PositiveInt(ParamVal(req, LimitName(cfg))).None? && PositiveInt(m.overrides.defaultLimit).None?
               && PositiveInt(cfg.defaultLimit).None? && PositiveInt(blueprintsLimit).None?
               && PositiveInt(req.options.limit).None?) ==> r == 30
  {
    OrPositive(ParamVal(req, LimitName(cfg)), OrPositive(m.overrides.defaultLimit, OrPositive(cfg.defaultLimit,
      OrPositive(blueprintsLimit, OrPositive(req.options.limit, 30)))))
  }

  /** `parseLimit`: at least 1, and at most the maximum limit unless that is `false`. */
  function Limit(req: Req, cfg: Settings, m: Model, blueprintsLimit: JsVal): (r: int)
    ensures 1 <= r <= RawLimit(req, cfg, m, blueprintsLimit)
    ensures MaxLimit(cfg, m).AtMost? ==> r <= MaxLimit(cfg, m).n
    ensures MaxLimit(cfg, m).Unbounded? ==> r == RawLimit(req, cfg, m, blueprintsLimit)
    ensures (MaxLimit(cfg, m).AtMost? && RawLimit(req, cfg, m, blueprintsLimit) > MaxLimit(cfg, m).n) ==>
              r == MaxLimit(cfg, m).n
    ensures (MaxLimit(cfg, m).AtMost? && RawLimit(req, cfg, m, blueprintsLimit) <= MaxLimit(cfg, m).n) ==>
              r == RawLimit(req, cfg, m, blueprintsLimit)
  {
    Clamp(RawLimit(req, cfg, m, blueprintsLimit), MaxLimit(cfg, m))
  }

  /** `getMaximumPopulateLimit`: the model's, else the global maximum populate limit, else the maximum limit. */
  function MaxPopulateLimit(cfg: Settings, m: Model): (r: Cap)
    ensures r.AtMost? ==> r.n >= 1
    ensures CapOf(m.overrides.maximumPopulateLimit).Some? ==> r == CapOf(m.overrides.maximumPopulateLimit).value
    ensures CapOf(m.overrides.maximumPopulateLimit).None? && CapOf(cfg.maximumPopulateLimit).Some? ==>
              r == CapOf(cfg.maximumPopulateLimit).value
    ensures CapOf(m.overrides.maximumPopulateLimit).None? && CapOf(cfg.maximumPopulateLimit).None? ==> r == MaxLimit(cfg, m)
  {
    OrCap(m.overrides.maximumPopulateLimit, OrCap(cfg.maximumPopulateLimit, MaxLimit(cfg, m)))
  }

  /** The populate limit before its maximum applies: the parameter, the model's and the global default, else the limit. */
  function RawPopulateLimit(req: Req, cfg: Settings, m: Model, blueprintsLimit: JsVal): (r: int)
    ensures r >= 1
    ensures PositiveInt(ParamVal(req, PopulateLimitName(cfg))).Some? ==>
              r == PositiveInt(ParamVal(req, PopulateLimitName(cfg))).value
    ensures PositiveInt(ParamVal(req, PopulateLimitName(cfg))).None? && PositiveInt(m.overrides.defaultPopulateLimit).Some? ==>
              r == PositiveInt(m.overrides.defaultPopulateLimit).value
    ensures (PositiveInt(ParamVal(req, PopulateLimitName(cfg))).None? && PositiveInt(m.overrides.defaultPopulateLimit).None?
               && PositiveInt(cfg.defaultPopulateLimit).Some?) ==> r == PositiveInt(cfg.defaultPopulateLimit).value
    ensures (&& PositiveInt(ParamVal(req, PopulateLimitName(cfg))).None?
             && PositiveInt(m.overrides.defaultPopulateLimit).None?
             && PositiveInt(cfg.defaultPopulateLimit).None?) ==> r == Limit(req, cfg, m, blueprintsLimit)
  {
    OrPositive(ParamVal(req, PopulateLimitName(cfg)), OrPositive(m.overrides.defaultPopulateLimit,
      OrPositive(cfg.defaultPopulateLimit, Limit(req, cfg, m, blueprintsLimit))))
  }

  /** `parsePopulateLimit`: at least 1, and at most the maximum populate limit unless that is `false`. */
  function PopulateLimit(req: Req, cfg: Settings, m: Model, blueprintsLimit: JsVal): (r: int)
    ensures 1 <= r <= RawPopulateLimit(req, cfg, m, blueprintsLimit)
    ensures MaxPopulateLimit(cfg, m).AtMost? ==> r <= MaxPopulateLimit(cfg, m).n
    ensures MaxPopulateLimit(cfg, m).Unbounded? ==> r == RawPopulateLimit(req, cfg, m, blueprintsLimit)
    ensures (MaxPopulateLimit(cfg, m).AtMost? && RawPopulateLimit(req, cfg, m, blueprintsLimit) > MaxPopulateLimit(cfg, m).n) ==>
              r == MaxPopulateLimit(cfg, m).n
    ensures (MaxPopulateLimit(cfg, m).AtMost? && RawPopulateLimit(req, cfg, m, blueprintsLimit) <= MaxPopulateLimit(cfg, m).n) ==>
              r == RawPopulateLimit(req, cfg, m, blueprintsLimit)
  {
    Clamp(RawPopulateLimit(req, cfg, m, blueprintsLimit), MaxPopulateLimit(cfg, m))
  }

  /** `name=value` when the request carries the parameter, else nothing. */
  function NumberText(req: Req, name: string, value: int): (r: string)
    ensures Param(req, name).None? <==> r == ""
    ensures Param(req, name).Some? ==> r == name + "=" + IntToString(value)
  {
    if Param(req, name).Some? then name + "=" + IntToString(value) else ""
  }

  /** `parsePageToString`. */
  function PageText(req: Req, cfg: Settings, m: Model): (r: string)
    ensures Param(req, PageName(cfg)).None? <==> r == ""
    ensures Param(req, PageName(cfg)).Some? ==> r == PageName(cfg) + "=" + IntToString(Page(req, cfg, m))
  {
    NumberText(req, PageName(cfg), Page(req, cfg, m))
  }

  /** `parseLimitToString`. */
  function LimitText(req: Req, cfg: Settings, m: Model, blueprintsLimit: JsVal): (r: string)
    ensures Param(req, LimitName(cfg)).None? <==> r == ""
    ensures Param(req, LimitName(cfg)).Some? ==> r == LimitName(cfg) + "=" + IntToString(Limit(req, cfg, m, blueprintsLimit))
  {
    NumberText(req, LimitName(cfg), Limit(req, cfg, m, blueprintsLimit))
  }

  /** `parsePopulateLimitToString`. */
  function PopulateLimitText(req: Req, cfg: Settings, m: Model, blueprintsLimit: JsVal): (r: string)
    ensures Param(req, PopulateLimitName(cfg)).None? <==> r == ""
    ensures Param(req, PopulateLimitName(cfg)).Some? ==> r == PopulateLimitName(cfg) + "=" + IntToString(PopulateLimit(req, cfg, m, blueprintsLimit))
  {
    NumberText(req, PopulateLimitName(cfg), PopulateLimit(req, cfg, m, blueprintsLimit))
  }

  /** A written positive number reads back as itself. */
  lemma PositiveIntOfText(n: int)
    requires n >= 1
    ensures PositiveInt(JStr(IntToString(n))) == Some(n)
  {
    ParseIntOfDecimal(n, "");
    assert IntToString(n) + "" == IntToString(n);
  }

  /** A request carrying the written page as its page parameter resolves to the same page. */
  lemma PageReadsBack(req: Req, req': Req, cfg: Settings, m: Model, m': Model)
    requires Param(req', PageName(cfg)) == Some(IntToString(Page(req, cfg, m)))
    ensures Page(req', cfg, m') == Page(req, cfg, m)
  {
    PositiveIntOfText(Page(req, cfg, m));
  }

  /** A request carrying the written limit as its limit parameter resolves to the same limit. */
  lemma LimitReadsBack(req: Req, req': Req, cfg: Settings, m: Model, blueprintsLimit: JsVal, blueprintsLimit': JsVal)
    requires Param(req', LimitName(cfg)) == Some(IntToString(Limit(req, cfg, m, blueprintsLimit)))
    ensures Limit(req', cfg, m, blueprintsLimit') == Limit(req, cfg, m, blueprintsLimit)
  {
    PositiveIntOfText(Limit(req, cfg, m, blueprintsLimit));
  }

  /** A request carrying the written populate limit as its parameter resolves to the same populate limit. */
  lemma PopulateLimitReadsBack(req: Req, req': Req, cfg: Settings, m: Model, blueprintsLimit: JsVal, blueprintsLimit': JsVal)
    requires Param(req', PopulateLimitName(cfg)) == Some(IntToString(PopulateLimit(req, cfg, m, blueprintsLimit)))
    ensures PopulateLimit(req', cfg, m, blueprintsLimit') == PopulateLimit(req, cfg, m, blueprintsLimit)
  {
    PositiveIntOfText(PopulateLimit(req, cfg, m, blueprintsLimit));
  }

  /** Under the hook's defaults and with no model override, the maximum limit is 100. */
  lemma DefaultMaxLimit(m: Model)
    requires m.overrides == NoOverrides
    ensures MaxLimit(HookDefaults, m) == AtMost(100)
  {
    UndefinedIsNoNumber();
  }

  /** Under the hook's defaults the maximum populate limit falls back to the maximum limit, 100. */
  lemma DefaultMaxPopulateLimit(m: Model)
    requires m.overrides == NoOverrides
    ensures MaxPopulateLimit(HookDefaults, m) == AtMost(100)
  {
    UndefinedIsNoNumber();
    DefaultMaxLimit(m);
  }

  /** Without a usable parameter or model default, the global default limit is the raw limit when it is a number. */
  lemma RawLimitFromSettings(req: Req, cfg: Settings, m: Model, blueprintsLimit: JsVal)
    requires PositiveInt(ParamVal(req, LimitName(cfg))).None? && PositiveInt(m.overrides.defaultLimit).None?
    requires PositiveInt(cfg.defaultLimit).Some?
    ensures RawLimit(req, cfg, m, blueprintsLimit) == PositiveInt(cfg.defaultLimit).value
  {
  }

  /** Under the hook's defaults and with nothing else set, the limit is 30. */
  lemma DefaultLimit(req: Req, m: Model)
    requires Param(req, "limit").None? && m.overrides == NoOverrides
    ensures Limit(req, HookDefaults, m, Undef) == 30
  {
    UndefinedIsNoNumber();
    HookDefaultNames();
    assert ParamVal(req, LimitName(HookDefaults)) == Undef;
    assert m.overrides.defaultLimit == Undef;
    assert PositiveInt(HookDefaults.defaultLimit) == Some(30);
    RawLimitFromSettings(req, HookDefaults, m, Undef);
    DefaultMaxLimit(m);
  }

  /** An absent value is neither a number nor a cap. */
  lemma UndefinedIsNoNumber()
    ensures PositiveInt(Undef).None? && CapOf(Undef).None?
  {
    assert ToStr(Undef) == "undefined";
    ParseIntOfNonDigit("undefined");
  }
}

=== FILE: ordered_map.dfy ===
/**
 * JavaScript plain objects as the source uses them: string keys in
 * insertion order, where assigning an existing key replaces its value in
 * place and assigning a new key appends it.
 */
module OrderedMap {
  import opened Wrappers

  type OMap<V> = seq<(string, V)>

  /** The keys, in iteration (`for ... in`) order. */
  function Keys<V>(m: OMap<V>): (ks: seq<string>)
    ensures |ks| == |m|
    ensures forall i | 0 <= i < |m| :: ks[i] == m[i].0
  {
    seq(|m|, i requires 0 <= i < |m| => m[i].0)
  }

  lemma KeysCons<V>(m: OMap<V>)
    requires |m| > 0
    ensures Keys(m) == [m[0].0] + Keys(m[1..])
  {
  }

  /** Every key occurs once, as in a real object. */
  predicate WellFormed<V>(m: OMap<V>) {
    forall i, j | 0 <= i < j < |m| :: m[i].0 != m[j].0
  }

  /** `m[k]`, or `undefined` (None). */
  function Get<V>(m: OMap<V>, k: string): (r: Option<V>)
    ensures r.Some? <==> k in Keys(m)
    ensures r.Some? ==> (k, r.value) in m
    decreases |m|
  {
    if |m| == 0 then None
    else if m[0].0 == k then Some(m[0].1)
    else
      KeysCons(m);
      Get(m[1..], k)
  }

  /** `m[k] = v`: replaces an existing entry in place, appends a new one. */
  function Put<V>(m: OMap<V>, k: string, v: V): (r: OMap<V>)
    ensures k in Keys(m) ==> Keys(r) == Keys(m)
    ensures k !in Keys(m) ==> Keys(r) == Keys(m) + [k]
    decreases |m|
  {
    if |m| == 0 then [(k, v)]
    else if m[0].0 == k then
      KeysCons(m);
      KeysCons([(k, v)] + m[1..]);
      [(k, v)] + m[1..]
    else
      var rest := Put(m[1..], k, v);
      KeysCons(m);
      KeysCons([m[0]] + rest);
      assert ([m[0]] + rest)[1..] == rest;
      [m[0]] + rest
  }

  /** After `m[k] = v`, reading `k` gives `v` and every other key reads as before. */
  lemma {:induction false} PutGet<V>(m: OMap<V>, k: string, v: V, k': string)
    ensures Get(Put(m, k, v), k') == if k' == k then Some(v) else Get(m, k')
    decreases |m|
  {
    if |m| > 0 && m[0].0 != k {
      PutGet(m[1..], k, v, k');
      assert Put(m, k, v)[1..] == Put(m[1..], k, v);
    }
  }

  /** A put key reads its value and every other key reads as before. */
  lemma PutGetAll<V>(m: OMap<V>, k: string, v: V)
    ensures forall k' :: Get(Put(m, k, v), k') == if k' == k then Some(v) else Get(m, k')
  {
    forall k' ensures Get(Put(m, k, v), k') == if k' == k then Some(v) else Get(m, k') {
      PutGet(m, k, v, k');
    }
  }

  /** Assigning a new key appends it. */
  lemma {:induction false} PutNew<V>(m: OMap<V>, k: string, v: V)
    requires k !in Keys(m)
    ensures Put(m, k, v) == m + [(k, v)]
    decreases |m|
  {
    if |m| > 0 {
      KeysCons(m);
      PutNew(m[1..], k, v);
      assert m == [m[0]] + m[1..];
    }
  }

  /** Every entry after an assignment is the new one or one that was there before. */
  lemma {:induction false} PutEntries<V>(m: OMap<V>, k: string, v: V)
    ensures forall i | 0 <= i < |Put(m, k, v)| :: Put(m, k, v)[i] == (k, v) || Put(m, k, v)[i] in m
    decreases |m|
  {
    if |m| > 0 && m[0].0 != k {
      PutEntries(m[1..], k, v);
      var r := Put(m, k, v);
      assert r == [m[0]] + Put(m[1..], k, v);
      assert forall x | x in m[1..] :: x in m;
    } else if |m| > 0 {
      assert forall x | x in m[1..] :: x in m;
    }
  }

  /** Assignment keeps keys unique. */
  lemma PutWellFormed<V>(m: OMap<V>, k: string, v: V)
    requires WellFormed(m)
    ensures WellFormed(Put(m, k, v))
  {
    var r := Put(m, k, v);
    forall i, j | 0 <= i < j < |r| ensures r[i].0 != r[j].0 {
      assert Keys(r)[i] == r[i].0 && Keys(r)[j] == r[j].0;
      if k !in Keys(m) && j == |m| {
        assert Keys(m)[i] == r[i].0;
      } else {
        assert Keys(m)[i] == r[i].0 && Keys(m)[j] == r[j].0;
      }
    }
  }

  /** lodash `_.omit(m, ks)`: drops the listed keys, keeps the others in order. */
  function Omit<V>(m: OMap<V>, ks: set<string>): (r: OMap<V>)
    ensures forall k :: Get(r, k) == if k in ks then None else Get(m, k)
    ensures forall i | 0 <= i < |r| :: r[i].0 !in ks
    decreases |m|
  {
    if |m| == 0 then []
    else
      var rest := Omit(m[1..], ks);
      KeysCons(m);
      if m[0].0 in ks then rest
      else
        KeysCons([m[0]] + rest);
        assert ([m[0]] + rest)[1..] == rest;
        [m[0]] + rest
  }

  /**
   * Applies a step that may throw to every value in key order, stopping at
   * the first failure (a `for ... in` loop whose body may throw).
   */
  function TryMapValues<V, W(==), E(==)>(m: OMap<V>, f: (string, V) -> Result<W, E>): (r: Result<OMap<W>, E>)
    ensures r.Success? ==> Keys(r.value) == Keys(m)
    ensures r.Success? ==> forall j | 0 <= j < |m| :: f(m[j].0, m[j].1) == Success(r.value[j].1)
    ensures r.Failure? ==> exists j | 0 <= j < |m| ::
              && f(m[j].0, m[j].1) == Failure(r.error)
              && forall i | 0 <= i < j :: f(m[i].0, m[i].1).Success?
    decreases |m|
  {
    if |m| == 0 then Success([])
    else
      match f(m[0].0, m[0].1)
      case Failure(e) => Failure(e)
      case Success(w) =>
        match TryMapValues(m[1..], f)
        case Failure(e) =>
          var j :| 0 <= j < |m[1..]| && f(m[1..][j].0, m[1..][j].1) == Failure(e)
                   && forall i | 0 <= i < j :: f(m[1..][i].0, m[1..][i].1).Success?;
          assert forall i | 1 <= i < j + 1 :: m[i] == m[1..][i - 1];
          assert f(m[j + 1].0, m[j + 1].1) == Failure(e);
          Failure(e)
        case Success(rest) =>
          KeysCons(m);
          KeysCons([(m[0].0, w)] + rest);
          assert ([(m[0].0, w)] + rest)[1..] == rest;
          Success([(m[0].0, w)] + rest)
  }

  /** In a well-formed map every entry is what its key reads. */
  lemma {:induction false} GetOfWellFormed<V>(m: OMap<V>, j: nat)
    requires WellFormed(m) && j < |m|
    ensures Get(m, m[j].0) == Some(m[j].1)
    decreases |m|
  {
    if j > 0 {
      assert m[0].0 != m[j].0;
      GetOfWellFormed(m[1..], j - 1);
    }
  }

  /** Well-formedness depends on the keys alone. */
  lemma SameKeysWellFormed<V, W>(a: OMap<V>, b: OMap<W>)
    requires Keys(a) == Keys(b) && WellFormed(b)
    ensures WellFormed(a)
  {
    forall i, j | 0 <= i < j < |a| ensures a[i].0 != a[j].0 {
      assert Keys(a)[i] == b[i].0 && Keys(a)[j] == b[j].0;
    }
  }

  /** In a well-formed map no key recurs among the entries before it. */
  lemma PrefixKeyFresh<V>(m: OMap<V>, j: nat)
    requires WellFormed(m) && j < |m|
    ensures m[j].0 !in Keys(m[..j])
  {
    forall a | 0 <= a < j ensures Keys(m[..j])[a] != m[j].0 {
      assert m[..j][a] == m[a];
    }
  }

  /** Extending a prefix by the next entry gives the longer prefix. */
  lemma PrefixExtend<V>(m: OMap<V>, j: nat)
    requires j < |m|
    ensures m[..j] + [m[j]] == m[..j + 1]
  {
  }
}

=== FILE: pagination.dfy ===
/**
 * `getPaginationUrls`: the first, previous, next and last page links of a
 * listing. Each link is the current URL with the page number and every
 * option fragment the request carries.
 */
module Pagination {
  import opened Wrappers
  import opened Strings
  import opened Lists
  import opened JsNumber
  import opened OrderedMap
  import opened Config
  import opened Schema
  import opened Request
  import opened Criteria
  import opened CriteriaText
  import opened WhereClause
  import opened Numeric
  import opened Populate
  import opened Sort
  import opened Fields

  /** The links object; an absent key is None. */
  datatype Links = Links(first: Option<string>, prev: Option<string>, next: Option<string>, last: Option<string>)

  const NoLinks := Links(None, None, None, None)

  /**
   * What the links take from outside the compiler: the current URL without
   * its query, and the pretty, envelope and JSONP fragments.
   */
  datatype Outside = Outside(currentUrl: string, pretty: string, envelope: string, jsonp: string)

  /** The result count as a number: None when it is falsy or `parseInt` reads no number. */
  function CountOf(count: JsVal): (r: Option<int>)
    ensures r.Some? <==> Truthy(count) && ParseIntVal(count).Some?
    ensures r.Some? ==> r == ParseIntVal(count)
  {
    if !Truthy(count) then None else ParseIntVal(count)
  }

  /** Dafny's Euclidean division, negated around: `-((-x) / d)` rounds `x / d` up. */
  lemma CeilingDivision(count: int, perPage: int)
    requires perPage >= 1
    ensures var c := -((-count) / perPage);
            (c - 1) * perPage < count <= c * perPage
  {
    var c := -((-count) / perPage);
    var q := (-count) / perPage;
    var r := (-count) % perPage;
    assert -count == q * perPage + r && 0 <= r < perPage;
    assert c * perPage == count + r by {
      assert c == -q;
      assert (-q) * perPage == -(q * perPage);
    }
    assert (c - 1) * perPage == c * perPage - perPage;
  }

  /** `Math.ceil(count / perPage)`: the fewest pages of `perPage` that hold `count`. */
  function LastPage(count: int, perPage: int): (r: int)
    requires perPage >= 1
    ensures (r - 1) * perPage < count <= r * perPage
  {
    CeilingDivision(count, perPage);
    -((-count) / perPage)
  }

  /** The previous page: one back, but not before page 1. */
  function PrevPage(page: int): (r: int)
    ensures r >= 1 && r >= page - 1
    ensures r == 1 || r == page - 1
  {
    if page - 1 < 1 then 1 else page - 1
  }

  /** The next page: one on, but not past the last page. */
  function NextPage(page: int, last: int): (r: int)
    ensures r <= last && r <= page + 1
    ensures r == last || r == page + 1
  {
    if page + 1 > last then last else page + 1
  }

  /** `parseCriteriaToString` without decoding, on the request's criteria. */
  function CriteriaFragment(req: Req, cfg: Settings, m: Model, tryDate: string -> Option<int>, dateText: int -> string): (r: Result<string, ApiError>)
    ensures r.Failure? <==> ParseCriteria(req, cfg, m, tryDate).Failure?
    ensures r.Failure? ==> r.error == ParseCriteria(req, cfg, m, tryDate).error
    ensures r.Success? ==> r.value == CriteriaToString(ParseCriteria(req, cfg, m, tryDate).value, false, dateText)
  {
    match ParseCriteria(req, cfg, m, tryDate)
    case Failure(e) => Failure(e)
    case Success(w) => Success(CriteriaToString(w, false, dateText))
  }

  /**
   * The fragments after the page, in the source's order: sort, populate,
   * populate limit, criteria, fields, pretty, envelope, JSONP. Each of the
   * compiler's own fragments is empty exactly when its option is not to be
   * carried over.
   */
  function Fragments(req: Req, cfg: Settings, m: Model, blueprintsLimit: JsVal, out: Outside, criteria: string): (r: seq<string>)
    ensures |r| == 8
    ensures r[0] == SortText(req, cfg, m) && r[1] == PopulateText(req, cfg, m)
    ensures r[2] == PopulateLimitText(req, cfg, m, blueprintsLimit) && r[4] == FieldsText(req, cfg, m)
    ensures r[0] == "" <==> Param(req, SortName(cfg)).None? || |ParseSort(req, cfg, m)| == 0
    ensures r[1] == "" <==> Param(req, PopulateName(cfg)).None?
    ensures r[2] == "" <==> Param(req, PopulateLimitName(cfg)).None?
    ensures r[3] == criteria
    ensures r[4] == "" <==> ParseFields(req, cfg, m).None? || Param(req, FieldsName(cfg)).None?
    ensures r[5..] == [out.pretty, out.envelope, out.jsonp]
  {
    var sort := SortText(req, cfg, m);
    var populate := PopulateText(req, cfg, m);
    var populateLimit := PopulateLimitText(req, cfg, m, blueprintsLimit);
    var fields := FieldsText(req, cfg, m);
    Assemble(sort, populate, populateLimit, criteria, fields, out)
  }

  /** The eight fragments in their places. */
  function Assemble(sort: string, populate: string, populateLimit: string, criteria: string, fields: string, out: Outside): (r: seq<string>)
    ensures |r| == 8
    ensures r[0] == sort && r[1] == populate && r[2] == populateLimit && r[3] == criteria && r[4] == fields
    ensures r[5..] == [out.pretty, out.envelope, out.jsonp]
  {
    [sort, populate, populateLimit, criteria, fields, out.pretty, out.envelope, out.jsonp]
  }

  /** Dropping the empty fragments leaves nothing exactly when every fragment is empty. */
  lemma NothingPresent(fragments: seq<string>)
    ensures |Without(fragments, [""])| == 0 <==> forall i | 0 <= i < |fragments| :: fragments[i] == ""
  {
    var present := Without(fragments, [""]);
    if |present| > 0 {
      assert present[0] in present;
      var j :| 0 <= j < |fragments| && fragments[j] == present[0];
    }
  }

  /**
   * The non-empty fragments joined with `&`: splitting the result on `&`
   * gives back exactly the non-empty fragments, in order, when none of them
   * holds an `&` of its own.
   */
  function Parameters(fragments: seq<string>): (r: string)
    ensures r == "" <==> forall i | 0 <= i < |fragments| :: fragments[i] == ""
    ensures r != "" && (forall i | 0 <= i < |fragments| :: '&' !in fragments[i]) ==>
              Split(r, '&') == Without(fragments, [""])
  {
    var present := Without(fragments, [""]);
    NothingPresent(fragments);
    if |present| > 0 then
      assert forall i | 0 <= i < |present| :: present[i] in present;
      JoinEnds(present, "&");
      SplitPresent(fragments);
      Join(present, "&")
    else Join(present, "&")
  }

  /** The non-empty fragments come back from their `&`-join when none holds an `&`. */
  lemma SplitPresent(fragments: seq<string>)
    requires |Without(fragments, [""])| >= 1
    ensures (forall i | 0 <= i < |fragments| :: '&' !in fragments[i]) ==>
              Split(Join(Without(fragments, [""]), "&"), '&') == Without(fragments, [""])
  {
    var present := Without(fragments, [""]);
    if forall i | 0 <= i < |fragments| :: '&' !in fragments[i] {
      forall k | 0 <= k < |present|
        ensures '&' !in present[k]
      {
        assert present[k] in present;
        var i :| 0 <= i < |fragments| && fragments[i] == present[k];
      }
      assert "&" == ['&'];
      SplitJoin(present, '&');
    }
  }

  /** `urlAfterPage`: the limit fragment, then the parameters, with nothing between them. */
  function AfterPage(req: Req, cfg: Settings, m: Model, blueprintsLimit: JsVal, params: string): (r: string)
    ensures Param(req, LimitName(cfg)).None? ==> r == params
    ensures Param(req, LimitName(cfg)).Some? ==>
              r == LimitName(cfg) + "=" + IntToString(Limit(req, cfg, m, blueprintsLimit)) + params
  {
    LimitText(req, cfg, m, blueprintsLimit) + params
  }

  /** `sep + after` when there is something after, else nothing. */
  function Tail(sep: string, after: string): string {
    if after != "" then sep + after else ""
  }

  /** The links for a page, once the count, limit and URL parts are known. */
  function LinksFor(page: int, last: int, currentUrl: string, before: string, after: string): (r: Links)
    ensures r.first.Some? <==> page != 1
    ensures r.prev.Some? <==> page != 1
    ensures r.next.Some? <==> page != last
    ensures r.last.Some? <==> page != last
  {
    var prev := PrevPage(page);
    var next := NextPage(page, last);
    var toFirst := currentUrl + Tail("?", after);
    Links(
      if page != 1 then Some(toFirst) else None,
      if page != 1 then Some(if prev == 1 then toFirst else before + IntToString(prev) + Tail("&", after)) else None,
      if page != last then Some(before + IntToString(next) + Tail("&", after)) else None,
      if page != last then Some(before + IntToString(last) + Tail("&", after)) else None)
  }

  /**
   * `getPaginationUrls`: no links without a usable count; the criteria's
   * failure otherwise; else the first and previous links off the first
   * page and the next and last links off the last page.
   */
  function PaginationUrls(req: Req, cfg: Settings, m: Model, blueprintsLimit: JsVal, count: JsVal, out: Outside,
                          tryDate: string -> Option<int>, dateText: int -> string): (r: Result<Links, ApiError>)
    ensures CountOf(count).None? ==> r == Success(NoLinks)
    ensures CountOf(count).Some? ==> (r.Failure? <==> ParseCriteria(req, cfg, m, tryDate).Failure?)
    ensures r.Failure? ==> r.error == ParseCriteria(req, cfg, m, tryDate).error
    ensures CountOf(count).Some? && r.Success? ==>
              var page := Page(req, cfg, m);
              var last := LastPage(CountOf(count).value, Limit(req, cfg, m, blueprintsLimit));
              && (r.value.first.Some? <==> page != 1) && (r.value.prev.Some? <==> page != 1)
              && (r.value.next.Some? <==> page != last) && (r.value.last.Some? <==> page != last)
    ensures CountOf(count).Some? && CriteriaFragment(req, cfg, m, tryDate, dateText).Success? ==>
              r.Success? &&
              var after := AfterPage(req, cfg, m, blueprintsLimit,
                Parameters(Fragments(req, cfg, m, blueprintsLimit, out, CriteriaFragment(req, cfg, m, tryDate, dateText).value)));
              PointTo(r.value, Page(req, cfg, m), LastPage(CountOf(count).value, Limit(req, cfg, m, blueprintsLimit)),
                      out.currentUrl, out.currentUrl + "?" + PageName(cfg) + "=", after)
  {
    match CountOf(count)
    case None => Success(NoLinks)
    case Some(c) =>
      match CriteriaFragment(req, cfg, m, tryDate, dateText)
      case Failure(e) => Failure(e)
      case Success(criteria) =>
        var params := Parameters(Fragments(req, cfg, m, blueprintsLimit, out, criteria));
        var after := AfterPage(req, cfg, m, blueprintsLimit, params);
        var before := out.currentUrl + "?" + PageName(cfg) + "=";
        var last := LastPage(c, Limit(req, cfg, m, blueprintsLimit));
        LinkTargets(Page(req, cfg, m), last, out.currentUrl, before, after);
        Success(LinksFor(Page(req, cfg, m), last, out.currentUrl, before, after))
  }

  /**
   * Where the links point: a link to page 1 is the current URL with only the
   * other parameters; any other link puts its page number right after
   * `before` (`?page=`) and the other parameters after `&`.
   */
  predicate PointTo(r: Links, page: int, last: int, currentUrl: string, before: string, after: string) {
    && (r.first.Some? ==> r.first.value == currentUrl + Tail("?", after))
    && (r.prev.Some? && page <= 2 ==> r.prev.value == currentUrl + Tail("?", after))
    && (r.prev.Some? && page > 2 ==> r.prev.value == before + IntToString(page - 1) + Tail("&", after))
    && (r.next.Some? && page < last ==> r.next.value == before + IntToString(page + 1) + Tail("&", after))
    && (r.next.Some? && page > last ==> r.next.value == before + IntToString(last) + Tail("&", after))
    && (r.last.Some? ==> r.last.value == before + IntToString(last) + Tail("&", after))
  }

  /** The links `LinksFor` builds point where `PointTo` says. */
  lemma LinkTargets(page: int, last: int, currentUrl: string, before: string, after: string)
    ensures PointTo(LinksFor(page, last, currentUrl, before, after), page, last, currentUrl, before, after)
  {
  }

  /** With at least one result and a page inside the listing, every linked page is inside it too. */
  lemma LinkedPagesInRange(count: int, perPage: int, page: int)
    requires perPage >= 1 && count >= 1 && 1 <= page <= LastPage(count, perPage)
    ensures 1 <= LastPage(count, perPage)
    ensures 1 <= PrevPage(page) <= page
    ensures page <= NextPage(page, LastPage(count, perPage)) <= LastPage(count, perPage)
    ensures page > 1 ==> PrevPage(page) == page - 1
    ensures page < LastPage(count, perPage) ==> NextPage(page, LastPage(count, perPage)) == page + 1
  {
  }

  /** A page number written into a link, when positive, is read back by `parsePage`. */
  lemma LinkedPageReadsBack(req: Req, cfg: Settings, m: Model, n: int)
    requires n >= 1 && Param(req, PageName(cfg)) == Some(IntToString(n))
    ensures Page(req, cfg, m) == n
  {
    PositiveIntOfText(n);
  }

  /**
   * The limit fragment runs straight into the next parameter: the limit's
   * value is its number followed by the first other fragment, which
   * `parseInt` still reads as the limit when that fragment does not start
   * with a digit.
   */
  lemma LimitGluedToParameters(req: Req, cfg: Settings, m: Model, blueprintsLimit: JsVal, params: string)
    requires Param(req, LimitName(cfg)).Some? && params != [] && !IsDecDigit(params[0])
    ensures AfterPage(req, cfg, m, blueprintsLimit, params)
              == LimitName(cfg) + "=" + (IntToString(Limit(req, cfg, m, blueprintsLimit)) + params)
    ensures ParseInt(IntToString(Limit(req, cfg, m, blueprintsLimit)) + params) == Some(Limit(req, cfg, m, blueprintsLimit))
  {
    var limit := Limit(req, cfg, m, blueprintsLimit);
    Regroup(LimitName(cfg) + "=", IntToString(limit), params);
    ParseIntOfDecimal(limit, params);
  }

  /** String concatenation regrouped to the right. */
  lemma Regroup(a: string, b: string, c: string)
    ensures a + b + c == a + (b + c)
  {
  }

  /** A negative count still gives next and last links, to page 0 or below. */
  lemma NegativeCountLinksBelowFirst(count: int, perPage: int, page: int)
    requires perPage >= 1 && count < 0 && page >= 1
    ensures LastPage(count, perPage) <= 0
    ensures page != LastPage(count, perPage)
    ensures NextPage(page, LastPage(count, perPage)) == LastPage(count, perPage)
  {
  }
}

=== FILE: populate.dfy ===
/**
 * The populate option: whether and which associations are loaded with a
 * record. It is read from the request, else the model's or the global
 * default. It selects the model's associations, each tagged with the
 * populate limit, and has a query fragment of its own.
 */
module Populate {
  import opened Wrappers
  import opened Strings
  import opened Lists
  import opened Config
  import opened Schema
  import opened Request
  import Numeric

  /** `false`, `true`, or a list of association aliases. */
  datatype Populate = PopNone | PopAll | PopList(aliases: seq<string>)

  /** `xs.filter(el => _.trim(el) !== '')`. */
  function DropBlank(xs: seq<string>): (r: seq<string>)
    ensures forall x :: x in r <==> x in xs && !IsBlank(x)
    ensures |r| <= |xs|
    decreases |xs|
  {
    if |xs| == 0 then []
    else (if IsBlank(xs[0]) then [] else [xs[0]]) + DropBlank(xs[1..])
  }

  /** Filtering leaves a list without blank entries as it is. */
  lemma {:induction false} DropBlankOfNonBlank(xs: seq<string>)
    requires forall i | 0 <= i < |xs| :: !IsBlank(xs[i])
    ensures DropBlank(xs) == xs
    decreases |xs|
  {
    if |xs| > 0 {
      DropBlankOfNonBlank(xs[1..]);
      assert xs == [xs[0]] + xs[1..];
    }
  }

  /** Filtering out blank entries keeps the order in which the others first occur. */
  lemma {:induction false} DropBlankKeepsOrder(xs: seq<string>, y: string, z: string)
    requires y in xs && z in xs && !IsBlank(y) && !IsBlank(z)
    ensures First(DropBlank(xs), y) < First(DropBlank(xs), z) <==> First(xs, y) < First(xs, z)
    decreases |xs|
  {
    var d, rest := DropBlank(xs), DropBlank(xs[1..]);
    assert d == (if IsBlank(xs[0]) then [] else [xs[0]]) + rest;
    if xs[0] == y || xs[0] == z {
      assert d[0] == xs[0];
      assert First(xs, xs[0]) == 0 && First(d, xs[0]) == 0;
      if y != z {
        var other := if xs[0] == y then z else y;
        assert First(xs, other) != 0 && First(d, other) != 0;
      }
    } else {
      assert y in xs[1..] && z in xs[1..];
      DropBlankKeepsOrder(xs[1..], y, z);
      assert First(xs, y) == 1 + First(xs[1..], y) && First(xs, z) == 1 + First(xs[1..], z);
      if IsBlank(xs[0]) {
        assert d == rest;
      } else {
        assert d == [xs[0]] + rest;
        FirstCons(xs[0], rest, y);
        FirstCons(xs[0], rest, z);
      }
    }
  }

  /**
   * The last step of `parsePopulate`: a list loses its blank entries and its
   * repeats, and what is left keeps the order in which each alias first occurs.
   */
  function Finish(p: Populate): (r: Populate)
    ensures r.PopList? <==> p.PopList?
    ensures !p.PopList? ==> r == p
    ensures r.PopList? ==> Distinct(r.aliases) && forall i | 0 <= i < |r.aliases| :: !IsBlank(r.aliases[i])
    ensures p.PopList? ==> forall x :: x in r.aliases <==> x in p.aliases && !IsBlank(x)
    ensures p.PopList? ==>
              forall i, j | 0 <= i < j < |r.aliases| :: First(p.aliases, r.aliases[i]) < First(p.aliases, r.aliases[j])
  {
    match p
    case PopList(xs) =>
      var d := DropBlank(xs);
      var r := Uniq(d);
      assert forall i | 0 <= i < |r| :: r[i] in d;
      assert forall i, j | 0 <= i < j < |r| :: First(xs, r[i]) < First(xs, r[j]) by {
        UniqKeepsFirstOrder(d);
        forall i, j | 0 <= i < j < |r| ensures First(xs, r[i]) < First(xs, r[j]) {
          DropBlankKeepsOrder(xs, r[i], r[j]);
        }
      }
      PopList(r)
    case _ => p
  }

  /** A finished list holds exactly the non-blank entries of the raw one. */
  lemma FinishKeeps(p: Populate, a: string)
    requires p.PopList?
    ensures a in Finish(p).aliases <==> a in p.aliases && !IsBlank(a)
  {
  }

  /**
   * A populate parameter given as text, trimmed: `false`/`0` is false,
   * `true`/`1` and the empty text are true, anything else is a
   * comma-separated list with the brackets removed.
   */
  function OfParam(s: string): (r: Populate)
    ensures var t := Trim(s);
            && (t == "" || t == "true" || t == "1" ==> r == PopAll)
            && (t == "false" || t == "0" ==> r == PopNone)
            && (t != "" && t != "true" && t != "1" && t != "false" && t != "0" ==>
                  r == PopList(Split(RemoveChars(t, {'[', ']'}), ',')))
  {
    var t := Trim(s);
    if t == "false" || t == "0" then PopNone
    else if t == "true" || t == "1" then PopAll
    else if t != "" then PopList(Split(RemoveChars(t, {'[', ']'}), ','))
    else PopAll
  }

  /** A default from configuration: text is split on commas (untrimmed, brackets kept), a boolean or an array is taken as it is. */
  function OfDefault(v: JsVal): (r: Option<Populate>)
    ensures r.None? <==> !(v.JStr? || v.JBool? || v.JArr?)
    ensures v.JStr? ==> r == Some(PopList(Split(v.s, ',')))
    ensures v.JBool? ==> r == Some(if v.b then PopAll else PopNone)
    ensures v.JArr? ==> r == Some(PopList(v.items))
  {
    match v
    case JStr(s) => Some(PopList(Split(s, ',')))
    case JBool(b) => Some(if b then PopAll else PopNone)
    case JArr(items) => Some(PopList(items))
    case _ => None
  }

  /** `parsePopulate`: the request's parameter, else the model's default, else the global default, else false. */
  function ParsePopulate(req: Req, cfg: Settings, m: Model): (r: Populate)
    ensures r.PopList? ==> Distinct(r.aliases) && forall i | 0 <= i < |r.aliases| :: !IsBlank(r.aliases[i])
    ensures Param(req, PopulateName(cfg)).Some? ==> r == Finish(OfParam(Param(req, PopulateName(cfg)).value))
    ensures Param(req, PopulateName(cfg)).None? && OfDefault(m.overrides.defaultPopulate).Some? ==>
              r == Finish(OfDefault(m.overrides.defaultPopulate).value)
    ensures Param(req, PopulateName(cfg)).None? && OfDefault(m.overrides.defaultPopulate).None? ==>
              r == Finish(OfDefault(cfg.defaultPopulate).GetOr(PopNone))
  {
    var raw :=
      match Param(req, PopulateName(cfg))
      case Some(s) => OfParam(s)
      case None =>
        match OfDefault(m.overrides.defaultPopulate)
        case Some(p) => p
        case None => OfDefault(cfg.defaultPopulate).GetOr(PopNone);
    Finish(raw)
  }

  /** The text written after `=` for a populate setting other than true. */
  function PopulateValue(p: Populate): (r: string)
    requires !p.PopAll?
    ensures p.PopNone? ==> r == "0"
    ensures p.PopList? ==> r == Join(p.aliases, ",")
  {
    match p
    case PopNone => "0"
    case PopList(xs) => Join(xs, ",")
  }

  /** `parsePopulateToString`: the bare name for true, else `name=value`; nothing when the request has no such parameter. */
  function PopulateText(req: Req, cfg: Settings, m: Model): (r: string)
    ensures Param(req, PopulateName(cfg)).None? <==> r == ""
    ensures Param(req, PopulateName(cfg)).Some? && ParsePopulate(req, cfg, m).PopAll? ==> r == PopulateName(cfg)
    ensures Param(req, PopulateName(cfg)).Some? && !ParsePopulate(req, cfg, m).PopAll? ==>
              r == PopulateName(cfg) + "=" + PopulateValue(ParsePopulate(req, cfg, m))
  {
    var name := PopulateName(cfg);
    if Param(req, name).None? then ""
    else
      var p := ParsePopulate(req, cfg, m);
      name + (if p.PopAll? then "" else "=" + PopulateValue(p))
  }

  /** Whether a setting asks for the association with this alias. */
  predicate Selects(p: Populate, alias: string) {
    p.PopAll? || (p.PopList? && alias in p.aliases)
  }

  /** The aliases the `populate` loop keeps, in the model's order. */
  function SelectedAliases(p: Populate, aliases: seq<string>): (r: seq<string>)
    ensures forall a :: a in r <==> a in aliases && Selects(p, a)
    ensures |r| <= |aliases|
    decreases |aliases|
  {
    if |aliases| == 0 then []
    else (if Selects(p, aliases[0]) then [aliases[0]] else []) + SelectedAliases(p, aliases[1..])
  }

  /** True keeps every association in order; false keeps none. */
  lemma {:induction false} SelectedAliasesAllOrNone(p: Populate, aliases: seq<string>)
    ensures p.PopAll? ==> SelectedAliases(p, aliases) == aliases
    ensures p.PopNone? ==> SelectedAliases(p, aliases) == []
    decreases |aliases|
  {
    if |aliases| > 0 {
      SelectedAliasesAllOrNone(p, aliases[1..]);
      assert aliases == [aliases[0]] + aliases[1..];
    }
  }

  /** The association list handed to the query: each selected alias with the populate limit. */
  function Associations(p: Populate, m: Model, limit: int): (r: seq<(string, int)>)
    ensures |r| == |SelectedAliases(p, m.associations)|
    ensures forall i | 0 <= i < |r| :: r[i].0 in m.associations && Selects(p, r[i].0) && r[i].1 == limit
    ensures forall a | a in m.associations && Selects(p, a) :: exists i | 0 <= i < |r| :: r[i].0 == a
  {
    var sel := SelectedAliases(p, m.associations);
    var r := seq(|sel|, i requires 0 <= i < |sel| => (sel[i], limit));
    assert forall i | 0 <= i < |r| :: r[i].0 == sel[i];
    forall a | a in m.associations && Selects(p, a) ensures exists i | 0 <= i < |r| :: r[i].0 == a {
      var i :| 0 <= i < |sel| && sel[i] == a;
      assert r[i].0 == a;
    }
    r
  }

  /**
   * The association list `populate` hands to the query: every association
   * of the model the request's populate setting selects, in the model's
   * order, each tagged with the request's populate limit.
   */
  function PopulateAssociations(req: Req, cfg: Settings, m: Model, blueprintsLimit: JsVal): (r: seq<(string, int)>)
    ensures var p := ParsePopulate(req, cfg, m);
            |r| == |SelectedAliases(p, m.associations)|
    ensures var p := ParsePopulate(req, cfg, m);
            forall i | 0 <= i < |r| :: r[i].0 in m.associations && Selects(p, r[i].0)
    ensures forall i | 0 <= i < |r| :: r[i].1 == Numeric.PopulateLimit(req, cfg, m, blueprintsLimit)
    ensures var p := ParsePopulate(req, cfg, m);
            forall a | a in m.associations && Selects(p, a) :: exists i | 0 <= i < |r| :: r[i].0 == a
    ensures ParsePopulate(req, cfg, m).PopNone? ==> r == []
  {
    var p := ParsePopulate(req, cfg, m);
    SelectedAliasesAllOrNone(p, m.associations);
    Associations(p, m, Numeric.PopulateLimit(req, cfg, m, blueprintsLimit))
  }

  /** Aliases that are written and read back unchanged: non-blank, trimmed, free of commas and brackets. */
  predicate PlainAlias(a: string) {
    a != [] && IsTrimmed(a) && ',' !in a && '[' !in a && ']' !in a
  }

  /** A list of distinct plain aliases that does not spell one of the words the parser reads as a boolean. */
  predicate PlainAliases(xs: seq<string>) {
    && |xs| >= 1 && Distinct(xs)
    && (forall i | 0 <= i < |xs| :: PlainAlias(xs[i]))
    && Join(xs, ",") !in ["false", "0", "true", "1"]
  }

  /** A plain alias list's text is trimmed, free of brackets, and splits back into the list. */
  lemma PlainAliasesText(xs: seq<string>)
    requires PlainAliases(xs)
    ensures var t := Join(xs, ",");
            && t != [] && Trim(t) == t && RemoveChars(t, {'[', ']'}) == t && Split(t, ',') == xs
  {
    var t := Join(xs, ",");
    JoinEnds(xs, ",");
    NotInJoin(xs, ",", '[');
    NotInJoin(xs, ",", ']');
    assert forall i | 0 <= i < |t| :: t[i] !in {'[', ']'} by {
      assert forall i | 0 <= i < |t| :: t[i] in t;
    }
    RemoveAbsentChars(t, {'[', ']'});
    SplitJoin(xs, ',');
  }

  /** A plain alias list written as the populate value reads back as itself. */
  lemma ListReadsBack(xs: seq<string>)
    requires PlainAliases(xs)
    ensures Finish(OfParam(PopulateValue(PopList(xs)))) == PopList(xs)
  {
    PlainAliasesText(xs);
    forall i | 0 <= i < |xs| ensures !IsBlank(xs[i]) {
      assert Trim(xs[i]) == xs[i];
    }
    DropBlankOfNonBlank(xs);
    UniqOfDistinct(xs);
  }

  /** `0` reads back as false. */
  lemma NoneReadsBack()
    ensures Finish(OfParam("0")) == PopNone
  {
    assert Trim("0") == "0";
  }

  /** The empty value reads back as true. */
  lemma AllReadsBack()
    ensures Finish(OfParam("")) == PopAll
  {
    assert Trim("") == "";
  }

  /**
   * Every setting the serialiser can write faithfully reads back as
   * itself: false as `0`, true as the bare name (read as the empty value),
   * and a plain alias list as its text.
   */
  lemma PopulateReadsBack(p: Populate)
    requires p.PopList? ==> PlainAliases(p.aliases)
    ensures p.PopAll? ==> Finish(OfParam("")) == p
    ensures !p.PopAll? ==> Finish(OfParam(PopulateValue(p))) == p
  {
    match p
    case PopList(xs) => ListReadsBack(xs);
    case PopNone => NoneReadsBack();
    case PopAll => AllReadsBack();
  }

  /** `[]` reads as the empty list, which is written as the empty value and so reads back as true. */
  lemma EmptyListIsLost()
    ensures Finish(OfParam("[]")) == PopList([])
    ensures PopulateValue(PopList([])) == ""
    ensures Finish(OfParam("")) == PopAll
  {
    BracketsReadAsEmpty();
    BlankListFinishesEmpty();
    assert PopulateValue(PopList([])) == Join([], ",");
    AllReadsBack();
  }

  /** A list holding only the empty alias finishes as the empty list. */
  lemma BlankListFinishesEmpty()
    ensures Finish(PopList([""])) == PopList([])
  {
    assert IsBlank("");
    assert DropBlank([""]) == [];
  }

  /** `[]` is read as the list holding only the empty alias. */
  lemma BracketsReadAsEmpty()
    ensures OfParam("[]") == PopList([""])
  {
    assert IsTrimmed("[]");
    assert RemoveChars("[]", {'[', ']'}) == "";
    assert IndexOf("", ',').None?;
  }
}

=== FILE: request.dfy ===
/**
 * The request as the compiler reads it: the query map, the route
 * parameters, the route options, `req.param`, the filter parameters, and
 * the primary-key value taken from them.
 */
module Request {
  import opened Wrappers
  import opened Strings
  import opened OrderedMap
  import opened Config
  import opened Schema

  /** The route options (`req.options`) the compiler consults. */
  datatype RouteOptions = RouteOptions(
    id: JsVal,
    page: JsVal,
    limit: JsVal,
    sort: JsVal,
    fields: JsVal,
    jsonp: JsVal,
    /** `req.options.where`. */
    where: OMap<string>,
    /** `req.options.criteria.blacklist`. */
    criteriaBlacklist: JsVal)

  /** Route parameters whose value is `undefined` are absent from `params`. */
  datatype Req = Req(query: OMap<string>, params: OMap<string>, options: RouteOptions)

  /** `req.param(name)`: a route parameter first, then the query. */
  function Param(req: Req, name: string): (r: Option<string>)
    ensures r.Some? <==> name in Keys(req.params) || name in Keys(req.query)
    ensures name in Keys(req.params) ==> r == Get(req.params, name)
    ensures name !in Keys(req.params) ==> r == Get(req.query, name)
  {
    match Get(req.params, name)
    case Some(v) => Some(v)
    case None => Get(req.query, name)
  }

  /** `req.param(name)` as a JavaScript value. */
  function ParamVal(req: Req, name: string): (v: JsVal)
    ensures v.Undef? <==> Param(req, name).None?
    ensures v.JStr? ==> Param(req, name) == Some(v.s)
  {
    match Param(req, name)
    case Some(s) => JStr(s)
    case None => Undef
  }

  /** `req.param(name)` is truthy: present and not the empty string. */
  predicate Given(req: Req, name: string) {
    Param(req, name).Some? && Param(req, name).value != ""
  }

  /** What a filter parameter reads: a non-empty query value, else the route parameter, else the query value. */
  function FilterValue(req: Req, k: string): Option<string> {
    match Get(req.query, k)
    case Some(v) => if v != "" then Some(v) else if Get(req.params, k).Some? then Get(req.params, k) else Some(v)
    case None => Get(req.params, k)
  }

  /** Mixes in the route parameter at position `i`. */
  function MixStep(req: Req, acc: OMap<string>, i: nat): (r: OMap<string>)
    requires i < |req.params|
    ensures Keys(r) == Keys(acc) || Keys(r) == Keys(acc) + [req.params[i].0]
  {
    var p := req.params[i].0;
    assert p in Keys(req.params);
    var v := Get(req.params, p).value;
    match Get(acc, p)
    case Some(w) => if w != "" then acc else Put(acc, p, v)
    case None => Put(acc, p, v)
  }

  /** Mixes the route parameters from position `i` on into `acc`. */
  function MixIn(req: Req, acc: OMap<string>, i: nat): (r: OMap<string>)
    requires i <= |req.params|
    decreases |req.params| - i
  {
    if i == |req.params| then acc else MixIn(req, MixStep(req, acc, i), i + 1)
  }

  /**
   * `getFilterParams`: the query with route parameters mixed in, a route
   * parameter filling a name the query leaves absent or empty.
   */
  function FilterParams(req: Req): (r: OMap<string>)
    ensures forall k :: Get(r, k) == FilterValue(req, k)
    ensures Keys(req.query) <= Keys(r)
  {
    MixInQuery(req);
    MixIn(req, req.query, 0)
  }

  /** One step keeps every key already there and adds only a route parameter name. */
  lemma MixStepKeys(req: Req, acc: OMap<string>, i: nat)
    requires i < |req.params|
    ensures Keys(acc) <= Keys(MixStep(req, acc, i))
    ensures forall k | k in Keys(MixStep(req, acc, i)) :: k in Keys(acc) || k in Keys(req.params)
  {
    assert req.params[i].0 in Keys(req.params);
  }

  /** Mixing in keeps every key already there, in place, and adds only route parameter names. */
  lemma {:induction false} MixInKeys(req: Req, acc: OMap<string>, i: nat)
    requires i <= |req.params|
    ensures Keys(acc) <= Keys(MixIn(req, acc, i))
    ensures forall k | k in Keys(MixIn(req, acc, i)) :: k in Keys(acc) || k in Keys(req.params)
    decreases |req.params| - i
  {
    if i < |req.params| {
      var acc' := MixStep(req, acc, i);
      assert MixIn(req, acc, i) == MixIn(req, acc', i + 1);
      MixStepKeys(req, acc, i);
      MixInKeys(req, acc', i + 1);
      PrefixTransitive(Keys(acc), Keys(acc'), Keys(MixIn(req, acc', i + 1)));
    }
  }

  lemma PrefixTransitive(a: seq<string>, b: seq<string>, c: seq<string>)
    requires a <= b && b <= c
    ensures a <= c
  {
    assert |a| <= |b| <= |c|;
    assert forall j | 0 <= j < |a| :: a[j] == b[j] == c[j];
  }

  /** One step leaves the reading of every other name alone. */
  lemma MixStepOther(req: Req, acc: OMap<string>, i: nat, k: string)
    requires i < |req.params| && k != req.params[i].0
    ensures Get(MixStep(req, acc, i), k) == Get(acc, k)
    ensures k in Keys(req.params[..i + 1]) <==> k in Keys(req.params[..i])
  {
    var p := req.params[i].0;
    assert p in Keys(req.params);
    PutGet(acc, p, Get(req.params, p).value, k);
    assert Keys(req.params[..i + 1]) == Keys(req.params[..i]) + [p];
  }

  /** One step settles the reading of the name it mixes in. */
  lemma MixStepSame(req: Req, acc: OMap<string>, i: nat)
    requires i < |req.params|
    requires var p := req.params[i].0;
             Get(acc, p) == if p in Keys(req.params[..i]) then FilterValue(req, p) else Get(req.query, p)
    ensures Get(MixStep(req, acc, i), req.params[i].0) == FilterValue(req, req.params[i].0)
  {
    var p := req.params[i].0;
    assert p in Keys(req.params);
    var v := Get(req.params, p).value;
    PutGet(acc, p, v, p);
  }

  /** One step settles the reading of the name it mixes in and keeps every other reading. */
  lemma MixStepGet(req: Req, acc: OMap<string>, i: nat, k: string)
    requires i < |req.params|
    requires Get(acc, k) == if k in Keys(req.params[..i]) then FilterValue(req, k) else Get(req.query, k)
    ensures Get(MixStep(req, acc, i), k) == if k in Keys(req.params[..i + 1]) then FilterValue(req, k) else Get(req.query, k)
  {
    if k == req.params[i].0 {
      MixStepSame(req, acc, i);
      assert k in Keys(req.params[..i + 1]) by {
        assert Keys(req.params[..i + 1])[i] == k;
      }
    } else {
      MixStepOther(req, acc, i, k);
    }
  }

  /** Each step of the mix-in keeps the reading of every name settled so far. */
  lemma {:induction false} MixInGet(req: Req, acc: OMap<string>, i: nat, k: string)
    requires i <= |req.params|
    requires Get(acc, k) == if k in Keys(req.params[..i]) then FilterValue(req, k) else Get(req.query, k)
    ensures Get(MixIn(req, acc, i), k) == FilterValue(req, k)
    decreases |req.params| - i
  {
    if i == |req.params| {
      assert req.params[..i] == req.params;
    } else {
      var acc' := MixStep(req, acc, i);
      assert MixIn(req, acc, i) == MixIn(req, acc', i + 1);
      MixStepGet(req, acc, i, k);
      MixInGet(req, acc', i + 1, k);
    }
  }

  /**
   * Mixing every route parameter into the query: each name reads as a
   * non-empty query value when there is one, else as the route parameter
   * when there is one, else as the query; every query key survives.
   */
  lemma MixInQuery(req: Req)
    ensures forall k :: Get(MixIn(req, req.query, 0), k) == FilterValue(req, k)
    ensures Keys(req.query) <= Keys(MixIn(req, req.query, 0))
  {
    assert req.params[..0] == [];
    forall k ensures Get(MixIn(req, req.query, 0), k) == FilterValue(req, k) {
      MixInGet(req, req.query, 0, k);
    }
    MixInKeys(req, req.query, 0);
  }

  /** The errors the compiler raises; only the missing primary key carries an HTTP status (400). */
  datatype ApiError =
    | InvalidBlacklist
    | MissingIdParameter
    | HelperServiceUndefined
    | BetweenOnNull

  /** `pretty` is switched on globally and the request names the pretty parameter (`wantsPrettyJSON` is not -1). */
  predicate PrettyRequested(req: Req, cfg: Settings) {
    cfg.pretty == JBool(true) && Param(req, PrettyName(cfg)).Some?
  }

  /** `isJsonpSupported`: a boolean global `jsonp`, else a boolean route option, else no. */
  predicate JsonpSupported(req: Req, cfg: Settings) {
    if cfg.jsonp.JBool? then cfg.jsonp.b
    else if req.options.jsonp.JBool? then req.options.jsonp.b
    else false
  }

  /** The trimmed text when it is not blank. */
  function NonBlank(s: string): (r: Option<string>)
    ensures r.Some? ==> IsToken(r.value)
    ensures r.None? <==> IsBlank(s)
  {
    if IsBlank(s) then None else Some(Trim(s))
  }

  /**
   * `parsePk`: the route option `id`, else the parameter `id`, else the
   * parameter named after the primary key, whichever is first truthy,
   * stringified and trimmed; blank means absent.
   */
  function ParsePk(req: Req, m: Model): (r: Option<string>)
    ensures r.Some? ==> IsToken(r.value)
    ensures Truthy(req.options.id) ==> r == NonBlank(ToStr(req.options.id))
    ensures !Truthy(req.options.id) && Given(req, "id") ==> r == NonBlank(Param(req, "id").value)
    ensures !Truthy(req.options.id) && !Given(req, "id") ==>
              r == if Param(req, PkKey(m)).Some? then NonBlank(Param(req, PkKey(m)).value) else None
  {
    if Truthy(req.options.id) then NonBlank(ToStr(req.options.id))
    else if Given(req, "id") then NonBlank(Param(req, "id").value)
    else match Param(req, PkKey(m))
      case Some(v) => NonBlank(v)
      case None => None
  }

  /** `parseRequiredPk`: the primary-key value, or the 400 error when there is none. */
  function ParseRequiredPk(req: Req, m: Model): (r: Result<string, ApiError>)
    ensures r.Success? <==> ParsePk(req, m).Some?
    ensures r.Success? ==> r.value == ParsePk(req, m).value && IsToken(r.value)
    ensures r.Failure? ==> r.error == MissingIdParameter
  {
    match ParsePk(req, m)
    case Some(pk) => Success(pk)
    case None => Failure(MissingIdParameter)
  }
}

=== FILE: schema.dfy ===
/**
 * The part of a model definition the query compiler looks at: its
 * attributes (name, declared `type`, whether it is a `collection`), its
 * primary key, its association aliases and its per-model override block.
 */
module Schema {
  import opened Wrappers
  import opened Strings
  import opened OrderedMap
  import opened Config

  /** What a model declares under one attribute name. */
  datatype AttrDef =
    /** An attribute object: its `type` when that is a string, and whether it carries `collection`. */
    | Declared(typ: Option<string>, collection: bool)
    /** A shorthand string, an instance method or any other non-object value. */
    | NotAnObject

  datatype Model = Model(
    attributes: OMap<AttrDef>,
    /** `Model.primaryKey` when it is a string. */
    primaryKey: Option<string>,
    /** The `alias` of every association, in declaration order. */
    associations: seq<string>,
    /** `Model[configKey]`. */
    overrides: Overrides)

  /** `Model.attributes[name]`. */
  function Attr(m: Model, name: string): Option<AttrDef> {
    Get(m.attributes, name)
  }

  /** The properties every plain object inherits from `Object.prototype`. */
  datatype InheritedProperty =
    | Constructor | HasOwnProperty | IsPrototypeOf | PropertyIsEnumerable
    | ToLocaleString | ToString | ValueOf
    | DefineGetter | DefineSetter | LookupGetter | LookupSetter | Proto

  /** The name under which an inherited property is found. */
  function PropertyName(p: InheritedProperty): string {
    match p
    case Constructor => "constructor"
    case HasOwnProperty => "hasOwnProperty"
    case IsPrototypeOf => "isPrototypeOf"
    case PropertyIsEnumerable => "propertyIsEnumerable"
    case ToLocaleString => "toLocaleString"
    case ToString => "toString"
    case ValueOf => "valueOf"
    case DefineGetter => "__defineGetter__"
    case DefineSetter => "__defineSetter__"
    case LookupGetter => "__lookupGetter__"
    case LookupSetter => "__lookupSetter__"
    case Proto => "__proto__"
  }

  /** `!_.isUndefined(Model.attributes[name])`: an attribute of the model, or an inherited property. */
  predicate Defined(m: Model, name: string) {
    Attr(m, name).Some? || exists p: InheritedProperty :: PropertyName(p) == name
  }

  /** The admission test: a non-blank name whose attribute is an object without `collection`. */
  predicate IsColumn(m: Model, name: string) {
    match Attr(m, name)
    case Some(Declared(_, false)) => !IsBlank(name)
    case _ => false
  }

  /** The attribute's `type`, lower-cased, is `date` or `datetime`. */
  predicate IsDateAttribute(m: Model, name: string) {
    match Attr(m, name)
    case Some(Declared(Some(t), _)) => LowersTo(t, "date") || LowersTo(t, "datetime")
    case _ => false
  }

  /** A primary key the compiler treats as present (`getNameOfPk` is truthy). */
  predicate HasPk(m: Model) {
    m.primaryKey.Some? && m.primaryKey.value != ""
  }

  /**
   * The key under which `getNameOfPk`'s result is used as an object key or
   * parameter name: the primary key, or `"false"` when there is none.
   */
  function PkKey(m: Model): (r: string)
    ensures m.primaryKey.Some? ==> r == m.primaryKey.value
    ensures m.primaryKey.None? ==> r == "false"
  {
    m.primaryKey.GetOr("false")
  }
}

=== FILE: sort.dfy ===
/**
 * The sort option: a comma-separated list of attribute names, each
 * descending when written with a leading `-`, resolved into an object
 * from name to direction (1 ascending, 0 descending), and its query
 * fragment. A name is kept when the model's attributes object has it,
 * which includes the properties every object inherits.
 */
module Sort {
  import opened Wrappers
  import opened Strings
  import opened OrderedMap
  import opened Config
  import opened Schema
  import opened Request
  import Lists

  /** A leading sign or white-space character. */
  predicate IsSignOrSpace(c: char) {
    c == '-' || c == '+' || IsSpace(c)
  }

  /** The loop that drops leading `-` and `+` signs from a sort or fields item, trimming after each one. */
  function StripSigns(s: string): (r: string)
    ensures r == [] || (r[0] != '-' && r[0] != '+')
    ensures IsTrimmed(s) ==> IsTrimmed(r)
    ensures (s == [] || (s[0] != '-' && s[0] != '+')) ==> r == s
    decreases |s|
  {
    if |s| > 0 && (s[0] == '-' || s[0] == '+') then StripSigns(Trim(s[1..])) else s
  }

  /** `r` is what is left of `s` after a run of signs and white space at its front. */
  predicate SuffixAfterSigns(s: string, r: string) {
    && |r| <= |s| && r == s[|s| - |r|..]
    && forall i | 0 <= i < |s| - |r| :: IsSignOrSpace(s[i])
  }

  /**
   * On trimmed text the loop's result `r` is a suffix, and everything it
   * drops is signs and white space.
   */
  lemma {:induction false} StripSignsSuffix(s: string, r: string)
    requires IsTrimmed(s) && r == StripSigns(s)
    ensures SuffixAfterSigns(s, r)
    decreases |s|
  {
    if |s| > 0 && (s[0] == '-' || s[0] == '+') {
      StripSignsSuffix(Trim(s[1..]), r);
      SignStep(s, r);
    } else {
      assert s[|s| - |s|..] == s;
    }
  }

  /** Stripping a sign off trimmed text and then what follows it to `r` leaves `r` as a suffix after signs and white space. */
  lemma SignStep(s: string, r: string)
    requires IsTrimmed(s) && |s| > 0 && (s[0] == '-' || s[0] == '+')
    requires SuffixAfterSigns(Trim(s[1..]), r)
    ensures SuffixAfterSigns(s, r)
  {
    TrimmedTail(s);
    SuffixOfSuffix(s, Trim(s[1..]), r);
  }

  /** A sign, then white space, then signs and white space before a suffix `r` of `t`. */
  lemma SuffixOfSuffix(s: string, t: string, r: string)
    requires |s| > 0 && (s[0] == '-' || s[0] == '+')
    requires |t| < |s| && t == s[|s| - |t|..] && forall i | 1 <= i < |s| - |t| :: IsSpace(s[i])
    requires |r| <= |t| && r == t[|t| - |r|..] && forall i | 0 <= i < |t| - |r| :: IsSignOrSpace(t[i])
    ensures r == s[|s| - |r|..]
    ensures forall i | 0 <= i < |s| - |r| :: IsSignOrSpace(s[i])
  {
    forall i | |s| - |t| <= i < |s| - |r| ensures IsSignOrSpace(s[i]) {
      assert s[i] == t[i - (|s| - |t|)];
    }
  }

  /** Trimming what follows the first character of trimmed text only drops white space from its front. */
  lemma TrimmedTail(s: string)
    requires IsTrimmed(s) && |s| > 0
    ensures |Trim(s[1..])| < |s| && Trim(s[1..]) == s[|s| - |Trim(s[1..])|..]
    ensures forall i | 1 <= i < |s| - |Trim(s[1..])| :: IsSpace(s[i])
  {
    var u := s[1..];
    var k := |u| - |TrimStart(u)|;
    TrimIsSlice(u);
    if |u| > 0 {
      assert u[|u| - 1] == s[|s| - 1];
    }
    assert k + |Trim(u)| == |u|;
    assert Trim(u) == u[k..] == s[1 + k..];
    forall i | 1 <= i < 1 + k ensures IsSpace(s[i]) {
      assert s[i] == u[i - 1];
    }
  }

  /** The attribute an item names: signs stripped, and `id` standing for the primary key. */
  function SortKey(m: Model, item: string): (k: string)
    ensures StripSigns(Trim(item)) == "id" ==> k == PkKey(m)
    ensures StripSigns(Trim(item)) != "id" ==> k == StripSigns(Trim(item))
  {
    var k := StripSigns(Trim(item));
    if k == "id" then PkKey(m) else k
  }

  /** The direction an item asks for: 0 (descending) exactly when its trimmed text starts with `-`, else 1. */
  function SortDir(item: string): (d: int)
    ensures d == 0 || d == 1
    ensures d == 0 <==> Trim(item) != [] && Trim(item)[0] == '-'
  {
    var t := Trim(item);
    if |t| > 0 && t[0] == '-' then 0 else 1
  }

  /**
   * The sort lookup admits `k`: `Model.attributes[k]` is defined, so an
   * attribute or an inherited property such as `constructor`, and `k` is
   * not `__proto__`, since assigning a number to that key of the sort
   * object is ignored.
   */
  predicate Sortable(m: Model, k: string) {
    Defined(m, k) && k != PropertyName(Proto)
  }

  /** Every key is admitted by the sort lookup and every direction is 0 or 1. */
  predicate SortEntries(m: Model, obj: OMap<int>) {
    && WellFormed(obj)
    && forall i | 0 <= i < |obj| :: Sortable(m, obj[i].0) && (obj[i].1 == 0 || obj[i].1 == 1)
  }

  /**
   * One item's effect on the sort object: a name the lookup admits is
   * assigned its direction, keeping its place when already there, and
   * anything else is dropped; no other key changes.
   */
  function SortStep(m: Model, acc: OMap<int>, item: string): (r: OMap<int>)
    requires SortEntries(m, acc)
    ensures SortEntries(m, r)
    ensures Sortable(m, SortKey(m, item)) ==> Get(r, SortKey(m, item)) == Some(SortDir(item))
    ensures !Sortable(m, SortKey(m, item)) ==> r == acc
    ensures forall j | j != SortKey(m, item) :: Get(r, j) == Get(acc, j)
  {
    var k := SortKey(m, item);
    if Sortable(m, k) then
      PutWellFormed(acc, k, SortDir(item));
      PutEntries(acc, k, SortDir(item));
      PutGetAll(acc, k, SortDir(item));
      Put(acc, k, SortDir(item))
    else acc
  }

  /** The sort object built from the items, left to right. */
  function Collect(m: Model, items: seq<string>, acc: OMap<int>): (r: OMap<int>)
    requires SortEntries(m, acc)
    ensures SortEntries(m, r)
    decreases |items|
  {
    if |items| == 0 then acc else Collect(m, items[1..], SortStep(m, acc, items[0]))
  }

  /** The direction of the last item that names `k`, if any does and the lookup admits it. */
  function LastDir(m: Model, items: seq<string>, k: string): (r: Option<int>)
    decreases |items|
  {
    if |items| == 0 then None
    else match LastDir(m, items[1..], k)
      case Some(d) => Some(d)
      case None => if SortKey(m, items[0]) == k && Sortable(m, k) then Some(SortDir(items[0])) else None
  }

  /** Collecting gives each key the direction of the last item naming it, and leaves the others as they were. */
  lemma {:induction false} CollectGet(m: Model, items: seq<string>, acc: OMap<int>, k: string)
    requires SortEntries(m, acc)
    ensures Get(Collect(m, items, acc), k) == if LastDir(m, items, k).Some? then LastDir(m, items, k) else Get(acc, k)
    decreases |items|
  {
    if |items| > 0 {
      CollectGet(m, items[1..], SortStep(m, acc, items[0]), k);
    }
  }

  /** The fallback `id` is a usable sort text. */
  lemma IdIsToken()
    ensures IsToken("id")
  {
    assert "id"[0] == 'i' && "id"[1] == 'd';
  }

  /** The sort text: the request's parameter, the model's and the global default, the route option, else `id`. */
  function SortSource(req: Req, cfg: Settings, m: Model): (s: string)
    ensures IsToken(s)
    ensures var p := ParamVal(req, SortName(cfg));
            HasText(p) ==> s == Trim(p.s)
    ensures var p := ParamVal(req, SortName(cfg));
            !HasText(p) && HasText(m.overrides.defaultSort) ==> s == Trim(m.overrides.defaultSort.s)
    ensures var p := ParamVal(req, SortName(cfg));
            !HasText(p) && !HasText(m.overrides.defaultSort) && HasText(cfg.defaultSort) ==> s == Trim(cfg.defaultSort.s)
    ensures var p := ParamVal(req, SortName(cfg));
            !HasText(p) && !HasText(m.overrides.defaultSort) && !HasText(cfg.defaultSort) && HasText(req.options.sort) ==>
              s == Trim(req.options.sort.s)
    ensures var p := ParamVal(req, SortName(cfg));
            !HasText(p) && !HasText(m.overrides.defaultSort) && !HasText(cfg.defaultSort) && !HasText(req.options.sort) ==>
              s == "id"
  {
    FirstTextOfFour(ParamVal(req, SortName(cfg)), m.overrides.defaultSort, cfg.defaultSort, req.options.sort);
    IdIsToken();
    FirstText([ParamVal(req, SortName(cfg)), m.overrides.defaultSort, cfg.defaultSort, req.options.sort]).GetOr("id")
  }

  /** The names the items give that the lookup admits, in the order named, repeats included. */
  function AdmittedNames(m: Model, items: seq<string>): (r: seq<string>)
    ensures forall k | k in r :: Sortable(m, k)
    decreases |items|
  {
    if |items| == 0 then []
    else (if Sortable(m, SortKey(m, items[0])) then [SortKey(m, items[0])] else []) + AdmittedNames(m, items[1..])
  }

  /**
   * Collecting appends each newly admitted name and keeps a repeated one
   * in its place, so the keys are the admitted names, first naming first.
   */
  lemma {:induction false} CollectKeys(m: Model, items: seq<string>, acc: OMap<int>)
    requires SortEntries(m, acc)
    ensures Keys(Collect(m, items, acc)) == Lists.Uniq(Keys(acc) + AdmittedNames(m, items))
    decreases |items|
  {
    if |items| == 0 {
      KeysStayUnique(acc);
      assert Keys(acc) + AdmittedNames(m, items) == Keys(acc);
    } else {
      var rest := AdmittedNames(m, items[1..]);
      var named := AdmittedNames(m, [items[0]]);
      var ks := Keys(SortStep(m, acc, items[0]));
      CollectKeys(m, items[1..], SortStep(m, acc, items[0]));
      StepKeys(m, acc, items[0]);
      Lists.UniqStep(Keys(acc), ks, named, rest);
      assert [items[0]][1..] == [];
      assert AdmittedNames(m, items) == AdmittedNames(m, [items[0]]) + rest;
    }
  }

  /** A sort object's keys are already free of repeats. */
  lemma KeysStayUnique(acc: OMap<int>)
    requires WellFormed(acc)
    ensures Lists.Uniq(Keys(acc)) == Keys(acc)
  {
    assert Lists.Distinct(Keys(acc)) by {
      forall i, j | 0 <= i < j < |acc| ensures Keys(acc)[i] != Keys(acc)[j] {
        assert acc[i].0 != acc[j].0;
      }
    }
    Lists.UniqOfDistinct(Keys(acc));
  }

  /** One item's step on the keys: a newly admitted name is appended, anything else leaves them as they were. */
  lemma StepKeys(m: Model, acc: OMap<int>, item: string)
    requires SortEntries(m, acc)
    ensures var k := SortKey(m, item);
            AdmittedNames(m, [item]) == if Sortable(m, k) then [k] else []
    ensures var k := SortKey(m, item);
            Keys(SortStep(m, acc, item)) == if Sortable(m, k) && k !in Keys(acc) then Keys(acc) + [k] else Keys(acc)
  {
    var k := SortKey(m, item);
    assert [item][0] == item && [item][1..] == [];
    assert AdmittedNames(m, [item]) == (if Sortable(m, k) then [k] else []) + AdmittedNames(m, []);
  }

  /**
   * `parseSort`: the sort object maps exactly the admitted names the sort
   * text's items give (after signs and `id`), each to the direction of the last
   * item naming it.
   */
  function ParseSort(req: Req, cfg: Settings, m: Model): (r: OMap<int>)
    ensures SortEntries(m, r)
    ensures forall k :: Get(r, k) == LastDir(m, Split(SortSource(req, cfg, m), ','), k)
  {
    var items := Split(SortSource(req, cfg, m), ',');
    var r := Collect(m, items, []);
    forall k ensures Get(r, k) == LastDir(m, items, k) {
      CollectGet(m, items, [], k);
    }
    r
  }

  /**
   * The keys of `parseSort`'s object are the admitted names, each once,
   * in the order they are first named, which is the sort priority.
   */
  lemma ParseSortOrder(req: Req, cfg: Settings, m: Model)
    ensures var named := AdmittedNames(m, Split(SortSource(req, cfg, m), ','));
            Keys(ParseSort(req, cfg, m)) == Lists.Uniq(named)
    ensures var r, named := ParseSort(req, cfg, m), AdmittedNames(m, Split(SortSource(req, cfg, m), ','));
            forall i | 0 <= i < |r| :: r[i].0 in named
    ensures var r, named := ParseSort(req, cfg, m), AdmittedNames(m, Split(SortSource(req, cfg, m), ','));
            forall i, j | 0 <= i < j < |r| :: Lists.First(named, r[i].0) < Lists.First(named, r[j].0)
  {
    var items := Split(SortSource(req, cfg, m), ',');
    assert ParseSort(req, cfg, m) == Collect(m, items, []);
    CollectOrder(m, items);
  }

  /** From nothing, the keys collected are the admitted names, each once, first naming first. */
  lemma CollectOrder(m: Model, items: seq<string>)
    ensures Keys(Collect(m, items, [])) == Lists.Uniq(AdmittedNames(m, items))
    ensures var r := Collect(m, items, []);
            forall i | 0 <= i < |r| :: r[i].0 in AdmittedNames(m, items)
    ensures var r, named := Collect(m, items, []), AdmittedNames(m, items);
            forall i, j | 0 <= i < j < |r| :: Lists.First(named, r[i].0) < Lists.First(named, r[j].0)
  {
    var r, named := Collect(m, items, []), AdmittedNames(m, items);
    assert Keys(r) == Lists.Uniq(named) by {
      CollectKeys(m, items, []);
      assert [] + named == named;
    }
    Lists.UniqKeepsFirstOrder(named);
    assert forall i | 0 <= i < |r| :: Keys(r)[i] == r[i].0;
  }

  /**
   * An inherited name such as `constructor` is kept, as the lookup finds it
   * on every object, while `__proto__` is dropped although it is found too.
   */
  lemma InheritedNameSorts(m: Model)
    ensures Collect(m, ["constructor"], []) == [("constructor", 1)]
    ensures Collect(m, ["__proto__"], []) == []
  {
    var c, p := PropertyName(Constructor), PropertyName(Proto);
    PlainItem(m, c);
    PlainItem(m, p);
    assert Sortable(m, c);
    assert Collect(m, [c], []) == Collect(m, [], SortStep(m, [], c));
    assert Put([], c, 1) == [(c, 1)];
    assert Collect(m, [p], []) == Collect(m, [], SortStep(m, [], p));
  }

  /** A trimmed item without a sign, other than `id`, names itself, ascending. */
  lemma PlainItem(m: Model, item: string)
    requires item != [] && IsTrimmed(item) && item[0] != '-' && item[0] != '+' && item != "id"
    ensures SortKey(m, item) == item && SortDir(item) == 1
  {
  }

  /** `-id` sorts by the primary key, descending. */
  lemma IdSortsByPk(m: Model)
    requires Sortable(m, PkKey(m))
    ensures Collect(m, ["-id"], []) == [(PkKey(m), 0)]
  {
    IdStep(m);
    assert ["-id"][1..] == [];
    assert Collect(m, ["-id"], []) == Collect(m, [], SortStep(m, [], "-id"));
  }

  /** The item `-id` alone puts the primary key, descending, into an empty sort object. */
  lemma IdStep(m: Model)
    requires Sortable(m, PkKey(m))
    ensures SortStep(m, [], "-id") == [(PkKey(m), 0)]
  {
    var k := PkKey(m);
    assert SortKey(m, "-id") == k && SortDir("-id") == 0 by {
      IdSignsStripped();
    }
    assert SortStep(m, [], "-id") == Put([], k, 0) by {
      StepPuts(m, [], "-id", k, 0);
    }
    assert Put([], k, 0) == [(k, 0)];
  }

  /** `-id` is trimmed, starts with `-`, and names `id` once its sign is stripped. */
  lemma IdSignsStripped()
    ensures Trim("-id") == "-id" && "-id"[0] == '-'
    ensures StripSigns(Trim("-id")) == "id"
  {
    assert IsTrimmed("-id") && IsTrimmed("id");
    assert "-id"[1..] == "id";
    assert StripSigns("-id") == StripSigns(Trim("id"));
  }

  /** How an entry is written: the name, after `-` when descending. */
  function SortPart(k: string, d: int): string {
    (if d != 0 then "" else "-") + k
  }

  function SortParts(obj: OMap<int>): (r: seq<string>)
    ensures |r| == |obj|
    ensures forall i | 0 <= i < |r| :: r[i] == SortPart(obj[i].0, obj[i].1)
  {
    seq(|obj|, i requires 0 <= i < |obj| => SortPart(obj[i].0, obj[i].1))
  }

  /** `parseSortToString`: `name=` and the entries joined with commas; nothing without the parameter or without entries. */
  function SortText(req: Req, cfg: Settings, m: Model): (r: string)
    ensures Param(req, SortName(cfg)).None? || |ParseSort(req, cfg, m)| == 0 <==> r == ""
    ensures r != "" ==> r == SortName(cfg) + "=" + Join(SortParts(ParseSort(req, cfg, m)), ",")
  {
    var obj := ParseSort(req, cfg, m);
    if Param(req, SortName(cfg)).None? || |obj| == 0 then ""
    else SortName(cfg) + "=" + Join(SortParts(obj), ",")
  }

  /** Text an entry can be written as and read back from: non-empty, trimmed, no comma and no leading sign. */
  predicate PlainName(k: string) {
    k != [] && IsTrimmed(k) && ',' !in k && k[0] != '-' && k[0] != '+'
  }

  /** A name the sort text carries unchanged: plain, admitted by the lookup, and `id` only when that is the primary key. */
  predicate PlainSortKey(m: Model, k: string) {
    PlainName(k) && Sortable(m, k) && (k == "id" ==> PkKey(m) == "id")
  }

  /** A sort object the text carries unchanged. */
  predicate PlainSort(m: Model, obj: OMap<int>) {
    && |obj| >= 1 && SortEntries(m, obj)
    && forall i | 0 <= i < |obj| :: PlainSortKey(m, obj[i].0)
  }

  /** A name written with a leading `-` reads back as the name, descending. */
  lemma DashedReadsBack(k: string)
    requires k != [] && IsTrimmed(k) && k[0] != '-' && k[0] != '+'
    ensures StripSigns(Trim(['-'] + k)) == k && SortDir(['-'] + k) == 0
  {
    var p := ['-'] + k;
    assert p[|p| - 1] == k[|k| - 1];
    assert Trim(p) == p;
    assert p[1..] == k;
  }

  /** A written entry reads back as its name and direction. */
  lemma PartReadsBack(m: Model, k: string, d: int)
    requires PlainSortKey(m, k) && (d == 0 || d == 1)
    ensures SortKey(m, SortPart(k, d)) == k && SortDir(SortPart(k, d)) == d
  {
    if d == 0 {
      DashedReadsBack(k);
      assert SortPart(k, d) == ['-'] + k;
    } else {
      assert SortPart(k, d) == k;
    }
  }

  /** A prefix of a sort object is one too. */
  lemma PrefixEntries(m: Model, obj: OMap<int>, j: nat)
    requires SortEntries(m, obj) && j <= |obj|
    ensures SortEntries(m, obj[..j])
  {
    assert forall a | 0 <= a < j :: obj[..j][a] == obj[a];
  }

  /** An item giving an admitted name assigns its direction to it. */
  lemma StepPuts(m: Model, acc: OMap<int>, item: string, k: string, d: int)
    requires SortEntries(m, acc) && SortKey(m, item) == k && SortDir(item) == d && Sortable(m, k)
    ensures SortStep(m, acc, item) == Put(acc, k, d)
  {
  }

  /** Reading the entry at `j` after the first `j` appends it. */
  lemma StepReadsBack(m: Model, obj: OMap<int>, j: nat)
    requires j < |obj| && WellFormed(obj) && SortEntries(m, obj[..j])
    requires PlainSortKey(m, obj[j].0) && (obj[j].1 == 0 || obj[j].1 == 1)
    ensures SortStep(m, obj[..j], SortPart(obj[j].0, obj[j].1)) == obj[..j + 1]
  {
    var k := obj[j].0;
    var d := obj[j].1;
    PartReadsBack(m, k, d);
    StepPuts(m, obj[..j], SortPart(k, d), k, d);
    PrefixKeyFresh(obj, j);
    PutNew(obj[..j], k, d);
    PrefixExtend(obj, j);
  }

  /** Reading the written entries from position `j` on, after the first `j`, rebuilds the object. */
  lemma {:induction false} CollectReadsBack(m: Model, obj: OMap<int>, j: nat)
    requires PlainSort(m, obj) && j <= |obj| && SortEntries(m, obj[..j])
    ensures Collect(m, SortParts(obj)[j..], obj[..j]) == obj
    decreases |obj| - j
  {
    var parts := SortParts(obj);
    if j == |obj| {
      assert obj[..j] == obj;
      assert parts[j..] == [];
    } else {
      assert PlainSortKey(m, obj[j].0) && parts[j] == SortPart(obj[j].0, obj[j].1);
      StepReadsBack(m, obj, j);
      PrefixEntries(m, obj, j + 1);
      CollectReadsBack(m, obj, j + 1);
      assert parts[j..][1..] == parts[j + 1..];
    }
  }

  /** The written entries' text is a plain token that splits back into the entries. */
  lemma SortPartsText(m: Model, obj: OMap<int>)
    requires PlainSort(m, obj)
    ensures var t := Join(SortParts(obj), ",");
            && IsToken(t) && Split(t, ',') == SortParts(obj)
  {
    assert forall i | 0 <= i < |obj| :: PlainName(obj[i].0) by {
      forall i | 0 <= i < |obj| ensures PlainName(obj[i].0) {
        assert PlainSortKey(m, obj[i].0);
      }
    }
    PlainPartsText(obj);
  }

  /** Entries with plain names are written as a plain token that splits back into the parts. */
  lemma PlainPartsText(obj: OMap<int>)
    requires |obj| >= 1 && forall i | 0 <= i < |obj| :: PlainName(obj[i].0)
    ensures var t := Join(SortParts(obj), ",");
            && IsToken(t) && Split(t, ',') == SortParts(obj)
  {
    var parts := SortParts(obj);
    assert forall i | 0 <= i < |parts| :: ',' !in parts[i] && IsToken(parts[i]) by {
      forall i | 0 <= i < |parts| ensures ',' !in parts[i] && IsToken(parts[i]) {
        PlainPart(obj[i].0, obj[i].1);
      }
    }
    JoinEnds(parts, ",");
    SplitJoin(parts, ',');
  }

  /** An entry with a plain name is written as a token without a comma. */
  lemma PlainPart(k: string, d: int)
    requires PlainName(k)
    ensures ',' !in SortPart(k, d) && IsToken(SortPart(k, d))
  {
    var p := SortPart(k, d);
    assert p[|p| - 1] == k[|k| - 1];
  }

  /**
   * A request whose sort parameter is the written text of a plain sort
   * object resolves to that object again.
   */
  lemma SortReadsBack(req: Req, cfg: Settings, m: Model, obj: OMap<int>)
    requires PlainSort(m, obj)
    requires Param(req, SortName(cfg)) == Some(Join(SortParts(obj), ","))
    ensures ParseSort(req, cfg, m) == obj
  {
    var t := Join(SortParts(obj), ",");
    SortPartsText(m, obj);
    assert Trim(t) == t;
    assert SortSource(req, cfg, m) == t;
    assert obj[..0] == [];
    CollectReadsBack(m, obj, 0);
  }
}

=== FILE: strings.dfy ===
/**
 * The string primitives the query compiler is built from: JavaScript's
 * white-space trimming (`_.trim`), `String.prototype.split` on one
 * character, `Array.prototype.join`, ASCII lower-casing and character
 * removal.
 */
module Strings {
  import opened Wrappers

  /** JavaScript white space and line terminators: what `_.trim` and `parseInt` skip. */
  predicate IsSpace(c: char) {
    || c == ' ' || c == '\t' || c == '\n' || c == '\r' || c == '\U{000B}' || c == '\U{000C}'
    || c == '\U{00A0}' || c == '\U{1680}' || ('\U{2000}' <= c <= '\U{200A}')
    || c == '\U{2028}' || c == '\U{2029}' || c == '\U{202F}' || c == '\U{205F}'
    || c == '\U{3000}' || c == '\U{FEFF}'
  }

  /** No white space at either end. */
  predicate IsTrimmed(s: string) {
    s == [] || (!IsSpace(s[0]) && !IsSpace(s[|s| - 1]))
  }

  /** Drops leading white space. */
  function TrimStart(s: string): (r: string)
    ensures |r| <= |s| && r == s[|s| - |r|..]
    ensures r == [] || !IsSpace(r[0])
    ensures forall i | 0 <= i < |s| - |r| :: IsSpace(s[i])
    decreases |s|
  {
    if |s| > 0 && IsSpace(s[0]) then TrimStart(s[1..]) else s
  }

  /** Drops trailing white space. */
  function TrimEnd(s: string): (r: string)
    ensures |r| <= |s| && r == s[..|r|]
    ensures r == [] || !IsSpace(r[|r| - 1])
    ensures forall i | |r| <= i < |s| :: IsSpace(s[i])
    decreases |s|
  {
    if |s| > 0 && IsSpace(s[|s| - 1]) then TrimEnd(s[..|s| - 1]) else s
  }

  /** lodash `_.trim` on a string. */
  function Trim(s: string): (r: string)
    ensures |r| <= |s|
    ensures IsTrimmed(r)
    ensures IsTrimmed(s) ==> r == s
  {
    TrimEnd(TrimStart(s))
  }

  /** The JavaScript test `_.trim(s) != ''`, negated. */
  predicate IsBlank(s: string) {
    Trim(s) == []
  }

  /**
   * Trimming removes exactly a white-space prefix and a white-space suffix:
   * the result is the slice of `s` that starts where `TrimStart` leaves
   * off, and everything outside it is white space.
   */
  lemma TrimIsSlice(s: string)
    ensures |s| - |TrimStart(s)| + |Trim(s)| <= |s|
    ensures Trim(s) == s[|s| - |TrimStart(s)|..|s| - |TrimStart(s)| + |Trim(s)|]
    ensures forall k | 0 <= k < |s| - |TrimStart(s)| :: IsSpace(s[k])
    ensures forall k | |s| - |TrimStart(s)| + |Trim(s)| <= k < |s| :: IsSpace(s[k])
  {
    TrimSlice(s);
    TrimSuffixSpace(s);
  }

  lemma TrimSlice(s: string)
    ensures |s| - |TrimStart(s)| + |Trim(s)| <= |s|
    ensures Trim(s) == s[|s| - |TrimStart(s)|..|s| - |TrimStart(s)| + |Trim(s)|]
  {
    var t := TrimStart(s);
    assert Trim(s) == TrimEnd(t);
    PrefixOfSuffix(s, t, |s| - |t|, Trim(s));
  }

  /** A prefix `r` of a suffix `t` of `s` is a slice of `s`. */
  lemma PrefixOfSuffix(s: string, t: string, i: nat, r: string)
    requires i <= |s| && t == s[i..] && |r| <= |t| && r == t[..|r|]
    ensures i + |r| <= |s| && r == s[i..i + |r|]
  {
  }

  lemma TrimSuffixSpace(s: string)
    ensures forall k | |s| - |TrimStart(s)| + |Trim(s)| <= k < |s| :: IsSpace(s[k])
  {
    var t := TrimStart(s);
    assert Trim(s) == TrimEnd(t);
    SpaceAfterInSuffix(s, t, |s| - |t|, |Trim(s)|);
  }

  /** White space after position `n` of a suffix `t` of `s` is white space in `s`. */
  lemma SpaceAfterInSuffix(s: string, t: string, i: nat, n: nat)
    requires i <= |s| && t == s[i..] && n <= |t|
    requires forall m | n <= m < |t| :: IsSpace(t[m])
    ensures forall k | i + n <= k < |s| :: IsSpace(s[k])
  {
    forall k | i + n <= k < |s| ensures IsSpace(s[k]) {
      assert s[k] == t[k - i];
    }
  }

  /** A blank string is white space throughout. */
  lemma BlankIsAllSpace(s: string)
    ensures IsBlank(s) <==> forall k | 0 <= k < |s| :: IsSpace(s[k])
  {
    if IsBlank(s) {
      BlankOnlySpace(s);
    } else {
      NotBlankHasText(s);
    }
  }

  lemma BlankOnlySpace(s: string)
    requires IsBlank(s)
    ensures forall k | 0 <= k < |s| :: IsSpace(s[k])
  {
    TrimIsSlice(s);
  }

  lemma NotBlankHasText(s: string)
    requires !IsBlank(s)
    ensures exists k | 0 <= k < |s| :: !IsSpace(s[k])
  {
    var r := Trim(s);
    TrimIsSlice(s);
    var i := |s| - |TrimStart(s)|;
    assert s[i] == r[0];
  }

  /** Position of the first `c` in `s`. */
  function IndexOf(s: string, c: char): (r: Option<nat>)
    ensures r.Some? ==> r.value < |s| && s[r.value] == c && c !in s[..r.value]
    ensures r.None? <==> c !in s
  {
    if |s| == 0 then None
    else if s[0] == c then Some(0)
    else match IndexOf(s[1..], c)
      case None => None
      case Some(i) => Some(i + 1)
  }

  /** The first `c` is at `k` when `s[k]` is `c` and none comes before it. */
  lemma IndexOfIs(s: string, c: char, k: nat)
    requires k < |s| && s[k] == c && c !in s[..k]
    ensures IndexOf(s, c) == Some(k)
  {
    var r := IndexOf(s, c);
    assert r.Some? by {
      assert s[k] in s;
    }
    var j := r.value;
    assert forall m | 0 <= m < k :: s[..k][m] == s[m];
    assert forall m | 0 <= m < j :: s[..j][m] == s[m];
  }

  /** `s.split(c)` for a one-character separator: never empty, pieces free of `c`. */
  function Split(s: string, c: char): (r: seq<string>)
    ensures |r| >= 1
    ensures forall i | 0 <= i < |r| :: c !in r[i]
    decreases |s|
  {
    match IndexOf(s, c)
    case None => [s]
    case Some(i) => [s[..i]] + Split(s[i + 1..], c)
  }

  /** `xs.join(sep)`. */
  function Join(xs: seq<string>, sep: string): string
    decreases |xs|
  {
    if |xs| == 0 then ""
    else if |xs| == 1 then xs[0]
    else xs[0] + sep + Join(xs[1..], sep)
  }

  /** Splitting and joining again on the same character gives back the string. */
  lemma {:induction false} JoinSplit(s: string, c: char)
    ensures Join(Split(s, c), [c]) == s
    decreases |s|
  {
    match IndexOf(s, c)
    case None =>
    case Some(i) =>
      var rest := Split(s[i + 1..], c);
      JoinSplit(s[i + 1..], c);
      assert Split(s, c) == [s[..i]] + rest;
      assert s == s[..i] + [c] + s[i + 1..];
  }

  /** Joining pieces free of `c` and splitting again gives back the pieces. */
  lemma {:induction false} SplitJoin(xs: seq<string>, c: char)
    requires |xs| >= 1
    requires forall i | 0 <= i < |xs| :: c !in xs[i]
    ensures Split(Join(xs, [c]), c) == xs
    decreases |xs|
  {
    if |xs| > 1 {
      var k := |xs[0]|;
      var tail := Join(xs[1..], [c]);
      var s := xs[0] + [c] + tail;
      assert Join(xs, [c]) == s;
      assert s[..k] == xs[0];
      assert s[k + 1..] == tail;
      IndexOfIs(s, c, k);
      assert Split(s, c) == [xs[0]] + Split(tail, c);
      SplitJoin(xs[1..], c);
      assert xs == [xs[0]] + xs[1..];
    }
  }

  /** A character outside the pieces and the separator is outside the joined string. */
  lemma {:induction false} NotInJoin(xs: seq<string>, sep: string, c: char)
    requires c !in sep
    requires forall i | 0 <= i < |xs| :: c !in xs[i]
    ensures c !in Join(xs, sep)
    decreases |xs|
  {
    if |xs| > 1 {
      NotInJoin(xs[1..], sep, c);
    }
  }

  /** A join starts with the first piece and ends with the last one. */
  lemma {:induction false} JoinEnds(xs: seq<string>, sep: string)
    requires |xs| >= 1 && forall i | 0 <= i < |xs| :: xs[i] != []
    ensures |Join(xs, sep)| >= 1
    ensures Join(xs, sep)[0] == xs[0][0]
    ensures Join(xs, sep)[|Join(xs, sep)| - 1] == xs[|xs| - 1][|xs[|xs| - 1]| - 1]
    decreases |xs|
  {
    if |xs| > 1 {
      var tail := Join(xs[1..], sep);
      JoinEnds(xs[1..], sep);
      assert Join(xs, sep) == xs[0] + sep + tail;
    }
  }

  /** Joining two or more pieces puts the separator in. */
  lemma JoinHasSeparator(xs: seq<string>, c: char)
    requires |xs| >= 2
    ensures c in Join(xs, [c])
  {
    assert Join(xs, [c]) == xs[0] + [c] + Join(xs[1..], [c]);
    assert Join(xs, [c])[|xs[0]|] == c;
  }

  /** Lower-cases ASCII letters and leaves everything else alone. */
  function LowerChar(c: char): char {
    if 'A' <= c <= 'Z' then (c as int - 'A' as int + 'a' as int) as char else c
  }

  /** `s.toLocaleLowerCase()`, restricted to the ASCII letters that matter here. */
  function Lower(s: string): (r: string)
    ensures |r| == |s|
    ensures forall i | 0 <= i < |s| :: r[i] == LowerChar(s[i])
  {
    seq(|s|, i requires 0 <= i < |s| => LowerChar(s[i]))
  }

  /** `s.toLowerCase() == w`, compared one character at a time. */
  predicate LowersTo(s: string, w: string)
    decreases |s|
  {
    |s| == |w| && (|s| == 0 || (LowerChar(s[0]) == w[0] && LowersTo(s[1..], w[1..])))
  }

  /** The character-wise comparison agrees with lower-casing the whole string. */
  lemma {:induction false} LowersToLower(s: string, w: string)
    ensures LowersTo(s, w) <==> Lower(s) == w
    decreases |s|
  {
    if |s| > 0 && |s| == |w| {
      LowersToLower(s[1..], w[1..]);
      assert Lower(s) == [LowerChar(s[0])] + Lower(s[1..]);
      if Lower(s) == w {
        assert w == [w[0]] + w[1..];
      }
    }
  }

  /** A character other than a letter that the lower-cased text lacks is absent from the text. */
  lemma {:induction false} LowersToExcludes(s: string, w: string, c: char)
    requires LowersTo(s, w) && c !in w && !('A' <= c <= 'Z')
    ensures c !in s
    decreases |s|
  {
    if |s| > 0 {
      LowersToExcludes(s[1..], w[1..], c);
    }
  }

  /** `s.replace(/[...]/g, '')` for a set of characters. */
  function RemoveChars(s: string, cs: set<char>): (r: string)
    ensures forall c :: c in r <==> c in s && c !in cs
    ensures |r| <= |s|
  {
    if |s| == 0 then ""
    else (if s[0] in cs then "" else [s[0]]) + RemoveChars(s[1..], cs)
  }

  /** Removing characters the text does not hold leaves it as it is. */
  lemma {:induction false} RemoveAbsentChars(s: string, cs: set<char>)
    requires forall i | 0 <= i < |s| :: s[i] !in cs
    ensures RemoveChars(s, cs) == s
    decreases |s|
  {
    if |s| > 0 {
      RemoveAbsentChars(s[1..], cs);
      assert s == [s[0]] + s[1..];
    }
  }
}

=== FILE: uri_encoding.dfy ===
/**
 * `encodeURIComponent` on the values the serialisers emit, and its
 * inverse `decodeURIComponent`: every character outside the unreserved set
 * `A-Z a-z 0-9 - _ . ! ~ * ' ( )` becomes the `%XX` escapes (upper-case
 * hex) of its UTF-8 bytes.
 */
module UriEncoding {
  import opened Wrappers

  /** The characters `encodeURIComponent` leaves alone. */
  predicate IsUnreserved(c: char) {
    || ('A' <= c <= 'Z') || ('a' <= c <= 'z') || ('0' <= c <= '9')
    || c == '-' || c == '_' || c == '.' || c == '!' || c == '~' || c == '*'
    || c == '\'' || c == '(' || c == ')'
  }

  function HexDigit(d: nat): (c: char)
    requires d < 16
    ensures ('0' <= c <= '9') || ('A' <= c <= 'F')
  {
    if d < 10 then ('0' as int + d) as char else ('A' as int + d - 10) as char
  }

  /** The value of a hexadecimal digit of either case. */
  function HexValue(c: char): (r: Option<nat>)
    ensures r.Some? ==> r.value < 16
  {
    if '0' <= c <= '9' then Some(c as int - '0' as int)
    else if 'A' <= c <= 'F' then Some(c as int - 'A' as int + 10)
    else if 'a' <= c <= 'f' then Some(c as int - 'a' as int + 10)
    else None
  }

  lemma HexRoundTrip(d: nat)
    requires d < 16
    ensures HexValue(HexDigit(d)) == Some(d)
  {
  }

  /** One byte as `%XX`. */
  function Escape(b: nat): (r: string)
    requires b < 256
    ensures |r| == 3 && r[0] == '%'
    ensures IsUnreserved(r[1]) && IsUnreserved(r[2])
  {
    ['%', HexDigit(b / 16), HexDigit(b % 16)]
  }

  /** The UTF-8 bytes of a character. */
  function Utf8(c: char): (bs: seq<nat>)
    ensures 1 <= |bs| <= 4
    ensures forall i | 0 <= i < |bs| :: bs[i] < 256
  {
    var n := c as int;
    if n < 0x80 then [n]
    else if n < 0x800 then [0xC0 + n / 64, 0x80 + n % 64]
    else if n < 0x10000 then [0xE0 + n / 4096, 0x80 + (n / 64) % 64, 0x80 + n % 64]
    else [0xF0 + n / 262144, 0x80 + (n / 4096) % 64, 0x80 + (n / 64) % 64, 0x80 + n % 64]
  }

  function EscapeAll(bs: seq<nat>): (r: string)
    requires forall i | 0 <= i < |bs| :: bs[i] < 256
    ensures |r| == 3 * |bs|
    ensures forall i | 0 <= i < |r| :: IsUnreserved(r[i]) || r[i] == '%'
  {
    if |bs| == 0 then "" else Escape(bs[0]) + EscapeAll(bs[1..])
  }

  function EncodeChar(c: char): (r: string)
    ensures IsUnreserved(c) ==> r == [c]
    ensures !IsUnreserved(c) ==> |r| >= 3 && r[0] == '%'
    ensures forall i | 0 <= i < |r| :: IsUnreserved(r[i]) || r[i] == '%'
  {
    if IsUnreserved(c) then [c] else EscapeAll(Utf8(c))
  }

  /** `encodeURIComponent(s)`. */
  function Encode(s: string): (r: string)
    ensures forall i | 0 <= i < |r| :: IsUnreserved(r[i]) || r[i] == '%'
    decreases |s|
  {
    if |s| == 0 then "" else EncodeChar(s[0]) + Encode(s[1..])
  }

  /** Encoded text never holds the query-string separators `&` and `=`. */
  lemma EncodeHasNoSeparators(s: string)
    ensures '&' !in Encode(s) && '=' !in Encode(s)
  {
    var r := Encode(s);
    assert forall i | 0 <= i < |r| :: r[i] != '&' && r[i] != '=';
  }

  /** Reads `k` escapes `%XX` from the start of `s`. */
  function Bytes(s: string, k: nat): (r: Option<seq<nat>>)
    ensures r.Some? ==> |r.value| == k && 3 * k <= |s|
    ensures r.Some? ==> forall i | 0 <= i < k :: r.value[i] < 256
    decreases k
  {
    if k == 0 then Some([])
    else if |s| >= 3 && s[0] == '%' && HexValue(s[1]).Some? && HexValue(s[2]).Some? then
      var b := HexValue(s[1]).value * 16 + HexValue(s[2]).value;
      match Bytes(s[3..], k - 1)
      case None => None
      case Some(rest) => Some([b] + rest)
    else None
  }

  /** How many bytes a UTF-8 sequence starting with `b` has; 0 for a byte that cannot start one. */
  function SequenceLength(b: nat): (n: nat)
    ensures n <= 4
  {
    if b < 0x80 then 1
    else if 0xC0 <= b < 0xE0 then 2
    else if 0xE0 <= b < 0xF0 then 3
    else if 0xF0 <= b < 0xF8 then 4
    else 0
  }

  predicate IsContinuation(b: nat) {
    0x80 <= b < 0xC0
  }

  /** The character a well-formed, shortest-form UTF-8 sequence denotes. */
  function CodePoint(bs: seq<nat>): Option<char> {
    if |bs| == 0 then None
    else if |bs| == 1 then
      if bs[0] < 0x80 then Some(bs[0] as char) else None
    else if |bs| == 2 then
      if 0xC0 <= bs[0] < 0xE0 && IsContinuation(bs[1]) then
        var n := (bs[0] - 0xC0) * 64 + (bs[1] - 0x80);
        if n >= 0x80 then Some(n as char) else None
      else None
    else if |bs| == 3 then
      if 0xE0 <= bs[0] < 0xF0 && IsContinuation(bs[1]) && IsContinuation(bs[2]) then
        var n := (bs[0] - 0xE0) * 4096 + (bs[1] - 0x80) * 64 + (bs[2] - 0x80);
        if n >= 0x800 && !(0xD800 <= n < 0xE000) then Some(n as char) else None
      else None
    else if |bs| == 4 then
      if 0xF0 <= bs[0] < 0xF8 && IsContinuation(bs[1]) && IsContinuation(bs[2]) && IsContinuation(bs[3]) then
        var n := (bs[0] - 0xF0) * 262144 + (bs[1] - 0x80) * 4096 + (bs[2] - 0x80) * 64 + (bs[3] - 0x80);
        if 0x10000 <= n <= 0x10FFFF then Some(n as char) else None
      else None
    else None
  }

  /** `decodeURIComponent(s)`; None where it throws a URIError. */
  function Decode(s: string): (r: Option<string>)
    decreases |s|
  {
    if |s| == 0 then Some("")
    else if s[0] != '%' then
      match Decode(s[1..])
      case None => None
      case Some(rest) => Some([s[0]] + rest)
    else
      match Bytes(s, 1)
      case None => None
      case Some(lead) =>
        var n := SequenceLength(lead[0]);
        if n == 0 then None
        else
          match Bytes(s, n)
          case None => None
          case Some(bs) =>
            match CodePoint(bs)
            case None => None
            case Some(c) =>
              match Decode(s[3 * n..])
              case None => None
              case Some(rest) => Some([c] + rest)
  }

  /** Two-byte characters decode back. */
  lemma CodePointOfTwo(c: char)
    requires 0x80 <= c as int < 0x800
    ensures SequenceLength(Utf8(c)[0]) == 2 && CodePoint(Utf8(c)) == Some(c)
  {
    var n := c as int;
    assert (n / 64) * 64 + n % 64 == n;
  }

  /** Three-byte characters decode back. */
  lemma CodePointOfThree(c: char)
    requires 0x800 <= c as int < 0x10000
    ensures SequenceLength(Utf8(c)[0]) == 3 && CodePoint(Utf8(c)) == Some(c)
  {
    var n := c as int;
    assert (n / 4096) * 4096 + ((n / 64) % 64) * 64 + n % 64 == n;
  }

  /** Four-byte characters decode back. */
  lemma CodePointOfFour(c: char)
    requires 0x10000 <= c as int
    ensures SequenceLength(Utf8(c)[0]) == 4 && CodePoint(Utf8(c)) == Some(c)
  {
    var n := c as int;
    var u := Utf8(c);
    assert u == [0xF0 + n / 262144, 0x80 + (n / 4096) % 64, 0x80 + (n / 64) % 64, 0x80 + n % 64];
    SixBitDigits(n);
    assert (u[0] - 0xF0) * 262144 + (u[1] - 0x80) * 4096 + (u[2] - 0x80) * 64 + (u[3] - 0x80) == n;
  }

  /** A number's base-64 digits, most significant first, add back up to it. */
  lemma SixBitDigits(n: nat)
    ensures (n / 262144) * 262144 + ((n / 4096) % 64) * 4096 + ((n / 64) % 64) * 64 + n % 64 == n
  {
    assert n == (n / 64) * 64 + n % 64;
    assert (n / 64) / 64 == n / 4096;
    assert n / 64 == (n / 4096) * 64 + (n / 64) % 64;
    assert (n / 4096) / 64 == n / 262144;
    assert n / 4096 == (n / 262144) * 64 + (n / 4096) % 64;
  }

  /** A character's UTF-8 bytes decode back to it. */
  lemma CodePointOfUtf8(c: char)
    ensures SequenceLength(Utf8(c)[0]) == |Utf8(c)|
    ensures CodePoint(Utf8(c)) == Some(c)
  {
    var n := c as int;
    if n < 0x80 {
    } else if n < 0x800 {
      CodePointOfTwo(c);
    } else if n < 0x10000 {
      CodePointOfThree(c);
    } else {
      CodePointOfFour(c);
    }
  }

  /** The escapes of a byte sequence read back as those bytes, whatever follows. */
  lemma {:induction false} BytesOfEscapes(bs: seq<nat>, rest: string, k: nat)
    requires forall i | 0 <= i < |bs| :: bs[i] < 256
    requires k <= |bs|
    ensures Bytes(EscapeAll(bs) + rest, k) == Some(bs[..k])
    decreases k
  {
    if k > 0 {
      var b := bs[0];
      var tail := EscapeAll(bs[1..]) + rest;
      var s := EscapeAll(bs) + rest;
      assert s == Escape(b) + tail;
      HexRoundTrip(b / 16);
      HexRoundTrip(b % 16);
      assert s[1] == HexDigit(b / 16) && s[2] == HexDigit(b % 16);
      assert s[3..] == tail;
      BytesOfEscapes(bs[1..], rest, k - 1);
      assert bs[..k] == [b] + bs[1..][..k - 1];
    }
  }

  /** Decoding an encoded character consumes exactly it. */
  lemma DecodeEncodeChar(c: char, rest: string)
    ensures Decode(EncodeChar(c) + rest) == match Decode(rest) case None => None case Some(t) => Some([c] + t)
  {
    var s := EncodeChar(c) + rest;
    if IsUnreserved(c) {
      assert s[1..] == rest;
    } else {
      var bs := Utf8(c);
      CodePointOfUtf8(c);
      BytesOfEscapes(bs, rest, 1);
      BytesOfEscapes(bs, rest, |bs|);
      assert bs[..|bs|] == bs;
      assert s[3 * |bs|..] == rest;
    }
  }

  /** `decodeURIComponent(encodeURIComponent(s)) == s`. */
  lemma {:induction false} DecodeEncode(s: string)
    ensures Decode(Encode(s)) == Some(s)
    decreases |s|
  {
    if |s| > 0 {
      DecodeEncode(s[1..]);
      DecodeEncodeChar(s[0], Encode(s[1..]));
      assert Encode(s) == EncodeChar(s[0]) + Encode(s[1..]);
      assert s == [s[0]] + s[1..];
    }
  }

  /** Text made of unreserved characters is left as it is. */
  lemma {:induction false} EncodeUnreserved(s: string)
    requires forall i | 0 <= i < |s| :: IsUnreserved(s[i])
    ensures Encode(s) == s
  {
    if |s| > 0 {
      EncodeUnreserved(s[1..]);
    }
  }
}

=== FILE: where_clause.dfy ===
/**
 * `parseCriteria` at the level of the whole request: the blacklist of
 * reserved parameter names, the filter parameters without them, the merge
 * with the route's `where` and the primary-key entry, admission of model
 * columns only, and compilation of every admitted value.
 */
module WhereClause {
  import opened Wrappers
  import opened Strings
  import opened OrderedMap
  import opened Config
  import opened Schema
  import opened Request
  import opened Criteria

  /** The parameter names the compiler reads itself, in the order it adds them after the route's list. */
  function Reserved(req: Req, cfg: Settings, m: Model): (r: seq<string>)
    ensures HasPk(m) ==> PkKey(m) in r
    ensures PrettyRequested(req, cfg) ==> PrettyName(cfg) in r
    ensures EnvelopeName(cfg) in r
    ensures JsonpSupported(req, cfg) ==> JsonpName(cfg) in r
    ensures PageName(cfg) in r && LimitName(cfg) in r && PopulateName(cfg) in r
    ensures PopulateLimitName(cfg) in r && SortName(cfg) in r && FieldsName(cfg) in r
    ensures forall b | b in r ::
              || (HasPk(m) && b == PkKey(m))
              || (PrettyRequested(req, cfg) && b == PrettyName(cfg))
              || b == EnvelopeName(cfg)
              || (JsonpSupported(req, cfg) && b == JsonpName(cfg))
              || b in [PageName(cfg), LimitName(cfg), PopulateName(cfg), PopulateLimitName(cfg), SortName(cfg), FieldsName(cfg)]
  {
    Assemble(HasPk(m), PkKey(m), PrettyRequested(req, cfg), PrettyName(cfg), EnvelopeName(cfg),
             JsonpSupported(req, cfg), JsonpName(cfg),
             [PageName(cfg), LimitName(cfg), PopulateName(cfg), PopulateLimitName(cfg), SortName(cfg), FieldsName(cfg)])
  }

  /** The reserved names in the source's order: the optional ones in their cases, the envelope, then the paging names. */
  function Assemble(hasPk: bool, pk: string, pretty: bool, prettyName: string, envelope: string,
                    jsonp: bool, jsonpName: string, paging: seq<string>): (r: seq<string>)
    ensures hasPk ==> pk in r
    ensures pretty ==> prettyName in r
    ensures envelope in r
    ensures jsonp ==> jsonpName in r
    ensures forall b | b in paging :: b in r
    ensures forall b | b in r :: (hasPk && b == pk) || (pretty && b == prettyName) || b == envelope || (jsonp && b == jsonpName) || b in paging
  {
    (if hasPk then [pk] else []) + (if pretty then [prettyName] else []) + [envelope]
      + (if jsonp then [jsonpName] else []) + paging
  }

  /**
   * The blacklist: the route's list (default `['id']` when it is falsy; any
   * other non-array raises) followed by the reserved names.
   */
  function Blacklist(req: Req, cfg: Settings, m: Model): (r: Result<seq<string>, ApiError>)
    ensures r.Failure? <==> Truthy(req.options.criteriaBlacklist) && !req.options.criteriaBlacklist.JArr?
    ensures r.Failure? ==> r.error == InvalidBlacklist
    ensures r.Success? && !Truthy(req.options.criteriaBlacklist) ==> "id" in r.value
    ensures r.Success? && req.options.criteriaBlacklist.JArr? ==>
              forall b | b in req.options.criteriaBlacklist.items :: b in r.value
    ensures r.Success? ==> forall b | b in Reserved(req, cfg, m) :: b in r.value
    ensures r.Success? ==> forall b | b in r.value ::
              || b in Reserved(req, cfg, m)
              || (req.options.criteriaBlacklist.JArr? && b in req.options.criteriaBlacklist.items)
              || (!Truthy(req.options.criteriaBlacklist) && b == "id")
  {
    var route := req.options.criteriaBlacklist;
    var reserved := Reserved(req, cfg, m);
    if route.JArr? then
      var r := route.items + reserved;
      assert Truthy(route);
      assert forall b | b in route.items :: b in r;
      assert forall b | b in reserved :: b in r;
      Success(r)
    else if Truthy(route) then Failure(InvalidBlacklist)
    else
      var r := ["id"] + reserved;
      assert r[0] == "id";
      assert forall b | b in reserved :: b in r;
      Success(r)
  }

  /** `_.merge` of string-valued objects, source keys from position `i` on. */
  function MergeFrom(acc: OMap<string>, src: OMap<string>, i: nat): (r: OMap<string>)
    requires i <= |src|
    decreases |src| - i
  {
    if i == |src| then acc
    else
      var k := src[i].0;
      assert k in Keys(src);
      MergeFrom(Put(acc, k, Get(src, k).value), src, i + 1)
  }

  /** `_.merge(acc, src)`. */
  function Merge(acc: OMap<string>, src: OMap<string>): OMap<string> {
    MergeFrom(acc, src, 0)
  }

  lemma {:induction false} MergeFromGet(acc: OMap<string>, src: OMap<string>, i: nat, k: string, base: Option<string>)
    requires i <= |src|
    requires Get(acc, k) == if k in Keys(src[..i]) then Get(src, k) else base
    ensures Get(MergeFrom(acc, src, i), k) == if k in Keys(src) then Get(src, k) else base
    decreases |src| - i
  {
    if i == |src| {
      assert src[..i] == src;
    } else {
      var p := src[i].0;
      assert p in Keys(src);
      assert Keys(src[..i + 1]) == Keys(src[..i]) + [p];
      PutGet(acc, p, Get(src, p).value, k);
      MergeFromGet(Put(acc, p, Get(src, p).value), src, i + 1, k, base);
    }
  }

  /** After merging, a key reads as the source's value when the source has it, else as before. */
  lemma MergeGet(acc: OMap<string>, src: OMap<string>, k: string)
    ensures Get(Merge(acc, src), k) == if k in Keys(src) then Get(src, k) else Get(acc, k)
  {
    assert src[..0] == [];
    MergeFromGet(acc, src, 0, k, Get(acc, k));
  }

  /** The primary-key criterion: present only when the model has a primary key and the request gives one. */
  function PkEntry(req: Req, m: Model): (r: OMap<string>)
    ensures |r| <= 1
    ensures |r| == 1 <==> HasPk(m) && ParsePk(req, m).Some?
    ensures |r| == 1 ==> r[0] == (PkKey(m), ParsePk(req, m).value)
  {
    if HasPk(m) && ParsePk(req, m).Some? then [(PkKey(m), ParsePk(req, m).value)] else []
  }

  /**
   * What the merge reads under a name: a filter parameter that is not
   * blacklisted, else the primary-key criterion, else the route's `where`.
   */
  function MergedValue(req: Req, m: Model, blacklist: seq<string>, k: string): Option<string> {
    if k !in blacklist && FilterValue(req, k).Some? then FilterValue(req, k)
    else if HasPk(m) && ParsePk(req, m).Some? && k == PkKey(m) then ParsePk(req, m)
    else Get(req.options.where, k)
  }

  /** The three merges read each name by `MergedValue`'s precedence. */
  lemma MergeChainGet(req: Req, m: Model, blacklist: seq<string>, k: string)
    ensures Get(Merge(Merge(Merge([], req.options.where), PkEntry(req, m)), Omit(FilterParams(req), set b | b in blacklist)), k)
              == MergedValue(req, m, blacklist, k)
  {
    var filtered := Omit(FilterParams(req), set b | b in blacklist);
    var w := Merge([], req.options.where);
    var pk := PkEntry(req, m);
    MergeGet([], req.options.where, k);
    assert Get(w, k) == Get(req.options.where, k);
    MergeGet(w, pk, k);
    PkEntryGet(req, m, k);
    MergeGet(Merge(w, pk), filtered, k);
    assert Get(filtered, k) == if k in blacklist then None else FilterValue(req, k);
  }

  /** The primary-key criterion reads the `parsePk` value under the primary key, and nothing under any other name. */
  lemma PkEntryGet(req: Req, m: Model, k: string)
    ensures Get(PkEntry(req, m), k) == if HasPk(m) && ParsePk(req, m).Some? && k == PkKey(m) then ParsePk(req, m) else None
  {
    var pk := PkEntry(req, m);
    if |pk| == 1 {
      assert pk[1..] == [];
    }
  }

  /** The filter parameters without the blacklisted names, merged over the route's `where` and the primary key. */
  function Merged(req: Req, m: Model, blacklist: seq<string>): (r: OMap<string>)
    ensures forall k :: Get(r, k) == MergedValue(req, m, blacklist, k)
  {
    var filtered := Omit(FilterParams(req), set b | b in blacklist);
    var r := Merge(Merge(Merge([], req.options.where), PkEntry(req, m)), filtered);
    assert forall k :: Get(r, k) == MergedValue(req, m, blacklist, k) by {
      forall k ensures Get(r, k) == MergedValue(req, m, blacklist, k) {
        MergeChainGet(req, m, blacklist, k);
      }
    }
    r
  }

  /** A blacklisted name is never taken from the request's parameters. */
  lemma BlacklistedNotFromRequest(req: Req, m: Model, blacklist: seq<string>, b: string)
    requires b in blacklist
    ensures Get(Merged(req, m, blacklist), b) == Get(Merge(Merge([], req.options.where), PkEntry(req, m)), b)
  {
    var filtered := Omit(FilterParams(req), set b | b in blacklist);
    MergeGet(Merge(Merge([], req.options.where), PkEntry(req, m)), filtered, b);
  }

  /**
   * The primary-key entry comes from `parsePk` alone: with a primary key
   * on the blacklist, its entry is the parsed value when there is one and
   * the route's `where` entry otherwise.
   */
  lemma PkEntryFromParsePk(req: Req, m: Model, blacklist: seq<string>)
    requires HasPk(m) && PkKey(m) in blacklist
    ensures ParsePk(req, m).Some? ==> Get(Merged(req, m, blacklist), PkKey(m)) == ParsePk(req, m)
    ensures ParsePk(req, m).None? ==> Get(Merged(req, m, blacklist), PkKey(m)) == Get(req.options.where, PkKey(m))
  {
    var k := PkKey(m);
    var w := Merge([], req.options.where);
    BlacklistedNotFromRequest(req, m, blacklist, k);
    MergeGet(w, PkEntry(req, m), k);
    MergeGet([], req.options.where, k);
    if ParsePk(req, m).Some? {
      assert Keys(PkEntry(req, m)) == [k];
    } else {
      assert Keys(PkEntry(req, m)) == [];
    }
  }

  /** Admission from position `i` on: a column name enters, trimmed, with the value read under its trimmed name. */
  function AdmitFrom(m: Model, where: OMap<string>, acc: OMap<Option<string>>, i: nat): OMap<Option<string>>
    requires i <= |where|
    decreases |where| - i
  {
    if i == |where| then acc else AdmitFrom(m, where, AdmitStep(m, where, acc, i), i + 1)
  }

  /** One step of admission: the name at position `i` enters, trimmed, when it is a column. */
  function AdmitStep(m: Model, where: OMap<string>, acc: OMap<Option<string>>, i: nat): OMap<Option<string>>
    requires i < |where|
  {
    var name := where[i].0;
    if IsColumn(m, name) then Put(acc, Trim(name), Get(where, Trim(name))) else acc
  }

  /** A step keeps every admitted key and adds the trimmed column name it reads. */
  lemma AdmitStepKeys(m: Model, where: OMap<string>, acc: OMap<Option<string>>, i: nat)
    requires i < |where|
    ensures forall k | k in Keys(acc) :: k in Keys(AdmitStep(m, where, acc, i))
    ensures IsColumn(m, where[i].0) ==> Trim(where[i].0) in Keys(AdmitStep(m, where, acc, i))
  {
  }

  /**
   * Keeps only criteria on model columns: every key is the trimmed name of
   * a non-collection attribute named in `where`, with the value read under
   * that key, no key twice, and every such column is kept.
   */
  function Admit(m: Model, where: OMap<string>): (r: OMap<Option<string>>)
    ensures AdmittedFrom(m, where, r)
    ensures forall n | n in Keys(where) && IsColumn(m, n) :: Trim(n) in Keys(r)
  {
    AdmitFromExactly(m, where);
    AdmitFrom(m, where, [], 0)
  }

  /** Every admitted key is the trimmed name of a column present in `where`, read under that key. */
  predicate AdmittedFrom(m: Model, where: OMap<string>, acc: OMap<Option<string>>) {
    && WellFormed(acc)
    && (forall j | 0 <= j < |acc| ::
          (exists n | n in Keys(where) :: Trim(n) == acc[j].0 && IsColumn(m, n))
          && acc[j].1 == Get(where, acc[j].0))
  }

  lemma {:induction false} AdmitFromSound(m: Model, where: OMap<string>, acc: OMap<Option<string>>, i: nat)
    requires i <= |where|
    requires AdmittedFrom(m, where, acc)
    ensures AdmittedFrom(m, where, AdmitFrom(m, where, acc, i))
    decreases |where| - i
  {
    if i < |where| {
      var name := where[i].0;
      assert name in Keys(where);
      if IsColumn(m, name) {
        var k := Trim(name);
        var v := Get(where, k);
        var acc' := Put(acc, k, v);
        PutWellFormed(acc, k, v);
        forall j | 0 <= j < |acc'|
          ensures (exists n | n in Keys(where) :: Trim(n) == acc'[j].0 && IsColumn(m, n))
                  && acc'[j].1 == Get(where, acc'[j].0)
        {
          var kj := acc'[j].0;
          assert kj == Keys(acc')[j];
          assert kj in Keys(acc');
          PutGet(acc, k, v, kj);
          if kj != k {
            assert kj in Keys(acc);
            var j' :| 0 <= j' < |acc| && acc[j'].0 == kj;
            assert Get(acc, kj) == Some(acc[j'].1) by {
              GetOfWellFormed(acc, j');
            }
          }
          GetOfWellFormed(acc', j);
        }
        AdmitFromSound(m, where, acc', i + 1);
      } else {
        AdmitFromSound(m, where, acc, i + 1);
      }
    }
  }

  /** Every column named in `where` is admitted under its trimmed name. */
  lemma {:induction false} AdmitFromComplete(m: Model, where: OMap<string>, acc: OMap<Option<string>>, i: nat, n: string)
    requires i <= |where|
    requires n in Keys(where) && IsColumn(m, n)
    requires n in Keys(where[..i]) ==> Trim(n) in Keys(acc)
    ensures Trim(n) in Keys(AdmitFrom(m, where, acc, i))
    decreases |where| - i
  {
    if i == |where| {
      assert where[..i] == where;
    } else {
      assert Keys(where[..i + 1]) == Keys(where[..i]) + [where[i].0];
      AdmitStepKeys(m, where, acc, i);
      AdmitFromComplete(m, where, AdmitStep(m, where, acc, i), i + 1, n);
    }
  }

  /**
   * Admission keeps exactly the model's columns: every key is the trimmed
   * name of a non-collection attribute named in `where`, with the value
   * read under that key, and every such column is kept.
   */
  lemma AdmitFromExactly(m: Model, where: OMap<string>)
    ensures AdmittedFrom(m, where, AdmitFrom(m, where, [], 0))
    ensures forall n | n in Keys(where) && IsColumn(m, n) :: Trim(n) in Keys(AdmitFrom(m, where, [], 0))
  {
    AdmitFromSound(m, where, [], 0);
    forall n | n in Keys(where) && IsColumn(m, n) ensures Trim(n) in Keys(AdmitFrom(m, where, [], 0)) {
      assert where[..0] == [];
      AdmitFromComplete(m, where, [], 0, n);
    }
  }

  /** Compiles one admitted value; the attribute's declared type decides whether it is a date. */
  function CompileEntry(m: Model, tryDate: string -> Option<int>): (string, Option<string>) -> Result<Criterion, ApiError> {
    (k: string, v: Option<string>) => CompileValue(v.GetOr(""), IsDateAttribute(m, k), tryDate)
  }

  /** Compiles every admitted value in order; the first failure is raised. */
  function CompileAll(m: Model, adm: OMap<Option<string>>, tryDate: string -> Option<int>): (r: Result<OMap<Criterion>, ApiError>)
    ensures r.Success? ==> Keys(r.value) == Keys(adm)
    ensures r.Success? ==> forall j | 0 <= j < |adm| ::
              CompileValue(adm[j].1.GetOr(""), IsDateAttribute(m, adm[j].0), tryDate) == Success(r.value[j].1)
    ensures r.Failure? ==> exists j | 0 <= j < |adm| ::
              && CompileValue(adm[j].1.GetOr(""), IsDateAttribute(m, adm[j].0), tryDate) == Failure(r.error)
              && forall i | 0 <= i < j :: CompileValue(adm[i].1.GetOr(""), IsDateAttribute(m, adm[i].0), tryDate).Success?
    ensures r.Failure? ==> r.error == HelperServiceUndefined || r.error == BetweenOnNull
  {
    TryMapValues(adm, CompileEntry(m, tryDate))
  }

  /** The criterion the merged value under `k` compiles to. */
  function CompiledAt(m: Model, where: OMap<string>, k: string, tryDate: string -> Option<int>): Result<Criterion, ApiError> {
    CompileValue(Get(where, k).GetOr(""), IsDateAttribute(m, k), tryDate)
  }

  /**
   * Compiling the admitted criteria succeeds exactly when the value under
   * every column named in `where` compiles; it then holds every such column
   * under its trimmed name, and a failure is one of those columns' errors.
   */
  lemma CompileAdmitted(m: Model, where: OMap<string>, tryDate: string -> Option<int>)
    ensures var r := CompileAll(m, Admit(m, where), tryDate);
            r.Success? <==> forall n | n in Keys(where) && IsColumn(m, n) :: CompiledAt(m, where, Trim(n), tryDate).Success?
    ensures var r := CompileAll(m, Admit(m, where), tryDate);
            r.Success? ==> forall n | n in Keys(where) && IsColumn(m, n) :: Trim(n) in Keys(r.value)
    ensures var r := CompileAll(m, Admit(m, where), tryDate);
            r.Failure? ==> exists n | n in Keys(where) && IsColumn(m, n) :: CompiledAt(m, where, Trim(n), tryDate) == Failure(r.error)
  {
    var r := CompileAll(m, Admit(m, where), tryDate);
    if r.Success? {
      AdmittedCompile(m, where, tryDate);
    } else {
      CompileFailsAt(m, where, tryDate);
    }
  }

  /** When the admitted criteria compile, the value under every column compiles. */
  lemma AdmittedCompile(m: Model, where: OMap<string>, tryDate: string -> Option<int>)
    requires CompileAll(m, Admit(m, where), tryDate).Success?
    ensures forall n | n in Keys(where) && IsColumn(m, n) :: CompiledAt(m, where, Trim(n), tryDate).Success?
  {
    var adm := Admit(m, where);
    forall n | n in Keys(where) && IsColumn(m, n) ensures CompiledAt(m, where, Trim(n), tryDate).Success? {
      var j :| 0 <= j < |adm| && Keys(adm)[j] == Trim(n);
      assert adm[j].1 == Get(where, adm[j].0);
    }
  }

  /** A failure of the admitted criteria is the failure of the value under some column. */
  lemma CompileFailsAt(m: Model, where: OMap<string>, tryDate: string -> Option<int>)
    requires CompileAll(m, Admit(m, where), tryDate).Failure?
    ensures exists n | n in Keys(where) && IsColumn(m, n) ::
              CompiledAt(m, where, Trim(n), tryDate) == Failure(CompileAll(m, Admit(m, where), tryDate).error)
  {
    var adm := Admit(m, where);
    var e := CompileAll(m, adm, tryDate).error;
    var j :| 0 <= j < |adm| && CompileValue(adm[j].1.GetOr(""), IsDateAttribute(m, adm[j].0), tryDate) == Failure(e);
    var n := AdmittedEntry(m, where, adm, j);
    assert CompiledAt(m, where, Trim(n), tryDate) == Failure(e);
  }

  /** An admitted entry names a column of `where` and holds the value read under its key. */
  lemma AdmittedEntry(m: Model, where: OMap<string>, adm: OMap<Option<string>>, j: nat) returns (n: string)
    requires AdmittedFrom(m, where, adm) && j < |adm|
    ensures n in Keys(where) && IsColumn(m, n) && Trim(n) == adm[j].0
    ensures adm[j].1 == Get(where, adm[j].0)
  {
    var k := adm[j].0;
    assert exists c | c in Keys(where) :: Trim(c) == k && IsColumn(m, c);
    n :| n in Keys(where) && Trim(n) == k && IsColumn(m, n);
  }

  /**
   * `parseCriteria`. `tryDate` is the date parsing of the list branch
   * (a unix timestamp, else free-form text).
   */
  function ParseCriteria(req: Req, cfg: Settings, m: Model, tryDate: string -> Option<int>): (r: Result<OMap<Criterion>, ApiError>)
    ensures r.Failure? && r.error == InvalidBlacklist <==> Blacklist(req, cfg, m).Failure?
    ensures r.Failure? ==> r.error != MissingIdParameter
  {
    match Blacklist(req, cfg, m)
    case Failure(e) => Failure(e)
    case Success(bl) => CompileAll(m, Admit(m, Merged(req, m, bl)), tryDate)
  }

  /**
   * With a usable blacklist `parseCriteria` succeeds exactly when the merged
   * value under every column compiles, keeps every column under its trimmed
   * name, and otherwise raises one of those columns' errors.
   */
  lemma ParseCriteriaColumns(req: Req, cfg: Settings, m: Model, tryDate: string -> Option<int>)
    requires Blacklist(req, cfg, m).Success?
    ensures var where := Merged(req, m, Blacklist(req, cfg, m).value);
            ParseCriteria(req, cfg, m, tryDate).Success? <==>
              forall n | n in Keys(where) && IsColumn(m, n) :: CompiledAt(m, where, Trim(n), tryDate).Success?
    ensures var where := Merged(req, m, Blacklist(req, cfg, m).value);
            ParseCriteria(req, cfg, m, tryDate).Success? ==>
              forall n | n in Keys(where) && IsColumn(m, n) :: Trim(n) in Keys(ParseCriteria(req, cfg, m, tryDate).value)
    ensures var where := Merged(req, m, Blacklist(req, cfg, m).value);
            ParseCriteria(req, cfg, m, tryDate).Failure? ==>
              exists n | n in Keys(where) && IsColumn(m, n) ::
                CompiledAt(m, where, Trim(n), tryDate) == Failure(ParseCriteria(req, cfg, m, tryDate).error)
  {
    var where := Merged(req, m, Blacklist(req, cfg, m).value);
    assert ParseCriteria(req, cfg, m, tryDate) == CompileAll(m, Admit(m, where), tryDate);
    CompileAdmitted(m, where, tryDate);
  }

  /**
   * Every key of the parsed criteria is the trimmed name of an attribute of
   * the model that is an object without `collection`, and its criterion is
   * the merged value for that key, compiled.
   */
  lemma ParseCriteriaAdmission(req: Req, cfg: Settings, m: Model, tryDate: string -> Option<int>, k: string)
    requires ParseCriteria(req, cfg, m, tryDate).Success?
    requires k in Keys(ParseCriteria(req, cfg, m, tryDate).value)
    ensures exists n | n in Keys(m.attributes) :: Trim(n) == k && IsColumn(m, n)
    ensures var bl := Blacklist(req, cfg, m).value;
            CompileValue(Get(Merged(req, m, bl), k).GetOr(""), IsDateAttribute(m, k), tryDate)
              == Success(Get(ParseCriteria(req, cfg, m, tryDate).value, k).value)
  {
    var where := Merged(req, m, Blacklist(req, cfg, m).value);
    assert ParseCriteria(req, cfg, m, tryDate) == CompileAll(m, Admit(m, where), tryDate);
    CompiledAdmission(m, where, tryDate, k);
  }

  /** Every key the admitted criteria compile to names a column, and holds that column's compiled value. */
  lemma CompiledAdmission(m: Model, where: OMap<string>, tryDate: string -> Option<int>, k: string)
    requires CompileAll(m, Admit(m, where), tryDate).Success?
    requires k in Keys(CompileAll(m, Admit(m, where), tryDate).value)
    ensures exists n | n in Keys(m.attributes) :: Trim(n) == k && IsColumn(m, n)
    ensures CompileValue(Get(where, k).GetOr(""), IsDateAttribute(m, k), tryDate)
              == Success(Get(CompileAll(m, Admit(m, where), tryDate).value, k).value)
  {
    var adm := Admit(m, where);
    var r := CompileAll(m, adm, tryDate).value;
    assert Keys(r) == Keys(adm);
    var j :| 0 <= j < |r| && r[j].0 == k;
    assert adm[j].0 == Keys(adm)[j] == k;
    var n :| n in Keys(where) && Trim(n) == k && IsColumn(m, n);
    assert n in Keys(m.attributes);
    SameKeysWellFormed(r, adm);
    GetOfWellFormed(r, j);
  }
}

=== FILE: wrappers.dfy ===
/** Failure-compatible wrappers shared by the query compiler. */
module Wrappers {

  /** A value that may be absent: JavaScript's `undefined` (or `false`) next to a real value. */
  datatype Option<+T> = None | Some(value: T) {

    predicate IsFailure() {
      None?
    }

    function PropagateFailure<U>(): Option<U>
      requires None?
    {
      None
    }

    function Extract(): T
      requires Some?
    {
      value
    }

    function GetOr(default: T): T {
      match this
      case Some(v) => v
      case None => default
    }
  }

  /** The outcome of a computation that may throw. */
  datatype Result<+R, +E> = Success(value: R) | Failure(error: E) {

    predicate IsFailure() {
      Failure?
    }

    function PropagateFailure<U>(): Result<U, E>
      requires Failure?
    {
      Failure(error)
    }

    function Extract(): R
      requires Success?
    {
      value
    }
  }
}
